=== FILE: README.md ===
# Explicit-free-list boundary-tag allocator in Dafny

This project models the malloc package in `mm.c` and proves properties of the model.

## How the allocator works

- **Heap layout.** The heap is a run of blocks between an 8-byte prologue and a 0-size epilogue header. Every block carries a header and a footer word. Each holds the block size, a multiple of 8, with the allocated flag in bit 0.
- **Free list.** Free blocks are threaded on a LIFO, doubly linked list through their payloads: PREV at bp and SUCC at bp + 4. The head is `mp_firstfreeblock`. The count `m_freecount` is kept beside it.
- **Entry points.**
  - `mm_init` lays down the prologue and epilogue and grows the heap by one chunk.
  - `mm_malloc` rounds the request up to a block size. It searches the list first-fit, grows the heap when nothing fits, and places the block, splitting off a large enough remainder.
  - `mm_free` marks the block free and coalesces it with its free neighbours.
  - `mm_checkheap` walks the heap and reports bad tags.

The earlier variant `mm_old.c` shares the tag macros, the size arithmetic, the split decision and the coalescing cases. Its list routines `addFree` and `removeFree` are recorded only as calls in a log of events.

## The model

**State.** The allocator state is an immutable record `Heap(mem, heapList, head, count, brk, limit)`:

- `mem` maps byte addresses to word cells. An unwritten word reads as 0.
- `heapList`, `head` and `count` are `p_heap_list`, `mp_firstfreeblock` and `m_freecount`.
- `brk` and `limit` stand for the memory provider. `Sbrk` hands out bytes at `brk` up to `limit` and reports failure with -1.

Each C routine is a pure function from states to states:

- `Coalesce`, `Place`, `ExtendHeap`, `Free`, `Init`, `FreeBlock` and `AllocateBlock` are functions.
- `find_fit` and `mm_malloc` are methods, because `find_fit` is a loop along the list.

**Abstract layer.** Proofs go through an abstract description of the state:

- a tiling `seq<Block(bp, size, alloc)>` from just after the prologue up to the break;
- a free list `seq<int>` of block pointers in list order.

**The invariant `Valid` (`Invariant` module).** It says all of the following:

- the blocks tile the heap;
- every header and footer holds the block's tag;
- the prologue and epilogue are intact;
- no two adjacent blocks are both free;
- the list's links, head and count agree with the free-list sequence;
- the listed blocks are exactly the free blocks.

Every entry point is proved to preserve `Valid`, and every state satisfying `Valid` passes `mm_checkheap`.

**The `mm_old.c` variant (`OldAllocator` module).**

- A `Run` is a heap plus a log of `Write`, `AddFree` and `RemoveFree` events.
- Its properties are about the order of the logged calls.
- The set of listed blocks is read back from the log (`ListedAfter`).

**Files.** Each file below holds one module.

| file | module |
|---|---|
| `wrappers.dfy` | `Option` |
| `words.dfy` | constants and tag macros |
| `heap_state.dfy` | state record, `PUT`, tag pairs, provider |
| `layout.dfy` | tiling and its tags |
| `free_list.dfy` | `free_block` and `allocate_block` |
| `invariant.dfy` | invariant |
| `coalesce.dfy` | `coalesce` |
| `place.dfy` | `place` |
| `extend.dfy` | `extend_heap` |
| `malloc.dfy` | `asize`, `find_fit`, `mm_malloc` |
| `free.dfy` | `mm_free` |
| `init.dfy` | `mm_init` |
| `checkheap.dfy` | `mm_checkheap`, `checkblock` |
| `old.dfy` | `mm_old.c` |

## Model

| member | source | states |
|---|---|---|
| Words.Pack | mm.c:87 | PACK; PackRoundTrip states what it packs |
| Words.GetSize | mm.c:94 | GET_SIZE; PackRoundTrip and TagAt state what it reads back |
| Words.GetAlloc | mm.c:95 | GET_ALLOC; PackRoundTrip and TagAt state what it reads back |
| Words.Hdrp | mm.c:98 | HDRP; BlockOffsets states the offset |
| Words.Ftrp | mm.c:99 | FTRP, found from the size in the header; BlockOffsets and Layout.MacrosAt state where it lands |
| Words.NextBlkp | mm.c:102 | NEXT_BLKP; BlockOffsets and Layout.MacrosAt state where it lands |
| Words.PrevBlkp | mm.c:103 | PREV_BLKP, found from the size in the left footer; BlockOffsets and Layout.MacrosAt state where it lands |
| Words.PackRoundTrip | mm.c:87-95 | For a size that is a multiple of 8 and a flag of 0 or 1, PACK is size + flag, and GET_SIZE and GET_ALLOC give back exactly the size and the flag (mm_old.c:75-83 uses the same macros) |
| Words.BlockOffsets | mm.c:98-103 | Given a header holding (size, alloc) and a left footer holding (psize, palloc): HDRP is bp-4, FTRP is bp+size-8, NEXT_BLKP is bp+size, PREV_BLKP is bp-psize, and the flag read is alloc (the same macros are at mm_old.c:86-91) |
| Words.SizeSub | mm.c:334 | size_t subtraction lies in [0, 2^32): exact when there is no borrow, and 2^32 too large when the subtrahend is bigger |
| Words.ExtendBytes | mm.c:303 | extend_heap's byte count is a multiple of 8, at least 4·words and less than 4·words + 8 |
| Words.ExtendBytesExact | mm.c:200-201 | Converting MAX(asize, CHUNKSIZE) bytes to words and back through extend_heap's rounding gives the same byte count |
| HeapState.Put | mm.c:91 | PUT changes exactly the one word it stores, and no global |
| HeapState.SetTagsWrites | mm.c:222-223 | Writing a header and then the footer found from it stores the tag at bp-4 and at bp+size-8 and nowhere else |
| HeapState.FooterFirstIsSetTags | mm.c:404-405 | Coalesce case 3 stores the footer first and then the header. This gives the same state as writing the header first |
| Layout.MacrosAt | mm.c:98-103 | On a laid-out heap, the macros applied to block k read its size and flag, find its footer, and reach its physical neighbours. They read the neighbours' flags, which are 1 at the prologue and epilogue |
| FreeList.FreeBlock | mm.c:470-485 | free_block; FreeBlockPushes and Invariant.PushStep state what it does to the list |
| FreeList.AllocateBlock | mm.c:487-526 | allocate_block, all four unlink cases and the count == -1 branch; AllocateBlockUnlinks and Invariant.UnlinkStep state what it does to the list |
| FreeList.FreeBlockPushes | mm.c:470-485 | free_block pushes bp at the head: PREV(bp) is NULL, and SUCC(bp) is the old first block or NULL when the list was empty (head NULL or still p_heap_list). The count goes up by one, the list stays well formed, and only link words change |
| FreeList.AllocateBlockUnlinks | mm.c:487-526 | allocate_block of the k-th listed block leaves the list without that node, in every case (sole, tail, head, interior). The count drops by one, bp's links are cleared, and only link words change |
| Invariant.UnlinkStep | mm.c:487-526 | Unlinking a listed block keeps every tag, and the list still agrees with memory, minus exactly that block |
| Invariant.PushStep | mm.c:470-485 | Once the only unlisted free block is pushed by free_block, the full invariant holds with it at the head |
| Coalescing.Coalesce | mm.c:380-422 | coalesce, choosing its case from PREV_BLKP's footer and NEXT_BLKP's header; CoalesceMerges states its result |
| Coalescing.CoalesceNext | mm.c:392-398 | the stores of case 2; CoalesceNextMerges states their effect |
| Coalescing.CoalescePrev | mm.c:400-407 | the stores of case 3; CoalescePrevMerges states their effect |
| Coalescing.CoalesceBoth | mm.c:409-418 | the stores of case 4; CoalesceBothMerges states their effect |
| Coalescing.MergedBlockShape | mm.c:395-414 | The merged block is well formed, spans the run and its size is the sum of the merged blocks' sizes |
| Coalescing.MergedNoAdjacentFree | mm.c:380-422 | After merging, no two physically adjacent blocks are both free |
| Coalescing.MergedListed | mm.c:392-419 | Once the absorbed neighbours are unlinked, the surviving list holds exactly the free blocks outside the merged run |
| Coalescing.CoalesceAlone | mm.c:386-390 | Case 1: with both neighbours allocated, only free_block(bp) happens and the blocks are unchanged |
| Coalescing.CoalesceNextMerges | mm.c:392-398 | Case 2: the next block is unlinked and absorbed, and the invariant is restored with the merged block listed first |
| Coalescing.CoalescePrevMerges | mm.c:400-407 | Case 3: the previous block is unlinked and absorbs bp, and coalesce returns PREV_BLKP(bp) |
| Coalescing.CoalesceBothMerges | mm.c:409-418 | Case 4: both neighbours are unlinked and one block replaces the three, and coalesce returns PREV_BLKP(bp) |
| Coalescing.CoalesceMerges | mm.c:380-422 | coalesce returns the pointer of the merged free block and restores the invariant. The run of free blocks becomes one listed block at the head, and the absorbed neighbours leave the list |
| Placing.Place | mm.c:327-351 | place, with the size_t test of mm.c:334; PlaceValid states its effect on a free block, and PlaceZeroRelists its effect for asize 0 |
| Placing.Carve | mm.c:334-348 | place leaves an allocated block at bp that holds asize and wastes less than 16 bytes, ending where the free block ended. When csize - asize is at least 16, and only then, it is exactly asize bytes followed by a free remainder of csize - asize bytes. Otherwise it is the whole block of csize bytes |
| Placing.CarveNoAdjacentFree | mm.c:334-348 | place keeps no two adjacent blocks free |
| Placing.PlacedFreeBps | mm.c:332-341 | After place, the free blocks are the old ones without bp, plus the remainder exactly when it splits |
| Placing.PlaceSplits | mm.c:334-341 | When csize - asize is at least 16, place restores the invariant with bp allocated at asize and the remainder free and listed |
| Placing.PlaceWhole | mm.c:342-348 | When the remainder is under 16 bytes, place restores the invariant with the whole block allocated and unlisted |
| Placing.PlaceValid | mm.c:327-351 | place restores the invariant. bp is unlinked first, and a split-off remainder becomes the new list head |
| Placing.PlaceZeroRelists | mm.c:327-351 | place(bp, 0) on a free block: the 0-size header sends FTRP to bp-8, which now reads PACK(0, 1), and NEXT_BLKP to bp itself, so bp keeps a free header of its whole size and is the list head again |
| Extending.ExtendHeap | mm.c:297-318 | extend_heap; ExtendValid and ExtendRefused state its outcome |
| Extending.ExtendedShape | mm.c:303-316 | After extend_heap, the last block is free and ends at the new break. Its size is the new bytes plus the old last block when that one was free |
| Extending.GrownPending | mm.c:304-312 | The new free block and epilogue tags leave exactly the state coalesce expects: the new block is the one unlisted free block, and only the old last block may be a free neighbour |
| Extending.ExtendRefused | mm.c:304-307 | When the provider refuses, extend_heap returns NULL and changes nothing |
| Extending.ExtendValid | mm.c:297-318 | extend_heap fails exactly when the rounded byte count does not fit under the limit. Otherwise it restores the invariant and returns the merged last block |
| Allocating.AdjustSizeAsWritten | mm.c:180-187 | asize as written, in 32-bit size_t; AdjustSizeAsWrittenWraps and AdjustSizeCounterexample state where it goes wrong |
| Allocating.AdjustSize | mm.c:180-187 | The corrected asize is None exactly when size + 15 exceeds size_t. Otherwise it is a multiple of 8, at least 16, and in [size+8, size+16) |
| Allocating.AdjustSizeAsWrittenWraps | mm.c:186 | As written, asize holds the request plus overhead exactly when size + 15 does not wrap. When it wraps, asize is below the minimum block |
| Allocating.AdjustSizeCounterexample | mm.c:186 | As written, a request of 2^32 - 8 bytes gets asize 0 |
| Allocating.FirstFitIndex | mm.c:362-374 | Gives the list position of the first block that is free and at least asize, with no earlier block fitting, or the list length when none fits |
| Allocating.FindFit | mm.c:357-375 | find_fit follows SUCC from the head. It returns the first listed block that fits, or NULL at the end of the list or when the count is negative |
| Allocating.NoFitIff | mm.c:368 | find_fit's test fails on every listed block exactly when no free block of the heap is large enough |
| Allocating.FitBlock | mm.c:190-193 | When find_fit finds a block, that block is a free block of the tiling with room for asize, so mm_malloc does not fail |
| Allocating.MallocPlaced | mm.c:194-196 | Placing asize for a request inside a free block hands out an allocated block at bp that holds the request with less than 24 bytes to spare. Every block allocated before stays, and no other block becomes allocated |
| Allocating.MallocRefused | mm.c:199-205 | With no fit and a refusing provider, mm_malloc fails and the heap is unchanged |
| Allocating.MallocGrows | mm.c:199-201 | With no fit and a granting provider, the break moves up by exactly MAX(asize, CHUNKSIZE) bytes and stays within the limit; heap_listp does not move. The heap stays valid, the block extend_heap returns is free and holds asize, and the allocated blocks are the same before and after |
| Allocating.PlaceGrants | mm.c:194-196 | place on the chosen block keeps the invariant, heap_listp and the break. It hands out an 8-aligned block that holds the request; every other allocated block was allocated before, and every block allocated before stays |
| Allocating.Malloc | mm.c:170-211 | mm_malloc with the corrected asize of the first Finding (as written, mm.c:186 goes on with a wrapped asize instead of returning NULL). It returns NULL and changes nothing exactly when the request is 0, its adjusted size cannot be represented, or neither fits nor can be grown for. Otherwise it returns an aligned allocated block that holds the request and was not allocated before the call. It keeps the invariant and every block allocated before, and allocates no other block. heap_listp never moves. The break stays put when a free block fits and moves up by MAX(asize, CHUNKSIZE) when none does |
| Freeing.Free | mm.c:218-227 | mm_free; FreeValid and FreedShape state its effect |
| Freeing.ReleasedPending | mm.c:220-223 | Writing the block's tags as free leaves exactly the state coalesce expects: one unlisted free block, the only possible exception to no-adjacent-free |
| Freeing.FreeValid | mm.c:218-227 | mm_free restores the invariant. The block becomes free and merges with its free neighbours into one listed block |
| Freeing.FreedShape | mm.c:218-227 | The freed bytes lie inside one free block afterwards, and every other allocated block is unchanged |
| Initializing.Init | mm.c:141-162 | mm_init with the failure value of mem_sbrk tested; InitValid and InitRefused state its outcome |
| Initializing.InitAsWritten | mm.c:141-162 | mm_init as written; InitAsWrittenStoresOnFailure shows the store through the failure value |
| Initializing.StrayStores | mm.c:158-159 | the two stores after extend_heap; StrayStoresHarmless states that they keep the heap valid |
| Initializing.SkeletonSound | mm.c:145-151 | The prologue, epilogue and empty list that mm_init writes form a sound heap with no blocks |
| Initializing.StrayStoresHarmless | mm.c:158-159 | The two stores after extend_heap leave the heap valid. One hits the first free block's SUCC word, which already holds NULL, and the other hits a payload word |
| Initializing.InitRefused | mm.c:144 | Comparing with the failure value, mm_init changes nothing when the provider refuses the first 16 bytes |
| Initializing.InitValid | mm.c:141-162 | mm_init with the corrected failure test of the second Finding (as written, mm.c:144 compares with NULL): it succeeds exactly when the provider grants 16 + CHUNKSIZE bytes. The heap is then one free block of CHUNKSIZE bytes, alone on the list |
| Initializing.InitAsWrittenStoresOnFailure | mm.c:144-148 | As written, with an exhausted provider, mm_init does not stop at the failure value: the stores of mm.c:145-148 go through (void *)-1, which in C is undefined behaviour and a fault on a usual target. The model, whose memory has no invalid addresses, shows the prologue header stored at address 3 and a -1 return from the later extend_heap |
| Checking.Walk | mm.c:272 | the loop of mm_checkheap, from a block to the first header with size 0; WalkTiled states what it visits on a laid-out heap |
| Checking.CheckHeap | mm.c:257-289 | mm_checkheap's complaints; CheckHeapClean and SoundChecks state when there are none |
| Checking.CheckBlock | mm.c:445-455 | checkblock complains about nothing exactly when bp is 8-aligned and its header word equals its footer word |
| Checking.ChecksEmpty | mm.c:272-279 | The loop's checkblock calls complain about nothing exactly when every visited block is aligned with matching tags |
| Checking.CheckHeapClean | mm.c:257-289 | mm_checkheap reports nothing exactly when four things hold: the prologue is an allocated 8-byte block, p_heap_list and every visited block pass checkblock, and the header where the walk stops is an allocated 0-size epilogue |
| Checking.WalkTiled | mm.c:272 | On a laid-out heap, the loop from block k visits the remaining blocks in address order and stops at the break |
| Checking.CheckHeapAccepts | mm.c:257-289 | On a laid-out heap, the walk visits the prologue and then every block, and mm_checkheap reports nothing |
| Checking.SoundChecks | mm.c:257-289 | Every state satisfying the invariant passes mm_checkheap, so every state that mm_init, mm_malloc and mm_free leave passes it |
| OldAllocator.OldCoalesce | mm_old.c:323-364 | the old coalesce with its list calls logged; OldCoalesceMerges states its result |
| OldAllocator.OldPlace | mm_old.c:270-295 | the old place; OldPlaceValid states its result |
| OldAllocator.OldExtendHeap | mm_old.c:242-261 | the old extend_heap; OldExtendValid states its result |
| OldAllocator.OldFree | mm_old.c:178-186 | the old mm_free; OldFreeValid states its result |
| OldAllocator.OldRequestSize | mm_old.c:148-155 | the old mm_malloc up to asize; OldRequestSizeBounds states its value |
| OldAllocator.CallShape | mm_old.c:334-360 | A log of removals, then stores, then one addFree issues every removal before anything else, and has exactly one insertion, last. Read as list operations, it drops the removed blocks and adds the inserted one |
| OldAllocator.OldTakes | mm_old.c:327-359 | The old coalesce picks its case from the neighbours' flags. Case 1 returns bp with nothing done, and the other cases start with removeFree(bp) |
| OldAllocator.MergeCalls | mm_old.c:334-360 | In a merging coalesce, every removeFree comes before any tag store, and exactly one addFree (of the merged block) comes last. The removed blocks are exactly the free blocks of the merged run |
| OldAllocator.OldCoalesceMerges | mm_old.c:323-364 | The old coalesce writes one free block with the summed size at bp (case 2) or PREV_BLKP(bp) (cases 3-4) and returns it. It changes nothing exactly in case 1, and otherwise orders its list calls as MergeCalls says |
| OldAllocator.PlaceCalls | mm_old.c:278-292 | Read as list operations, the old place unlists bp and lists the remainder exactly when it splits |
| OldAllocator.OldPlaceValid | mm_old.c:270-295 | The old place splits exactly as mm.c's place (allocated asize then free csize - asize when that is at least 16, else one allocated block of csize). It logs the tag stores and list calls in source order |
| OldAllocator.ExtendCalls | mm_old.c:253-259 | The old extend_heap's log has no removals and ends with its one addFree of the new block |
| OldAllocator.OldExtendValid | mm_old.c:242-261 | The old extend_heap fails exactly when the rounded byte count does not fit, and then changes nothing. Otherwise it appends a free block with a new epilogue and returns it without coalescing, which can leave two adjacent free blocks |
| OldAllocator.ReleaseCalls | mm_old.c:180-184 | Read as list operations, the old mm_free's stores and addFree list the released block |
| OldAllocator.OldReleasedValid | mm_old.c:180-184 | The old mm_free's first steps mark block k free with its size, append exactly two tag stores and addFree(bp) to the log, and list bp |
| OldAllocator.StoreTagsIs | mm_old.c:279-280 | Two PUTs through HDRP and FTRP store the tag in the header and the footer, as SetTags does, and log exactly those two stores |
| OldAllocator.OldFreeValid | mm_old.c:178-186 | The old mm_free first writes the block's tags as free with the same size, then calls addFree. The heap ends as mm.c's mm_free leaves it, with exactly its free blocks listed |
| OldAllocator.OldRequestSizeBounds | mm_old.c:148-155 | The old mm_malloc has no block for a request of 0. Otherwise, unless size + 15 wraps, asize is a multiple of 8, at least 16, in [size+8, size+16), and equal to the corrected AdjustSize. When the sum wraps it is below the minimum block |

## Left out

- The memory provider (memlib) is not part of this model. `mem_sbrk` is `Sbrk` on the `brk`/`limit` fields, and it fails with -1 when the request would pass the limit.
- Printing: `printf`, `printblock`, `printfree` and the verbose branches of `mm_checkheap` only print. `mm_checkheap` returns its complaints as a sequence instead.
- `mm_realloc` (mm.c:234-252) is not modelled: its `memcpy` and `exit(1)` are outside the model. Its copy length is the block size read from the header, which includes the 8 bytes of overhead, not the payload size.
- The team record (mm.c:70-75) is data only.
- The `m_freecount == -1` branch of `allocate_block` (mm.c:497-501) is written out in `AllocateBlock`. Under the invariant the count equals the list length, so no lemma reaches that branch.
- Machine word width: words are unbounded integer cells on a 32-bit target with 4-byte words and pointers. Wrap-around is modelled where it changes a result: the `asize` sum and the `csize - asize` test in `place`. `Malloc` assumes the provider's limit lies within the 32-bit address space.
- `Checking.Walk`: the loop's termination is argued from the finitely many written words, because an unwritten word reads as 0. On real memory, a corrupt heap could send the walk outside the heap.
- `mm_old.c`'s `addFree` and `removeFree` bodies (mm_old.c:366-395) are not modelled, because they store allocation bits instead of pointers and their PRE word overlaps the previous block's footer. Their calls are logged as events, so their stores never reach the modelled heap.
- `mm_old.c`'s `find_fit` (mm_old.c:302-318) walks physical blocks bounded by `freecount`. For that reason the old `mm_malloc` is modelled only up to `asize`. The old `mm_init`, `mm_realloc` and `mm_checkheap` are left out as well.
- `mm_old.c`'s `freecount` is not modelled: it is counted twice for a new block (mm_old.c:256 and mm_old.c:368).
- Concurrency: the code has none.
- Invalid addresses: memory is a total map from addresses to words, so a load or store outside the provider's range is an ordinary read or update, never a fault. Undefined behaviour such as the stores through (void *)-1 in the as-written mm_init shows up as stores.
- Allocating.Malloc: models mm_malloc with the corrected asize. As written, a request above 2^32 - 16 bytes goes on with a wrapped asize of 0 or 8. That path past asize is not modelled as a whole; AdjustSizeCounterexample and Placing.PlaceZeroRelists show where it leads.
- Initializing.InitValid: models mm_init with the failure value of mem_sbrk tested. The as-written NULL comparison is modelled separately as InitAsWritten.
- OldAllocator.OldFreeValid: fixes only the first three events of the log (the tag stores and the addFree). The order of the rest is what OldAllocator.OldCoalesceMerges states about the coalesce that follows.
- OldAllocator.OldPlaceValid: requires the block size to be below 2^32, so that the size_t difference `csize - asize` is exact.

## Findings

| source | as written | input that shows it | evidently intended | confidence | as-written member | corrected member |
|---|---|---|---|---|---|---|
| mm.c:186 | `asize = DSIZE * ((size + OVERHEAD + DSIZE-1) / DSIZE)` is computed in 32-bit size_t, so the sum wraps for the largest requests (mm_old.c:155 has the same line) | size = 2^32 - 8 gives asize = 0, and find_fit accepts the first listed block. In place, the 0-size header makes FTRP(bp) = bp - 8, so the previous block's footer becomes PACK(0, 1), and NEXT_BLKP(bp) = bp, so the remainder's tags rewrite bp's header as PACK(csize, 0) and free_block(bp) lists bp again. mm_malloc returns a block that is still free and listed (Placing.PlaceZeroRelists) | refuse (return NULL) a request whose adjusted size cannot be represented | high; not executed | Allocating.AdjustSizeCounterexample | Allocating.AdjustSize |
| mm.c:144 | the result of `mem_sbrk` is compared with NULL, but the provider reports failure with `(void *)-1`, which extend_heap tests (mm.c:304) | a provider with brk = limit = 8: the test passes and the stores at mm.c:145-148 go through (void *)-1 (undefined behaviour, a fault on a usual target). The model, whose memory has no invalid addresses, shows them as stores (the prologue header lands at -1 + 4 = 3) followed by a -1 return from extend_heap | test `== (void *)-1` and return -1 before any store | medium; not executed | Initializing.InitAsWrittenStoresOnFailure | Initializing.InitValid |

=== FILE: checkheap.dfy ===
/**
 * mm_checkheap and checkblock: walk the heap from the prologue by header
 * sizes, and report a bad prologue, a block pointer that is not 8-byte
 * aligned, a header that differs from its footer, and a bad epilogue.
 * The reports are returned as a sequence of complaints instead of printed.
 */
module Checking {
  import opened Words
  import opened HeapState
  import opened Layout
  import opened Invariant

  datatype Complaint = BadPrologue | Misaligned(bp: int) | TagMismatch(bp: int) | BadEpilogue

  /** checkblock(bp): the complaints about one block. */
  function CheckBlock(m: Mem, bp: int): (r: seq<Complaint>)
    ensures r == [] <==> bp % 8 == 0 && Get(m, Hdrp(bp)) == Get(m, Ftrp(m, bp))
  {
    (if bp % 8 != 0 then [Misaligned(bp)] else [])
    + (if Get(m, Hdrp(bp)) != Get(m, Ftrp(m, bp)) then [TagMismatch(bp)] else [])
  }

  /** The written words at or above address lo. */
  function AtOrAbove(m: Mem, lo: int): set<int>
  {
    set a | a in m && a >= lo
  }

  /**
   * A header with a positive size was written, and the next header lies
   * above it: fewer written words remain ahead of the walk.
   */
  lemma WalkShrinks(m: Mem, bp: int)
    requires GetSize(m, Hdrp(bp)) > 0
    ensures bp < NextBlkp(m, bp)
    ensures |AtOrAbove(m, Hdrp(NextBlkp(m, bp)))| < |AtOrAbove(m, Hdrp(bp))|
  {
    var x := Hdrp(bp);
    var ahead := AtOrAbove(m, Hdrp(NextBlkp(m, bp)));
    var here := AtOrAbove(m, x);
    assert x in m;
    assert x in here && x !in ahead;
    assert ahead <= here - {x};
    SubsetCard(ahead, here - {x});
  }

  lemma SubsetCard(a: set<int>, b: set<int>)
    requires a <= b
    ensures |a| <= |b|
  {
    assert b == a + (b - a);
    assert a * (b - a) == {};
  }

  /** One turn of the loop: a block with a positive header size is visited, then the walk goes on from the next block. */
  lemma WalkVisits(m: Mem, bp: int)
    requires GetSize(m, Hdrp(bp)) > 0
    ensures Walk(m, bp) == ([bp] + Walk(m, NextBlkp(m, bp)).0, Walk(m, NextBlkp(m, bp)).1)
  {
  }

  /**
   * The loop of mm_checkheap from bp: the block pointers it visits (every
   * one whose header size is positive) and the pointer at which it stops.
   * Unwritten words read as 0, so the walk ends within the written memory.
   */
  function Walk(m: Mem, bp: int): (r: (seq<int>, int))
    decreases |AtOrAbove(m, Hdrp(bp))|
  {
    if GetSize(m, Hdrp(bp)) > 0 then
      WalkShrinks(m, bp);
      var w := Walk(m, NextBlkp(m, bp));
      ([bp] + w.0, w.1)
    else ([], bp)
  }

  /** The checkblock complaints for a run of visited blocks, in order. */
  function Checks(m: Mem, ps: seq<int>): seq<Complaint>
  {
    if |ps| == 0 then [] else CheckBlock(m, ps[0]) + Checks(m, ps[1..])
  }

  function Prologue(m: Mem, h: int): seq<Complaint>
  {
    if GetSize(m, Hdrp(h)) != DSIZE || GetAlloc(m, Hdrp(h)) == 0 then [BadPrologue] else []
  }

  function Epilogue(m: Mem, bp: int): seq<Complaint>
  {
    if GetSize(m, Hdrp(bp)) != 0 || GetAlloc(m, Hdrp(bp)) == 0 then [BadEpilogue] else []
  }

  /**
   * mm_checkheap: the prologue test, checkblock of p_heap_list, checkblock of
   * every block the loop visits (starting again at p_heap_list), and the
   * epilogue test where the loop stops.
   */
  function CheckHeap(m: Mem, h: int): seq<Complaint>
  {
    var w := Walk(m, h);
    Prologue(m, h) + CheckBlock(m, h) + Checks(m, w.0) + Epilogue(m, w.1)
  }

  /** The block pointers of a tiling, in address order. */
  function Bps(bs: seq<Block>): (r: seq<int>)
    ensures |r| == |bs| && forall i :: 0 <= i < |bs| ==> r[i] == bs[i].bp
  {
    if |bs| == 0 then [] else [bs[0].bp] + Bps(bs[1..])
  }

  // ---------------------------------------------------------------------
  // What a clean report means

  /** No checkblock complaint for a run exactly when every block in it is aligned with matching tags. */
  lemma {:induction false} ChecksEmpty(m: Mem, ps: seq<int>)
    ensures Checks(m, ps) == [] <==>
              forall i :: 0 <= i < |ps| ==> ps[i] % 8 == 0 && Get(m, Hdrp(ps[i])) == Get(m, Ftrp(m, ps[i]))
  {
    if |ps| > 0 {
      ChecksEmpty(m, ps[1..]);
      assert forall i :: 1 <= i < |ps| ==> ps[i] == ps[1..][i - 1];
    }
  }

  /**
   * mm_checkheap reports nothing exactly when the prologue is an allocated
   * 8-byte block, the epilogue where the walk stops is an allocated 0-size
   * header, and p_heap_list and every visited block are 8-byte aligned
   * with header equal to footer.
   */
  lemma CheckHeapClean(m: Mem, h: int)
    ensures CheckHeap(m, h) == [] <==>
              && GetSize(m, Hdrp(h)) == DSIZE && GetAlloc(m, Hdrp(h)) != 0
              && GetSize(m, Hdrp(Walk(m, h).1)) == 0 && GetAlloc(m, Hdrp(Walk(m, h).1)) != 0
              && h % 8 == 0 && Get(m, Hdrp(h)) == Get(m, Ftrp(m, h))
              && forall i :: 0 <= i < |Walk(m, h).0| ==>
                   Walk(m, h).0[i] % 8 == 0 && Get(m, Hdrp(Walk(m, h).0[i])) == Get(m, Ftrp(m, Walk(m, h).0[i]))
  {
    ChecksEmpty(m, Walk(m, h).0);
  }

  // ---------------------------------------------------------------------
  // A laid-out heap passes

  /**
   * The blocks from the walk's position on, each with a positive 8-aligned
   * size in its header and ending where the next begins, the last ending at
   * brk, where the epilogue header sits.
   */
  ghost predicate BlockChain(m: Mem, bs: seq<Block>, brk: int)
    decreases |bs|
  {
    if |bs| == 0 then Get(m, brk - WSIZE) == Pack(0, 1)
    else
      && bs[0].size % 8 == 0 && bs[0].size > 0
      && Get(m, bs[0].bp - WSIZE) == bs[0].size + AllocBit(bs[0])
      && End(bs[0]) == (if |bs| == 1 then brk else bs[1].bp)
      && BlockChain(m, bs[1..], brk)
  }

  /** Along a chain of blocks the walk visits each block and stops at brk. */
  lemma {:induction false} WalkChain(m: Mem, bs: seq<Block>, brk: int)
    requires BlockChain(m, bs, brk) && |bs| > 0
    ensures Walk(m, bs[0].bp) == (Bps(bs), brk)
    decreases |bs|
  {
    WalkStep(m, bs[0].bp, bs[0].size, AllocBit(bs[0]));
    if |bs| > 1 {
      WalkChain(m, bs[1..], brk);
    } else {
      WalkStops(m, brk);
    }
  }

  /** Every suffix of a laid-out heap's blocks is a chain. */
  lemma {:induction false} TiledChain(m: Mem, h: int, brk: int, bs: seq<Block>, k: int)
    requires Tiled(h, brk, bs) && TagsAgree(m, h, brk, bs)
    requires 0 <= k <= |bs|
    ensures BlockChain(m, bs[k..], brk)
    decreases |bs| - k
  {
    if k < |bs| {
      WalkTiledAt(m, h, brk, bs, k);
      TiledChain(m, h, brk, bs, k + 1);
      assert bs[k..][1..] == bs[k + 1..];
    }
  }

  /** From the k-th block of a laid-out heap the walk visits the rest of the blocks and stops at the epilogue. */
  lemma WalkTiled(m: Mem, h: int, brk: int, bs: seq<Block>, k: int)
    requires Tiled(h, brk, bs) && TagsAgree(m, h, brk, bs)
    requires 0 <= k < |bs|
    ensures Walk(m, bs[k].bp) == (Bps(bs[k..]), brk)
  {
    TiledChain(m, h, brk, bs, k);
    WalkChain(m, bs[k..], brk);
  }

  /** What the walk needs to know about block k of a laid-out heap. */
  lemma WalkTiledAt(m: Mem, h: int, brk: int, bs: seq<Block>, k: int)
    requires Tiled(h, brk, bs) && TagsAgree(m, h, brk, bs)
    requires 0 <= k < |bs|
    ensures bs[k].size % 8 == 0 && bs[k].size > 0
    ensures Get(m, bs[k].bp - WSIZE) == bs[k].size + AllocBit(bs[k])
    ensures k + 1 < |bs| ==> bs[k].bp + bs[k].size == bs[k + 1].bp
    ensures k + 1 == |bs| ==> bs[k].bp + bs[k].size == brk && Get(m, brk - WSIZE) == Pack(0, 1)
  {
    assert WellSized(bs[k]);
  }

  /** One turn of the loop at a header holding a positive size. */
  lemma WalkStep(m: Mem, bp: int, size: int, alloc: int)
    requires size % 8 == 0 && size > 0
    requires alloc == 0 || alloc == 1
    requires Get(m, bp - WSIZE) == size + alloc
    ensures Walk(m, bp) == ([bp] + Walk(m, bp + size).0, Walk(m, bp + size).1)
  {
    TagAt(m, bp - WSIZE, size, alloc);
    WalkVisits(m, bp);
  }

  /** At the epilogue header the loop stops at once. */
  lemma WalkStops(m: Mem, brk: int)
    requires Get(m, brk - WSIZE) == Pack(0, 1)
    ensures Walk(m, brk) == ([], brk)
  {
    TagAt(m, brk - WSIZE, 0, 1);
  }

  /**
   * On a laid-out heap mm_checkheap reports nothing: the loop visits the
   * prologue and then every block in address order, and stops at the
   * epilogue at the break.
   */
  lemma CheckHeapAccepts(m: Mem, h: int, brk: int, bs: seq<Block>)
    requires Tiled(h, brk, bs) && TagsAgree(m, h, brk, bs)
    ensures Walk(m, h) == ([h] + Bps(bs), brk)
    ensures CheckHeap(m, h) == []
  {
    WalkFromPrologue(m, h, brk, bs);
    BlocksPass(m, h, brk, bs);
    CleanWalk(m, h, brk, Bps(bs));
  }

  /**
   * A walk from an intact prologue over blocks that pass checkblock, ending
   * at an intact epilogue, draws no complaint.
   */
  lemma CleanWalk(m: Mem, h: int, brk: int, ps: seq<int>)
    requires h % 8 == 0 && Get(m, h - WSIZE) == Pack(OVERHEAD, 1) && Get(m, h) == Pack(OVERHEAD, 1)
    requires Get(m, brk - WSIZE) == Pack(0, 1)
    requires Walk(m, h) == ([h] + ps, brk) && Checks(m, ps) == []
    ensures CheckHeap(m, h) == []
  {
    TagAt(m, h - WSIZE, DSIZE, 1);
    TagAt(m, brk - WSIZE, 0, 1);
    ChecksCons(m, h, ps);
  }

  /** checkblock finds nothing wrong with any block of a laid-out heap. */
  lemma BlocksPass(m: Mem, h: int, brk: int, bs: seq<Block>)
    requires Tiled(h, brk, bs) && TagsAgree(m, h, brk, bs)
    ensures Checks(m, Bps(bs)) == []
  {
    var ps := Bps(bs);
    forall i | 0 <= i < |ps|
      ensures ps[i] % 8 == 0 && Get(m, Hdrp(ps[i])) == Get(m, Ftrp(m, ps[i]))
    {
      BlockPasses(m, h, brk, bs, i);
    }
    ChecksEmpty(m, ps);
  }

  /** Block k of a laid-out heap is aligned, and its header equals its footer. */
  lemma BlockPasses(m: Mem, h: int, brk: int, bs: seq<Block>, k: int)
    requires Tiled(h, brk, bs) && TagsAgree(m, h, brk, bs)
    requires 0 <= k < |bs|
    ensures bs[k].bp % 8 == 0 && Get(m, Hdrp(bs[k].bp)) == Get(m, Ftrp(m, bs[k].bp))
  {
    Placement(h, brk, bs, k);
    assert WellSized(bs[k]);
    TagAt(m, bs[k].bp - WSIZE, bs[k].size, AllocBit(bs[k]));
  }

  /** The checks of a run that starts with p: checkblock(p), then the rest. */
  lemma ChecksCons(m: Mem, p: int, ps: seq<int>)
    ensures Checks(m, [p] + ps) == CheckBlock(m, p) + Checks(m, ps)
  {
    assert ([p] + ps)[1..] == ps;
  }

  /**
   * Every state the invariant describes, and so every state mm_init,
   * mm_malloc and mm_free leave, passes mm_checkheap without a complaint.
   */
  lemma SoundChecks(s: Heap, bs: seq<Block>, fl: seq<int>)
    requires Sound(s, bs, fl)
    ensures CheckHeap(s.mem, s.heapList) == []
  {
    CheckHeapAccepts(s.mem, s.heapList, s.brk, bs);
  }

  /** From p_heap_list the walk visits the prologue, then every block, and stops at the break. */
  lemma WalkFromPrologue(m: Mem, h: int, brk: int, bs: seq<Block>)
    requires Tiled(h, brk, bs) && TagsAgree(m, h, brk, bs)
    ensures Walk(m, h) == ([h] + Bps(bs), brk)
  {
    WalkStep(m, h, DSIZE, 1);
    if |bs| > 0 {
      WalkTiled(m, h, brk, bs, 0);
      assert bs[0..] == bs;
    } else {
      WalkStops(m, brk);
    }
  }
}

=== FILE: coalesce.dfy ===
/**
 * coalesce: merge a newly freed block with its free physical neighbours
 * and put the result at the head of the free list.
 *
 * The concrete function reads every size and flag from memory through the
 * block macros, exactly as the C code does; the abstract side describes the
 * same step on the block sequence: the run of free blocks around block k
 * becomes one free block.
 */
module Coalescing {
  import opened Words
  import opened HeapState
  import opened Layout
  import opened FreeList
  import opened Invariant

  /** Case 2: the next block is free. Unlink it and widen bp over it. */
  function CoalesceNext(s: Heap, bp: int, size: int): Heap
  {
    var s1 := AllocateBlock(s, NextBlkp(s.mem, bp));
    var size := size + GetSize(s1.mem, Hdrp(NextBlkp(s1.mem, bp)));
    var s2 := SetTags(s1, bp, size, 0);
    FreeBlock(s2, bp)
  }

  /**
   * Case 3: the previous block is free. Unlink it, write the merged size into
   * bp's footer and the previous block's header, and continue from there.
   */
  function CoalescePrev(s: Heap, bp: int, size: int): (Heap, int)
  {
    var s1 := AllocateBlock(s, PrevBlkp(s.mem, bp));
    var size := size + GetSize(s1.mem, Hdrp(PrevBlkp(s1.mem, bp)));
    var s2 := Put(s1, Ftrp(s1.mem, bp), Pack(size, 0));
    var s3 := Put(s2, Hdrp(PrevBlkp(s2.mem, bp)), Pack(size, 0));
    var p := PrevBlkp(s3.mem, bp);
    (FreeBlock(s3, p), p)
  }

  /**
   * Case 4: both neighbours are free. Unlink the next and then the previous
   * block, write the total size into the previous block's header and the
   * next block's footer, and continue from the previous block.
   */
  function CoalesceBoth(s: Heap, bp: int, size: int): (Heap, int)
  {
    var s1 := AllocateBlock(s, NextBlkp(s.mem, bp));
    var s2 := AllocateBlock(s1, PrevBlkp(s1.mem, bp));
    var size := size
              + GetSize(s2.mem, Hdrp(PrevBlkp(s2.mem, bp)))
              + GetSize(s2.mem, Ftrp(s2.mem, NextBlkp(s2.mem, bp)));
    var s3 := Put(s2, Hdrp(PrevBlkp(s2.mem, bp)), Pack(size, 0));
    var s4 := Put(s3, Ftrp(s3.mem, NextBlkp(s3.mem, bp)), Pack(size, 0));
    var p := PrevBlkp(s4.mem, bp);
    (FreeBlock(s4, p), p)
  }

  /**
   * coalesce(bp): the flags of the neighbours are read from the previous
   * block's footer and the next block's header; the result is the new
   * state and the pointer of the block that went onto the free list.
   */
  function Coalesce(s: Heap, bp: int): (Heap, int)
  {
    var prevAlloc := GetAlloc(s.mem, Ftrp(s.mem, PrevBlkp(s.mem, bp)));
    var nextAlloc := GetAlloc(s.mem, Hdrp(NextBlkp(s.mem, bp)));
    var size := GetSize(s.mem, Hdrp(bp));
    if prevAlloc != 0 && nextAlloc != 0 then (FreeBlock(s, bp), bp)
    else if prevAlloc != 0 && nextAlloc == 0 then (CoalesceNext(s, bp, size), bp)
    else if prevAlloc == 0 && nextAlloc != 0 then CoalescePrev(s, bp, size)
    else CoalesceBoth(s, bp, size)
  }

  // ---------------------------------------------------------------------
  // The abstract step

  /** First index of the free run around block k. */
  function MergeLo(bs: seq<Block>, k: int): int
    requires 0 <= k < |bs|
  {
    if k > 0 && !bs[k - 1].alloc then k - 1 else k
  }

  /** One past the last index of the free run around block k. */
  function MergeHi(bs: seq<Block>, k: int): int
    requires 0 <= k < |bs|
  {
    if k < |bs| - 1 && !bs[k + 1].alloc then k + 2 else k + 1
  }

  /** The single free block the run becomes. */
  function MergedBlock(bs: seq<Block>, k: int): Block
    requires 0 <= k < |bs|
  {
    var lo, hi := MergeLo(bs, k), MergeHi(bs, k);
    Block(bs[lo].bp, End(bs[hi - 1]) - bs[lo].bp, false)
  }

  /** The block sequence after coalescing around block k. */
  function Merged(bs: seq<Block>, k: int): seq<Block>
    requires 0 <= k < |bs|
  {
    Splice(bs, MergeLo(bs, k), MergeHi(bs, k), [MergedBlock(bs, k)])
  }

  /** The list once the absorbed neighbours have left it, the next one first. */
  function Survivors(bs: seq<Block>, k: int, fl: seq<int>): seq<int>
    requires 0 <= k < |bs|
  {
    var fl1 := if MergeHi(bs, k) == k + 2 then Unlist(fl, bs[k + 1].bp) else fl;
    if MergeLo(bs, k) == k - 1 then Unlist(fl1, bs[k - 1].bp) else fl1
  }

  /** The free list after coalescing: the merged block is pushed at the head. */
  function Absorbed(bs: seq<Block>, k: int, fl: seq<int>): seq<int>
    requires 0 <= k < |bs|
  {
    [MergedBlock(bs, k).bp] + Survivors(bs, k, fl)
  }

  /**
   * The state coalesce expects: block k has just been written as free but is
   * not on the list yet, and it is the only block that may have a free
   * neighbour.
   */
  ghost predicate Pending(s: Heap, bs: seq<Block>, fl: seq<int>, k: int)
  {
    && Tiled(s.heapList, s.brk, bs)
    && TagsAgree(s.mem, s.heapList, s.brk, bs)
    && s.brk <= s.limit
    && ListAgree(s, fl)
    && 0 <= k < |bs| && !bs[k].alloc
    && (forall y :: y in fl <==> y in FreeBps(bs) && y != bs[k].bp)
    && (forall i :: 0 <= i < |bs| - 1 && i != k && i + 1 != k ==> bs[i].alloc || bs[i + 1].alloc)
  }

  /** Coalescing leaves no two adjacent free blocks when block k was the only exception. */
  lemma MergedNoAdjacentFree(bs: seq<Block>, k: int)
    requires 0 <= k < |bs|
    requires forall i :: 0 <= i < |bs| - 1 && i != k && i + 1 != k ==> bs[i].alloc || bs[i + 1].alloc
    ensures NoAdjacentFree(Merged(bs, k))
  {
    var lo, hi := MergeLo(bs, k), MergeHi(bs, k);
    var mid := [MergedBlock(bs, k)];
    var r := Merged(bs, k);
    forall i | 0 <= i < |r| - 1
      ensures r[i].alloc || r[i + 1].alloc
    {
      SpliceAt(bs, lo, hi, mid, i);
      SpliceAt(bs, lo, hi, mid, i + 1);
    }
  }

  /** The free pointers of the run around k: block k and whichever neighbours it absorbs. */
  lemma RunFreeBps(bs: seq<Block>, k: int, y: int)
    requires 0 <= k < |bs| && !bs[k].alloc
    ensures y in FreeBps(bs[MergeLo(bs, k)..MergeHi(bs, k)])
        <==> || y == bs[k].bp
             || (MergeHi(bs, k) == k + 2 && y == bs[k + 1].bp)
             || (MergeLo(bs, k) == k - 1 && y == bs[k - 1].bp)
  {
    var lo, hi := MergeLo(bs, k), MergeHi(bs, k);
    var run := bs[lo..hi];
    if y in FreeBps(run) {
      var i :| 0 <= i < |run| && !run[i].alloc && run[i].bp == y;
      assert run[i] == bs[lo + i];
    }
    assert run[k - lo] == bs[k];
    if hi == k + 2 {
      assert run[k + 1 - lo] == bs[k + 1];
    }
    if lo == k - 1 {
      assert run[0] == bs[k - 1];
    }
  }

  /** Who is still on the list once the neighbours have been unlinked. */
  lemma SurvivorsMembers(bs: seq<Block>, k: int, fl: seq<int>, y: int)
    requires 0 <= k < |bs|
    ensures y in Survivors(bs, k, fl)
        <==> && y in fl
             && (MergeHi(bs, k) == k + 2 ==> y != bs[k + 1].bp)
             && (MergeLo(bs, k) == k - 1 ==> y != bs[k - 1].bp)
  {
    var fl1 := if MergeHi(bs, k) == k + 2 then Unlist(fl, bs[k + 1].bp) else fl;
    if MergeHi(bs, k) == k + 2 {
      UnlistMembers(fl, bs[k + 1].bp, y);
    }
    if MergeLo(bs, k) == k - 1 {
      UnlistMembers(fl1, bs[k - 1].bp, y);
    }
  }

  /**
   * The free blocks after coalescing are the merged block and the free
   * blocks outside the run; the surviving list holds exactly the latter.
   */
  lemma MergedListed(s: Heap, bs: seq<Block>, fl: seq<int>, k: int)
    requires Pending(s, bs, fl, k)
    ensures forall y :: y in Survivors(bs, k, fl)
                    <==> y in FreeBps(Merged(bs, k)) && y != MergedBlock(bs, k).bp
  {
    var lo, hi := MergeLo(bs, k), MergeHi(bs, k);
    forall y
      ensures y in Survivors(bs, k, fl) <==> y in FreeBps(Merged(bs, k)) && y != MergedBlock(bs, k).bp
    {
      SurvivorsMembers(bs, k, fl, y);
      RunFreeBps(bs, k, y);
      FreeBpsSplice(s.heapList, s.brk, bs, lo, hi, [MergedBlock(bs, k)], y);
      FreeBpsOne(MergedBlock(bs, k), y);
    }
  }

  /** The merged block is well formed and spans the run. */
  lemma MergedBlockShape(h: int, brk: int, bs: seq<Block>, k: int)
    requires Tiled(h, brk, bs)
    requires 0 <= k < |bs|
    ensures WellSized(MergedBlock(bs, k))
    ensures End(MergedBlock(bs, k)) == End(bs[MergeHi(bs, k) - 1])
    ensures MergedBlock(bs, k).size
         == bs[k].size
            + (if MergeLo(bs, k) == k - 1 then bs[k - 1].size else 0)
            + (if MergeHi(bs, k) == k + 2 then bs[k + 1].size else 0)
  {
    var lo, hi := MergeLo(bs, k), MergeHi(bs, k);
    if lo == k - 1 {
      AddAligned(bs[k - 1].size, bs[k].size);
    }
    if hi == k + 2 {
      AddAligned(bs[lo].size + (if lo == k - 1 then bs[k].size else 0), bs[k + 1].size);
      AddAligned(bs[k].size, bs[k + 1].size);
    }
  }

  /** Writing the merged block's tags with SetTags rewrites the run lo..hi-1 as the single block b. */
  lemma SetTagsRewrite(s: Heap, bs: seq<Block>, fl: seq<int>, lo: int, hi: int, b: Block)
    requires Tiled(s.heapList, s.brk, bs) && TagsAgree(s.mem, s.heapList, s.brk, bs)
    requires ListAgree(s, fl)
    requires 0 <= lo < hi <= |bs|
    requires WellSized(b) && !b.alloc && b.bp == bs[lo].bp && End(b) == End(bs[hi - 1])
    requires forall y :: y in fl ==> y in FreeBps(bs) && y !in FreeBps(bs[lo..hi])
    ensures Tiled(s.heapList, s.brk, Splice(bs, lo, hi, [b]))
    ensures TagsAgree(SetTags(s, b.bp, b.size, 0).mem, s.heapList, s.brk, Splice(bs, lo, hi, [b]))
    ensures ListAgree(SetTags(s, b.bp, b.size, 0), fl)
    ensures forall y :: y in fl ==> y in FreeBps(Splice(bs, lo, hi, [b])) && y !in FreeBps([b])
  {
    SetTagsWrites(s, b.bp, b.size, 0);
    RewriteOne(s, SetTags(s, b.bp, b.size, 0), bs, fl, lo, hi, b);
  }

  /** When neither neighbour is free, the merged tiling is the tiling itself. */
  lemma MergedAlone(bs: seq<Block>, k: int)
    requires 0 <= k < |bs| && !bs[k].alloc
    requires MergeLo(bs, k) == k && MergeHi(bs, k) == k + 1
    ensures Merged(bs, k) == bs
  {
    assert MergedBlock(bs, k) == bs[k];
    assert bs == bs[..k] + [bs[k]] + bs[k + 1..];
  }

  /** Case 1: both neighbours allocated; the block is just pushed. */
  lemma CoalesceAlone(s: Heap, bs: seq<Block>, fl: seq<int>, k: int)
    requires Pending(s, bs, fl, k)
    requires MergeLo(bs, k) == k && MergeHi(bs, k) == k + 1
    ensures Coalesce(s, bs[k].bp) == (FreeBlock(s, bs[k].bp), bs[k].bp)
    ensures Merged(bs, k) == bs
    ensures Valid(Coalesce(s, bs[k].bp).0, Merged(bs, k), Absorbed(bs, k, fl))
  {
    AloneReads(s, bs, fl, k);
    AloneNoAdjacentFree(bs, k);
    MergedAlone(bs, k);
    assert Absorbed(bs, k, fl) == [bs[k].bp] + fl;
    PushStep(s, bs, fl, k);
  }

  /** With both neighbours allocated, block k was never an exception to NoAdjacentFree. */
  lemma AloneNoAdjacentFree(bs: seq<Block>, k: int)
    requires 0 <= k < |bs|
    requires forall i :: 0 <= i < |bs| - 1 && i != k && i + 1 != k ==> bs[i].alloc || bs[i + 1].alloc
    requires MergeLo(bs, k) == k && MergeHi(bs, k) == k + 1
    ensures NoAdjacentFree(bs)
  {
  }

  /** What case 1 reads: both neighbours' flags are set. */
  lemma AloneReads(s: Heap, bs: seq<Block>, fl: seq<int>, k: int)
    requires Pending(s, bs, fl, k)
    requires MergeLo(bs, k) == k && MergeHi(bs, k) == k + 1
    ensures Coalesce(s, bs[k].bp) == (FreeBlock(s, bs[k].bp), bs[k].bp)
  {
    MacrosAt(s.mem, s.heapList, s.brk, bs, k);
  }

  /** Which case coalesce takes depends only on the two flags it reads. */
  lemma CoalesceTakesNext(s: Heap, bp: int, size: int)
    requires GetAlloc(s.mem, Ftrp(s.mem, PrevBlkp(s.mem, bp))) != 0
    requires GetAlloc(s.mem, Hdrp(NextBlkp(s.mem, bp))) == 0
    requires GetSize(s.mem, Hdrp(bp)) == size
    ensures Coalesce(s, bp) == (CoalesceNext(s, bp, size), bp)
  {
  }

  /** CoalesceNext once the neighbour n and its size are known. */
  lemma CoalesceNextIs(s: Heap, bp: int, size: int, n: int, nsize: int, total: int)
    requires NextBlkp(s.mem, bp) == n
    requires NextBlkp(AllocateBlock(s, n).mem, bp) == n
    requires GetSize(AllocateBlock(s, n).mem, Hdrp(n)) == nsize
    requires size + nsize == total
    ensures CoalesceNext(s, bp, size) == FreeBlock(SetTags(AllocateBlock(s, n), bp, total, 0), bp)
  {
  }

  /** What case 2 reads: the next block's address, before and after it is unlinked, and its size. */
  lemma CoalesceNextReads(s: Heap, bs: seq<Block>, fl: seq<int>, k: int)
    requires Pending(s, bs, fl, k)
    requires MergeLo(bs, k) == k && MergeHi(bs, k) == k + 2
    ensures NextBlkp(s.mem, bs[k].bp) == bs[k + 1].bp
    ensures NextBlkp(AllocateBlock(s, bs[k + 1].bp).mem, bs[k].bp) == bs[k + 1].bp
    ensures GetSize(AllocateBlock(s, bs[k + 1].bp).mem, Hdrp(bs[k + 1].bp)) == bs[k + 1].size
    ensures bs[k].size + bs[k + 1].size == MergedBlock(bs, k).size
  {
    var h, brk := s.heapList, s.brk;
    var n := bs[k + 1].bp;
    MacrosAt(s.mem, h, brk, bs, k);
    assert n in FreeBps(bs);
    UnlinkKeepsTags(s, bs, fl, n);
    MacrosAt(AllocateBlock(s, n).mem, h, brk, bs, k);
    MacrosAt(AllocateBlock(s, n).mem, h, brk, bs, k + 1);
    MergedBlockShape(h, brk, bs, k);
  }

  /**
   * The end of every merging case: once the absorbed neighbours are off
   * the list (s2, with the surviving list), the merged block's tags and
   * its push onto the list give a valid state for the merged blocks.
   */
  lemma MergeFinish(s: Heap, s2: Heap, bs: seq<Block>, fl: seq<int>, k: int)
    requires Pending(s, bs, fl, k)
    requires s2.heapList == s.heapList && s2.brk == s.brk && s2.limit == s.limit
    requires TagsAgree(s2.mem, s.heapList, s.brk, bs)
    requires ListAgree(s2, Survivors(bs, k, fl))
    ensures Valid(FreeBlock(SetTags(s2, MergedBlock(bs, k).bp, MergedBlock(bs, k).size, 0), MergedBlock(bs, k).bp),
                  Merged(bs, k), Absorbed(bs, k, fl))
  {
    var lo, hi := MergeLo(bs, k), MergeHi(bs, k);
    var M := MergedBlock(bs, k);
    var fl2 := Survivors(bs, k, fl);
    MergedBlockShape(s.heapList, s.brk, bs, k);
    forall y | y in fl2
      ensures y in FreeBps(bs) && y !in FreeBps(bs[lo..hi])
    {
      SurvivorsMembers(bs, k, fl, y);
      RunFreeBps(bs, k, y);
    }
    SetTagsRewrite(s2, bs, fl2, lo, hi, M);
    MergedListed(s, bs, fl, k);
    MergedNoAdjacentFree(bs, k);
    SpliceAt(bs, lo, hi, [M], lo);
    PushStep(SetTags(s2, M.bp, M.size, 0), Merged(bs, k), fl2, lo);
  }

  /** Case 2, abstractly: the resulting state is valid for the merged blocks and list. */
  lemma CoalesceNextValid(s: Heap, bs: seq<Block>, fl: seq<int>, k: int)
    requires Pending(s, bs, fl, k)
    requires MergeLo(bs, k) == k && MergeHi(bs, k) == k + 2
    ensures Valid(FreeBlock(SetTags(AllocateBlock(s, bs[k + 1].bp), bs[k].bp, MergedBlock(bs, k).size, 0), bs[k].bp),
                  Merged(bs, k), Absorbed(bs, k, fl))
  {
    var n := bs[k + 1].bp;
    assert n in FreeBps(bs);
    UnlinkStep(s, bs, fl, n);
    MergeFinish(s, AllocateBlock(s, n), bs, fl, k);
  }

  /** Case 2: the next block is free and is absorbed. */
  lemma CoalesceNextMerges(s: Heap, bs: seq<Block>, fl: seq<int>, k: int)
    requires Pending(s, bs, fl, k)
    requires MergeLo(bs, k) == k && MergeHi(bs, k) == k + 2
    ensures Coalesce(s, bs[k].bp) == (CoalesceNext(s, bs[k].bp, bs[k].size), bs[k].bp)
    ensures Valid(Coalesce(s, bs[k].bp).0, Merged(bs, k), Absorbed(bs, k, fl))
  {
    MacrosAt(s.mem, s.heapList, s.brk, bs, k);
    CoalesceTakesNext(s, bs[k].bp, bs[k].size);
    CoalesceNextReads(s, bs, fl, k);
    CoalesceNextIs(s, bs[k].bp, bs[k].size, bs[k + 1].bp, bs[k + 1].size, MergedBlock(bs, k).size);
    CoalesceNextValid(s, bs, fl, k);
  }

  /** Which case coalesce takes depends only on the two flags it reads. */
  lemma CoalesceTakesPrev(s: Heap, bp: int, size: int)
    requires GetAlloc(s.mem, Ftrp(s.mem, PrevBlkp(s.mem, bp))) == 0
    requires GetAlloc(s.mem, Hdrp(NextBlkp(s.mem, bp))) != 0
    requires GetSize(s.mem, Hdrp(bp)) == size
    ensures Coalesce(s, bp) == CoalescePrev(s, bp, size)
  {
  }

  /**
   * CoalescePrev once the neighbour q, its size and bp's footer f are known.
   * Writing the footer before the header leaves the same memory as SetTags,
   * because the two words are distinct.
   */
  lemma CoalescePrevIs(s: Heap, bp: int, size: int, q: int, qsize: int, total: int, f: int)
    requires total % 8 == 0 && total >= DSIZE
    requires PrevBlkp(s.mem, bp) == q
    requires PrevBlkp(AllocateBlock(s, q).mem, bp) == q
    requires GetSize(AllocateBlock(s, q).mem, Hdrp(q)) == qsize
    requires size + qsize == total
    requires Ftrp(AllocateBlock(s, q).mem, bp) == f && f == q + total - DSIZE
    requires PrevBlkp(PutPair(AllocateBlock(s, q), f, Hdrp(q), Pack(total, 0)).mem, bp) == q
    ensures CoalescePrev(s, bp, size) == (FreeBlock(SetTags(AllocateBlock(s, q), q, total, 0), q), q)
  {
    FooterFirstIsSetTags(AllocateBlock(s, q), q, total, f);
  }

  /** PREV_BLKP reads only the word below the header. */
  lemma PrevUnchanged(s: Heap, a: int, v: int, bp: int)
    requires a != bp - DSIZE
    ensures PrevBlkp(Put(s, a, v).mem, bp) == PrevBlkp(s.mem, bp)
  {
  }

  /** What case 3 reads: the previous block's address at every step, its size, and bp's footer. */
  lemma CoalescePrevReads(s: Heap, bs: seq<Block>, fl: seq<int>, k: int)
    requires Pending(s, bs, fl, k)
    requires MergeLo(bs, k) == k - 1 && MergeHi(bs, k) == k + 1
    ensures WellSized(MergedBlock(bs, k))
    ensures bs[k].size + bs[k - 1].size == MergedBlock(bs, k).size
    ensures End(bs[k]) - DSIZE == bs[k - 1].bp + MergedBlock(bs, k).size - DSIZE
    ensures var q := bs[k - 1].bp;
            && PrevBlkp(s.mem, bs[k].bp) == q
            && PrevBlkp(AllocateBlock(s, q).mem, bs[k].bp) == q
            && GetSize(AllocateBlock(s, q).mem, Hdrp(q)) == bs[k - 1].size
            && Ftrp(AllocateBlock(s, q).mem, bs[k].bp) == End(bs[k]) - DSIZE
            && PrevBlkp(PutPair(AllocateBlock(s, q), End(bs[k]) - DSIZE, Hdrp(q), Pack(MergedBlock(bs, k).size, 0)).mem,
                        bs[k].bp) == q
  {
    var h, brk := s.heapList, s.brk;
    var q := bs[k - 1].bp;
    MacrosAt(s.mem, h, brk, bs, k);
    assert q in FreeBps(bs);
    UnlinkKeepsTags(s, bs, fl, q);
    MacrosAt(AllocateBlock(s, q).mem, h, brk, bs, k);
    MacrosAt(AllocateBlock(s, q).mem, h, brk, bs, k - 1);
    MergedBlockShape(h, brk, bs, k);
    var s1, v := AllocateBlock(s, q), Pack(MergedBlock(bs, k).size, 0);
    PrevUnchanged(s1, End(bs[k]) - DSIZE, v, bs[k].bp);
    PrevUnchanged(Put(s1, End(bs[k]) - DSIZE, v), Hdrp(q), v, bs[k].bp);
  }

  /** Case 3, abstractly: the resulting state is valid for the merged blocks and list. */
  lemma CoalescePrevValid(s: Heap, bs: seq<Block>, fl: seq<int>, k: int)
    requires Pending(s, bs, fl, k)
    requires MergeLo(bs, k) == k - 1 && MergeHi(bs, k) == k + 1
    ensures Valid(FreeBlock(SetTags(AllocateBlock(s, bs[k - 1].bp), bs[k - 1].bp, MergedBlock(bs, k).size, 0), bs[k - 1].bp),
                  Merged(bs, k), Absorbed(bs, k, fl))
  {
    var q := bs[k - 1].bp;
    assert q in FreeBps(bs);
    UnlinkStep(s, bs, fl, q);
    MergeFinish(s, AllocateBlock(s, q), bs, fl, k);
  }

  /** Case 3: the previous block is free and absorbs this one. */
  lemma CoalescePrevMerges(s: Heap, bs: seq<Block>, fl: seq<int>, k: int)
    requires Pending(s, bs, fl, k)
    requires MergeLo(bs, k) == k - 1 && MergeHi(bs, k) == k + 1
    ensures Coalesce(s, bs[k].bp) == CoalescePrev(s, bs[k].bp, bs[k].size)
    ensures Coalesce(s, bs[k].bp).1 == bs[k - 1].bp
    ensures Valid(Coalesce(s, bs[k].bp).0, Merged(bs, k), Absorbed(bs, k, fl))
  {
    MacrosAt(s.mem, s.heapList, s.brk, bs, k);
    CoalesceTakesPrev(s, bs[k].bp, bs[k].size);
    CoalescePrevReads(s, bs, fl, k);
    CoalescePrevIs(s, bs[k].bp, bs[k].size, bs[k - 1].bp, bs[k - 1].size, MergedBlock(bs, k).size, End(bs[k]) - DSIZE);
    CoalescePrevValid(s, bs, fl, k);
  }

  /** Which case coalesce takes depends only on the two flags it reads. */
  lemma CoalesceTakesBoth(s: Heap, bp: int, size: int)
    requires GetAlloc(s.mem, Ftrp(s.mem, PrevBlkp(s.mem, bp))) == 0
    requires GetAlloc(s.mem, Hdrp(NextBlkp(s.mem, bp))) == 0
    requires GetSize(s.mem, Hdrp(bp)) == size
    ensures Coalesce(s, bp) == CoalesceBoth(s, bp, size)
  {
  }

  /**
   * CoalesceBoth once both neighbours, their sizes and the footer written
   * are known: the header and footer stores are exactly SetTags on the
   * previous block.
   */
  lemma CoalesceBothIs(s: Heap, bp: int, size: int, n: int, q: int, qsize: int, nsize: int, total: int, f: int)
    requires total % 8 == 0 && total >= DSIZE
    requires NextBlkp(s.mem, bp) == n
    requires PrevBlkp(AllocateBlock(s, n).mem, bp) == q
    requires PrevBlkp(AllocateBlock(AllocateBlock(s, n), q).mem, bp) == q
    requires NextBlkp(AllocateBlock(AllocateBlock(s, n), q).mem, bp) == n
    requires GetSize(AllocateBlock(AllocateBlock(s, n), q).mem, Hdrp(q)) == qsize
    requires GetSize(AllocateBlock(AllocateBlock(s, n), q).mem, Ftrp(AllocateBlock(AllocateBlock(s, n), q).mem, n)) == nsize
    requires size + qsize + nsize == total
    requires var s3 := Put(AllocateBlock(AllocateBlock(s, n), q), Hdrp(q), Pack(total, 0));
             Ftrp(s3.mem, NextBlkp(s3.mem, bp)) == f && f == q + total - DSIZE
    requires var s3 := Put(AllocateBlock(AllocateBlock(s, n), q), Hdrp(q), Pack(total, 0));
             PrevBlkp(Put(s3, f, Pack(total, 0)).mem, bp) == q
    ensures CoalesceBoth(s, bp, size) == (FreeBlock(SetTags(AllocateBlock(AllocateBlock(s, n), q), q, total, 0), q), q)
  {
    PackRoundTrip(total, 0);
  }

  /** What case 4 reads: both neighbours' addresses at every step, their sizes, and the footer written. */
  lemma CoalesceBothReads(s: Heap, bs: seq<Block>, fl: seq<int>, k: int)
    requires Pending(s, bs, fl, k)
    requires MergeLo(bs, k) == k - 1 && MergeHi(bs, k) == k + 2
    ensures WellSized(MergedBlock(bs, k))
    ensures bs[k].size + bs[k - 1].size + bs[k + 1].size == MergedBlock(bs, k).size
    ensures End(bs[k + 1]) - DSIZE == bs[k - 1].bp + MergedBlock(bs, k).size - DSIZE
    ensures var q, n := bs[k - 1].bp, bs[k + 1].bp;
            var s2 := AllocateBlock(AllocateBlock(s, n), q);
            var s3 := Put(s2, Hdrp(q), Pack(MergedBlock(bs, k).size, 0));
            && NextBlkp(s.mem, bs[k].bp) == n
            && PrevBlkp(AllocateBlock(s, n).mem, bs[k].bp) == q
            && PrevBlkp(s2.mem, bs[k].bp) == q
            && NextBlkp(s2.mem, bs[k].bp) == n
            && GetSize(s2.mem, Hdrp(q)) == bs[k - 1].size
            && GetSize(s2.mem, Ftrp(s2.mem, n)) == bs[k + 1].size
            && Ftrp(s3.mem, NextBlkp(s3.mem, bs[k].bp)) == End(bs[k + 1]) - DSIZE
            && PrevBlkp(Put(s3, End(bs[k + 1]) - DSIZE, Pack(MergedBlock(bs, k).size, 0)).mem, bs[k].bp) == q
  {
    var q, n := bs[k - 1].bp, bs[k + 1].bp;
    CoalesceBothLoads(s, bs, fl, k);
    BothStores(AllocateBlock(AllocateBlock(s, n), q), q, bs[k].bp, n, MergedBlock(bs, k).size);
  }

  /** The words case 4 reads after both neighbours are unlinked. */
  lemma CoalesceBothLoads(s: Heap, bs: seq<Block>, fl: seq<int>, k: int)
    requires Pending(s, bs, fl, k)
    requires MergeLo(bs, k) == k - 1 && MergeHi(bs, k) == k + 2
    ensures WellSized(MergedBlock(bs, k))
    ensures bs[k].size + bs[k - 1].size + bs[k + 1].size == MergedBlock(bs, k).size
    ensures End(bs[k + 1]) - DSIZE == bs[k - 1].bp + MergedBlock(bs, k).size - DSIZE
    ensures bs[k - 1].bp + DSIZE < bs[k].bp && bs[k].bp + DSIZE < bs[k + 1].bp
    ensures bs[k + 1].bp + DSIZE <= End(bs[k + 1])
    ensures var q, n := bs[k - 1].bp, bs[k + 1].bp;
            var s2 := AllocateBlock(AllocateBlock(s, n), q);
            && NextBlkp(s.mem, bs[k].bp) == n
            && PrevBlkp(AllocateBlock(s, n).mem, bs[k].bp) == q
            && PrevBlkp(s2.mem, bs[k].bp) == q
            && NextBlkp(s2.mem, bs[k].bp) == n
            && GetSize(s2.mem, Hdrp(q)) == bs[k - 1].size
            && Ftrp(s2.mem, n) == End(bs[k + 1]) - DSIZE
            && GetSize(s2.mem, Ftrp(s2.mem, n)) == bs[k + 1].size
  {
    var h, brk := s.heapList, s.brk;
    var q, n := bs[k - 1].bp, bs[k + 1].bp;
    MacrosAt(s.mem, h, brk, bs, k);
    assert n in FreeBps(bs) && q in FreeBps(bs);
    UnlinkStep(s, bs, fl, n);
    var s1 := AllocateBlock(s, n);
    MacrosAt(s1.mem, h, brk, bs, k);
    UnlinkKeepsTags(s1, bs, Unlist(fl, n), q);
    var s2 := AllocateBlock(s1, q);
    MacrosAt(s2.mem, h, brk, bs, k);
    MacrosAt(s2.mem, h, brk, bs, k - 1);
    MacrosAt(s2.mem, h, brk, bs, k + 1);
    MergedBlockShape(h, brk, bs, k);
  }

  /**
   * The two stores of case 4, at the previous block's header and the next
   * block's footer, leave bp's header, the next block's header and bp's
   * predecessor footer untouched, so the addresses computed after them are
   * the ones computed before.
   */
  lemma BothStores(s: Heap, q: int, bp: int, n: int, total: int)
    requires q + DSIZE < bp && bp + DSIZE < n
    requires n + DSIZE <= Ftrp(s.mem, n)
    requires PrevBlkp(s.mem, bp) == q && NextBlkp(s.mem, bp) == n
    ensures var s3 := Put(s, Hdrp(q), Pack(total, 0));
            && Ftrp(s3.mem, NextBlkp(s3.mem, bp)) == Ftrp(s.mem, n)
            && PrevBlkp(Put(s3, Ftrp(s.mem, n), Pack(total, 0)).mem, bp) == q
  {
  }

  /** Case 4, abstractly: the resulting state is valid for the merged blocks and list. */
  lemma CoalesceBothValid(s: Heap, bs: seq<Block>, fl: seq<int>, k: int)
    requires Pending(s, bs, fl, k)
    requires MergeLo(bs, k) == k - 1 && MergeHi(bs, k) == k + 2
    ensures var q, n := bs[k - 1].bp, bs[k + 1].bp;
            Valid(FreeBlock(SetTags(AllocateBlock(AllocateBlock(s, n), q), q, MergedBlock(bs, k).size, 0), q),
                  Merged(bs, k), Absorbed(bs, k, fl))
  {
    var q, n := bs[k - 1].bp, bs[k + 1].bp;
    assert n in FreeBps(bs) && q in FreeBps(bs);
    UnlinkStep(s, bs, fl, n);
    UnlinkStep(AllocateBlock(s, n), bs, Unlist(fl, n), q);
    MergeFinish(s, AllocateBlock(AllocateBlock(s, n), q), bs, fl, k);
  }

  /** Case 4: both neighbours are free; all three become one block. */
  lemma CoalesceBothMerges(s: Heap, bs: seq<Block>, fl: seq<int>, k: int)
    requires Pending(s, bs, fl, k)
    requires MergeLo(bs, k) == k - 1 && MergeHi(bs, k) == k + 2
    ensures Coalesce(s, bs[k].bp) == CoalesceBoth(s, bs[k].bp, bs[k].size)
    ensures Coalesce(s, bs[k].bp).1 == bs[k - 1].bp
    ensures Valid(Coalesce(s, bs[k].bp).0, Merged(bs, k), Absorbed(bs, k, fl))
  {
    MacrosAt(s.mem, s.heapList, s.brk, bs, k);
    CoalesceTakesBoth(s, bs[k].bp, bs[k].size);
    CoalesceBothReads(s, bs, fl, k);
    CoalesceBothIs(s, bs[k].bp, bs[k].size, bs[k + 1].bp, bs[k - 1].bp, bs[k - 1].size, bs[k + 1].size,
                   MergedBlock(bs, k).size, End(bs[k + 1]) - DSIZE);
    CoalesceBothValid(s, bs, fl, k);
  }

  /**
   * coalesce restores the invariant: the run of free blocks around block k
   * becomes one free block at the head of the list, the absorbed
   * neighbours leave the list, and coalesce returns the merged block.
   */
  lemma CoalesceMerges(s: Heap, bs: seq<Block>, fl: seq<int>, k: int)
    requires Pending(s, bs, fl, k)
    ensures Coalesce(s, bs[k].bp).1 == MergedBlock(bs, k).bp
    ensures Valid(Coalesce(s, bs[k].bp).0, Merged(bs, k), Absorbed(bs, k, fl))
  {
    var lo, hi := MergeLo(bs, k), MergeHi(bs, k);
    if lo == k && hi == k + 1 {
      CoalesceAlone(s, bs, fl, k);
    } else if lo == k {
      CoalesceNextMerges(s, bs, fl, k);
    } else if hi == k + 1 {
      CoalescePrevMerges(s, bs, fl, k);
    } else {
      CoalesceBothMerges(s, bs, fl, k);
    }
  }

  // ---------------------------------------------------------------------
  // The provider's limit

  lemma CoalesceNextLimit(s: Heap, bp: int, size: int)
    ensures CoalesceNext(s, bp, size).limit == s.limit
    ensures CoalesceNext(s, bp, size).heapList == s.heapList && CoalesceNext(s, bp, size).brk == s.brk
  {
    AllocateBlockLimit(s, NextBlkp(s.mem, bp));
  }

  lemma CoalescePrevLimit(s: Heap, bp: int, size: int)
    ensures CoalescePrev(s, bp, size).0.limit == s.limit
    ensures CoalescePrev(s, bp, size).0.heapList == s.heapList && CoalescePrev(s, bp, size).0.brk == s.brk
  {
    AllocateBlockLimit(s, PrevBlkp(s.mem, bp));
  }

  lemma CoalesceBothLimit(s: Heap, bp: int, size: int)
    ensures CoalesceBoth(s, bp, size).0.limit == s.limit
    ensures CoalesceBoth(s, bp, size).0.heapList == s.heapList && CoalesceBoth(s, bp, size).0.brk == s.brk
  {
    var s1 := AllocateBlock(s, NextBlkp(s.mem, bp));
    AllocateBlockLimit(s, NextBlkp(s.mem, bp));
    AllocateBlockLimit(s1, PrevBlkp(s1.mem, bp));
  }

  /** coalesce leaves the provider's limit alone. */
  lemma CoalesceLimit(s: Heap, bp: int)
    ensures Coalesce(s, bp).0.limit == s.limit
    ensures Coalesce(s, bp).0.heapList == s.heapList && Coalesce(s, bp).0.brk == s.brk
  {
    var prevAlloc := GetAlloc(s.mem, Ftrp(s.mem, PrevBlkp(s.mem, bp)));
    var nextAlloc := GetAlloc(s.mem, Hdrp(NextBlkp(s.mem, bp)));
    var size := GetSize(s.mem, Hdrp(bp));
    if prevAlloc != 0 && nextAlloc != 0 {
      FreeBlockLimit(s, bp);
    } else if prevAlloc != 0 {
      CoalesceNextLimit(s, bp, size);
    } else if nextAlloc != 0 {
      CoalescePrevLimit(s, bp, size);
    } else {
      CoalesceBothLimit(s, bp, size);
    }
  }
}

=== FILE: extend.dfy ===
/**
 * extend_heap: ask the provider for more bytes at the break, turn them into
 * one free block whose header overwrites the old epilogue, write a new
 * epilogue, and coalesce the new block with a free last block.
 *
 * The abstract step appends a free block at the old break and then merges
 * it, exactly as coalesce merges any block it is given.
 */
module Extending {
  import opened Words
  import opened HeapState
  import opened Layout
  import opened FreeList
  import opened Invariant
  import opened Coalescing
  import opened Placing

  /**
   * extend_heap(words): the pointer of the block that ends up holding the
   * new bytes (NULL when the provider refuses) and the new state.
   */
  function ExtendHeap(s: Heap, words: nat): (int, Heap)
  {
    var size := ExtendBytes(words);
    var grown := Sbrk(s, size);
    if grown.0 == -1 then (NULL, grown.1)
    else
      var c := Coalesce(NewFreeBlock(grown.1, grown.0, size), grown.0);
      (c.1, c.0)
  }

  /** The free block's header and footer, then the epilogue header after it. */
  function NewFreeBlock(s: Heap, bp: int, size: int): Heap
  {
    var s2 := SetTags(s, bp, size, 0);
    Put(s2, Hdrp(NextBlkp(s2.mem, bp)), Pack(0, 1))
  }

  /** The state extend_heap hands to coalesce once the provider has granted size bytes. */
  function Grown(s: Heap, size: int): Heap
  {
    NewFreeBlock(s.(brk := s.brk + size), s.brk, size)
  }

  // ---------------------------------------------------------------------
  // The abstract step

  /** The tiling with the new free block appended at the old break. */
  function Appended(bs: seq<Block>, brk: int, size: int): seq<Block>
  {
    bs + [Block(brk, size, false)]
  }

  /** The tiling after extend_heap: the appended block merged with a free last block. */
  function Extended(bs: seq<Block>, brk: int, size: int): seq<Block>
  {
    Merged(Appended(bs, brk, size), |bs|)
  }

  /** The free list after extend_heap. */
  function ExtendedList(bs: seq<Block>, brk: int, size: int, fl: seq<int>): seq<int>
  {
    Absorbed(Appended(bs, brk, size), |bs|, fl)
  }

  /**
   * The new last block is free, ends at the new break, and holds at least
   * the bytes asked for; it absorbed the old last block exactly when that
   * one was free.
   */
  lemma ExtendedShape(h: int, brk: int, bs: seq<Block>, size: int)
    requires Tiled(h, brk, bs)
    requires size % 8 == 0 && size >= MIN_BLOCK
    ensures |Extended(bs, brk, size)| > 0
    ensures Extended(bs, brk, size)[|Extended(bs, brk, size)| - 1] == MergedBlock(Appended(bs, brk, size), |bs|)
    ensures !MergedBlock(Appended(bs, brk, size), |bs|).alloc
    ensures End(MergedBlock(Appended(bs, brk, size), |bs|)) == brk + size
    ensures MergedBlock(Appended(bs, brk, size), |bs|).size
         == size + (if |bs| > 0 && !bs[|bs| - 1].alloc then bs[|bs| - 1].size else 0)
    ensures h + DSIZE <= MergedBlock(Appended(bs, brk, size), |bs|).bp
    ensures h + DSIZE <= brk
  {
    var a := Appended(bs, brk, size);
    var b := Block(brk, size, false);
    AppendTiled(h, brk, bs, b);
    MergedBlockShape(h, brk + size, a, |bs|);
    if |bs| > 0 {
      assert a[|bs| - 1] == bs[|bs| - 1];
    }
    Placement(h, brk + size, a, MergeLo(a, |bs|));
    Placement(h, brk + size, a, |bs|);
  }

  // ---------------------------------------------------------------------
  // The concrete step in normal form

  /** When the provider refuses, extend_heap returns NULL and changes nothing. */
  lemma ExtendRefused(s: Heap, words: nat)
    requires s.brk + ExtendBytes(words) > s.limit
    ensures ExtendHeap(s, words).0 == NULL && ExtendHeap(s, words).1 == s
  {
  }

  /** When the provider grants the bytes, extend_heap is coalesce on the grown state. */
  lemma ExtendIs(s: Heap, words: nat, size: int)
    requires size == ExtendBytes(words)
    requires s.brk + size <= s.limit && s.brk != -1
    ensures ExtendHeap(s, words).0 == Coalesce(Grown(s, size), s.brk).1
    ensures ExtendHeap(s, words).1 == Coalesce(Grown(s, size), s.brk).0
  {
  }

  /** The words of the grown state: the new tags, the new epilogue, and the old memory below. */
  lemma GrownWords(s: Heap, size: int)
    requires size % 8 == 0 && size >= DSIZE
    ensures Get(Grown(s, size).mem, s.brk - WSIZE) == size
    ensures Get(Grown(s, size).mem, s.brk + size - DSIZE) == size
    ensures Get(Grown(s, size).mem, s.brk + size - WSIZE) == Pack(0, 1)
    ensures forall a :: a < s.brk - WSIZE ==> Get(Grown(s, size).mem, a) == Get(s.mem, a)
    ensures Grown(s, size) == s.(mem := Grown(s, size).mem, brk := s.brk + size)
  {
    SetTagsWrites(s.(brk := s.brk + size), s.brk, size, 0);
    SetTagsNext(s.(brk := s.brk + size), s.brk, size, 0);
    PackRoundTrip(0, 1);
  }

  /** Every free block pointer leaves room for its links below the break. */
  lemma FreeBpsBelow(h: int, brk: int, bs: seq<Block>, y: int)
    requires Tiled(h, brk, bs)
    requires y in FreeBps(bs)
    ensures y + MIN_BLOCK <= brk
  {
    var k :| 0 <= k < |bs| && !bs[k].alloc && bs[k].bp == y;
    Placement(h, brk, bs, k);
  }

  /** The grown state is what coalesce expects, with the appended block pending. */
  lemma GrownPending(s: Heap, bs: seq<Block>, fl: seq<int>, size: int)
    requires Sound(s, bs, fl)
    requires size % 8 == 0 && size >= MIN_BLOCK
    requires s.brk + size <= s.limit
    ensures Pending(Grown(s, size), Appended(bs, s.brk, size), fl, |bs|)
  {
    var g := Grown(s, size);
    var b := Block(s.brk, size, false);
    var a := Appended(bs, s.brk, size);
    GrownWords(s, size);
    AppendTiled(s.heapList, s.brk, bs, b);
    AppendTags(s.mem, g.mem, s.heapList, s.brk, bs, b);
    forall k | 0 <= k < |fl|
      ensures Get(g.mem, fl[k]) == Get(s.mem, fl[k])
      ensures Get(g.mem, fl[k] + WSIZE) == Get(s.mem, fl[k] + WSIZE)
    {
      FreeBpsBelow(s.heapList, s.brk, bs, fl[k]);
    }
    ListFrame(s, g, fl);
    FreeBpsConcat(bs, [b]);
    forall y
      ensures y in fl <==> y in FreeBps(a) && y != b.bp
    {
      FreeBpsOne(b, y);
      if y in FreeBps(bs) {
        FreeBpsWithin(bs, y);
      }
    }
    forall i | 0 <= i < |a| - 1 && i != |bs| && i + 1 != |bs|
      ensures a[i].alloc || a[i + 1].alloc
    {
      assert a[i] == bs[i] && a[i + 1] == bs[i + 1];
    }
  }

  /**
   * extend_heap fails exactly when the provider cannot grant the rounded
   * byte count, and then changes nothing; otherwise the new bytes become a
   * free block at the old break, merged with a free last block, and the
   * pointer returned is that of the merged block.
   */
  lemma ExtendValid(s: Heap, bs: seq<Block>, fl: seq<int>, words: nat)
    requires Sound(s, bs, fl)
    requires MIN_BLOCK <= words * WSIZE
    ensures ExtendHeap(s, words).0 == NULL <==> s.brk + ExtendBytes(words) > s.limit
    ensures ExtendHeap(s, words).0 == NULL ==> ExtendHeap(s, words).1 == s
    ensures ExtendHeap(s, words).0 != NULL ==>
              && ExtendHeap(s, words).0 == MergedBlock(Appended(bs, s.brk, ExtendBytes(words)), |bs|).bp
              && Valid(ExtendHeap(s, words).1, Extended(bs, s.brk, ExtendBytes(words)),
                       ExtendedList(bs, s.brk, ExtendBytes(words), fl))
              && ExtendHeap(s, words).1.brk == s.brk + ExtendBytes(words)
  {
    var size := ExtendBytes(words);
    if s.brk + size > s.limit {
      ExtendRefused(s, words);
    } else {
      ExtendedShape(s.heapList, s.brk, bs, size);
      ExtendIs(s, words, size);
      ValidEq(ExtendHeap(s, words).1, Coalesce(Grown(s, size), s.brk).0,
              Extended(bs, s.brk, size), ExtendedList(bs, s.brk, size, fl));
      GrownPending(s, bs, fl, size);
      CoalesceMerges(Grown(s, size), Appended(bs, s.brk, size), fl, |bs|);
    }
  }

  /** extend_heap leaves the provider's limit alone. */
  lemma ExtendLimit(s: Heap, words: nat)
    ensures ExtendHeap(s, words).1.limit == s.limit
    ensures ExtendHeap(s, words).1.heapList == s.heapList
  {
    var size := ExtendBytes(words);
    CoalesceLimit(NewFreeBlock(Sbrk(s, size).1, Sbrk(s, size).0, size), Sbrk(s, size).0);
  }
}

=== FILE: free.dfy ===
/**
 * mm_free: rewrite the block's header and footer as free with the same
 * size, then coalesce it with its free neighbours.
 */
module Freeing {
  import opened Words
  import opened HeapState
  import opened Layout
  import opened FreeList
  import opened Invariant
  import opened Coalescing

  /** mm_free(bp): the new state. */
  function Free(s: Heap, bp: int): Heap
  {
    var size := GetSize(s.mem, Hdrp(bp));
    Coalesce(SetTags(s, bp, size, 0), bp).0
  }

  /** The tiling with block k marked free, before coalescing. */
  function Released(bs: seq<Block>, k: int): seq<Block>
    requires 0 <= k < |bs|
  {
    Splice(bs, k, k + 1, [Block(bs[k].bp, bs[k].size, false)])
  }

  /** The tiling after mm_free of block k. */
  function Freed(bs: seq<Block>, k: int): seq<Block>
    requires 0 <= k < |bs|
  {
    Merged(Released(bs, k), k)
  }

  /** The free list after mm_free of block k. */
  function FreedList(bs: seq<Block>, k: int, fl: seq<int>): seq<int>
    requires 0 <= k < |bs|
  {
    Absorbed(Released(bs, k), k, fl)
  }

  /** mm_free's two stores are SetTags with the size read from the header. */
  lemma FreeIs(s: Heap, bp: int, size: int)
    requires GetSize(s.mem, Hdrp(bp)) == size
    ensures Free(s, bp) == Coalesce(SetTags(s, bp, size, 0), bp).0
  {
  }

  /** Marking an allocated block free leaves the state coalesce expects. */
  lemma ReleasedPending(s: Heap, bs: seq<Block>, fl: seq<int>, k: int)
    requires Valid(s, bs, fl)
    requires 0 <= k < |bs| && bs[k].alloc
    ensures Pending(SetTags(s, bs[k].bp, bs[k].size, 0), Released(bs, k), fl, k)
  {
    var b := Block(bs[k].bp, bs[k].size, false);
    var r := Released(bs, k);
    assert bs[k..k + 1] == [bs[k]];
    assert FreeBps(bs[k..k + 1]) == {};
    SetTagsRewrite(s, bs, fl, k, k + 1, b);
    SetTagsWrites(s, b.bp, b.size, 0);
    forall y
      ensures y in fl <==> y in FreeBps(r) && y != b.bp
    {
      FreeBpsSplice(s.heapList, s.brk, bs, k, k + 1, [b], y);
      FreeBpsOne(b, y);
    }
    forall i | 0 <= i < |r| - 1 && i != k && i + 1 != k
      ensures r[i].alloc || r[i + 1].alloc
    {
      SpliceAt(bs, k, k + 1, [b], i);
      SpliceAt(bs, k, k + 1, [b], i + 1);
    }
    SpliceAt(bs, k, k + 1, [b], k);
  }

  /**
   * mm_free restores the invariant: block k becomes free and is merged with
   * its free neighbours into one listed free block.
   */
  lemma FreeValid(s: Heap, bs: seq<Block>, fl: seq<int>, k: int)
    requires Valid(s, bs, fl)
    requires 0 <= k < |bs| && bs[k].alloc
    ensures Valid(Free(s, bs[k].bp), Freed(bs, k), FreedList(bs, k, fl))
  {
    MacrosAt(s.mem, s.heapList, s.brk, bs, k);
    FreeIs(s, bs[k].bp, bs[k].size);
    ValidEq(Free(s, bs[k].bp), Coalesce(SetTags(s, bs[k].bp, bs[k].size, 0), bs[k].bp).0,
            Freed(bs, k), FreedList(bs, k, fl));
    ReleasedPending(s, bs, fl, k);
    CoalesceMerges(SetTags(s, bs[k].bp, bs[k].size, 0), Released(bs, k), fl, k);
  }

  /**
   * What mm_free does to the blocks: the freed block's bytes lie inside one
   * free block of the result, and every other allocated block is unchanged.
   */
  lemma FreedShape(h: int, brk: int, bs: seq<Block>, k: int)
    requires Tiled(h, brk, bs)
    requires 0 <= k < |bs| && bs[k].alloc
    ensures exists i :: 0 <= i < |Freed(bs, k)| && !Freed(bs, k)[i].alloc
                        && Freed(bs, k)[i].bp <= bs[k].bp && End(bs[k]) <= End(Freed(bs, k)[i])
    ensures forall i :: 0 <= i < |bs| && i != k && bs[i].alloc ==> bs[i] in Freed(bs, k)
  {
    var b := Block(bs[k].bp, bs[k].size, false);
    var r := Released(bs, k);
    SpliceTiled(h, brk, bs, k, k + 1, [b]);
    SpliceAt(bs, k, k + 1, [b], k);
    var lo, hi := MergeLo(r, k), MergeHi(r, k);
    MergedBlockShape(h, brk, r, k);
    SpliceAt(r, lo, hi, [MergedBlock(r, k)], lo);
    if lo == k - 1 {
      Ordered(r, k - 1, k);
    }
    forall i | 0 <= i < |bs| && i != k && bs[i].alloc
      ensures bs[i] in Freed(bs, k)
    {
      SpliceAt(bs, k, k + 1, [b], i);
      if i < lo {
        SpliceAt(r, lo, hi, [MergedBlock(r, k)], i);
      } else {
        SpliceAt(r, lo, hi, [MergedBlock(r, k)], i - hi + lo + 1);
      }
    }
  }
}

=== FILE: free_list.dfy ===
/**
 * The explicit free list: a LIFO, doubly linked list threaded through the
 * payloads of the free blocks. PREV(bp) is the word at bp and SUCC(bp) the
 * word at bp+4; NULL ends the list in both directions.
 *
 * The abstract content of the list is a sequence of block pointers in list
 * order, starting at mp_firstfreeblock.
 */
module FreeList {
  import opened Words
  import opened HeapState

  ghost predicate Distinct(fl: seq<int>)
  {
    forall a, b :: 0 <= a < b < |fl| ==> fl[a] != fl[b]
  }

  /**
   * fl is the content of s's free list: the head is fl[0] (or, for an empty
   * list, NULL or the p_heap_list sentinel that mm_init leaves), every node's
   * PREV is the node before it and its SUCC the node after it, the ends are
   * NULL, and m_freecount is the length.
   */
  ghost predicate ListAgree(s: Heap, fl: seq<int>)
  {
    && Distinct(fl)
    && s.heapList >= 0
    && (forall k :: 0 <= k < |fl| ==> fl[k] % 8 == 0 && fl[k] > s.heapList)
    && (if |fl| == 0 then s.head == NULL || s.head == s.heapList else s.head == fl[0])
    && (forall k :: 0 <= k < |fl| ==> LinkedAt(s.mem, fl, k))
    && s.count == |fl|
  }

  /** The k-th node's PREV and SUCC words point to its neighbours in fl. */
  ghost predicate LinkedAt(m: Mem, fl: seq<int>, k: int)
    requires 0 <= k < |fl|
  {
    && PrevLink(m, fl[k]) == (if k == 0 then NULL else fl[k - 1])
    && SuccLink(m, fl[k]) == (if k == |fl| - 1 then NULL else fl[k + 1])
  }

  /** The addresses of the PREV and SUCC words of the listed blocks. */
  ghost function LinkWords(fl: seq<int>): set<int>
  {
    (set y | y in fl) + (set y | y in fl :: y + WSIZE)
  }

  /** Memory changed at most in the link words of the listed blocks. */
  ghost predicate OnlyLinksChanged(m: Mem, m': Mem, fl: seq<int>)
  {
    forall a :: a !in LinkWords(fl) ==> Get(m', a) == Get(m, a)
  }

  /** The list without its k-th node. */
  function RemoveAt(fl: seq<int>, k: int): seq<int>
    requires 0 <= k < |fl|
  {
    fl[..k] + fl[k + 1..]
  }

  /** The list with every occurrence of x taken out, order kept. */
  function Unlist(fl: seq<int>, x: int): seq<int>
  {
    if |fl| == 0 then []
    else (if fl[0] == x then [] else [fl[0]]) + Unlist(fl[1..], x)
  }

  lemma {:induction false} UnlistMembers(fl: seq<int>, x: int, y: int)
    ensures y in Unlist(fl, x) <==> y in fl && y != x
  {
    if |fl| > 0 {
      UnlistMembers(fl[1..], x, y);
      assert fl == [fl[0]] + fl[1..];
    }
  }

  /** In a list without repeats, taking out the k-th node's value removes exactly that node. */
  lemma {:induction false} UnlistRemoveAt(fl: seq<int>, k: int)
    requires Distinct(fl)
    requires 0 <= k < |fl|
    ensures Unlist(fl, fl[k]) == RemoveAt(fl, k)
  {
    if k == 0 {
      UnlistAbsent(fl[1..], fl[0]);
      assert RemoveAt(fl, 0) == fl[1..];
    } else {
      assert Distinct(fl[1..]) by {
        forall a, b | 0 <= a < b < |fl[1..]| ensures fl[1..][a] != fl[1..][b] {
          assert fl[1..][a] == fl[a + 1] && fl[1..][b] == fl[b + 1];
        }
      }
      UnlistRemoveAt(fl[1..], k - 1);
      assert fl[1..][k - 1] == fl[k];
      assert RemoveAt(fl, k) == [fl[0]] + RemoveAt(fl[1..], k - 1);
    }
  }

  /** Taking out a value that is not listed changes nothing. */
  lemma {:induction false} UnlistAbsent(fl: seq<int>, x: int)
    requires x !in fl
    ensures Unlist(fl, x) == fl
  {
    if |fl| > 0 {
      assert x !in fl[1..];
      UnlistAbsent(fl[1..], x);
      assert fl == [fl[0]] + fl[1..];
    }
  }

  /** free_block: push bp at the head of the list and count it. */
  function FreeBlock(s: Heap, bp: int): Heap
  {
    var s1 := s.(count := s.count + 1);
    if s1.head == s1.heapList || s1.head == NULL then
      Put(Put(s1, bp + WSIZE, NULL), bp, NULL).(head := bp)
    else
      var s2 := Put(Put(s1, bp + WSIZE, s1.head), bp, NULL);
      Put(s2, s2.head, bp).(head := bp)
  }

  /**
   * allocate_block: unlink bp from the list in O(1) and uncount it. The
   * cases are: bp was the only node, bp is the tail, bp is the head, bp is
   * interior. The count == -1 branch only repairs the counter.
   */
  function AllocateBlock(s: Heap, bp: int): Heap
  {
    var s1 := s.(count := s.count - 1);
    if s1.count == 0 then
      Put(Put(s1, bp, NULL), bp + WSIZE, NULL).(head := NULL)
    else if s1.count == -1 then
      s1.(count := 0)
    else
      var pp := PrevLink(s1.mem, bp);
      var np := SuccLink(s1.mem, bp);
      if np == NULL then
        Put(Put(Put(s1, pp + WSIZE, NULL), bp + WSIZE, NULL), bp, NULL)
      else if pp == NULL then
        var s2 := s1.(head := SuccLink(s1.mem, bp));
        Put(Put(Put(s2, s2.head, NULL), bp, NULL), bp + WSIZE, NULL)
      else
        Put(Put(Put(Put(s1, pp + WSIZE, np), np, pp), bp + WSIZE, NULL), bp, NULL)
  }

  /** Link words of two different aligned blocks never coincide. */
  lemma LinksApart(x: int, y: int)
    requires x % 8 == 0 && y % 8 == 0 && x != y
    ensures x != y + WSIZE && x + WSIZE != y
  {
    AlignedLowBits(y, 4);
    AlignedLowBits(x, 4);
  }

  lemma RemoveAtMembers(fl: seq<int>, k: int, y: int)
    requires Distinct(fl)
    requires 0 <= k < |fl|
    ensures y in RemoveAt(fl, k) <==> y in fl && y != fl[k]
  {
    var r := RemoveAt(fl, k);
    if y in r {
      var j :| 0 <= j < |r| && r[j] == y;
      if j < k {
        assert r[j] == fl[j];
      } else {
        assert r[j] == fl[j + 1];
      }
    }
    if y in fl && y != fl[k] {
      var j :| 0 <= j < |fl| && fl[j] == y;
      if j < k {
        assert r[j] == fl[j];
      } else {
        assert r[j - 1] == fl[j];
      }
    }
  }

  /** The words free_block writes, read back. */
  lemma FreeBlockWords(s: Heap, bp: int)
    requires bp != s.head && bp + WSIZE != s.head
    ensures FreeBlock(s, bp).head == bp && FreeBlock(s, bp).count == s.count + 1
    ensures FreeBlock(s, bp).heapList == s.heapList
    ensures FreeBlock(s, bp).brk == s.brk && FreeBlock(s, bp).limit == s.limit
    ensures Get(FreeBlock(s, bp).mem, bp) == NULL
    ensures Get(FreeBlock(s, bp).mem, bp + WSIZE)
         == if s.head == s.heapList || s.head == NULL then NULL else s.head
    ensures !(s.head == s.heapList || s.head == NULL) ==> Get(FreeBlock(s, bp).mem, s.head) == bp
    ensures forall a :: a != bp && a != bp + WSIZE && a != s.head
                    ==> Get(FreeBlock(s, bp).mem, a) == Get(s.mem, a)
    ensures s.head == s.heapList || s.head == NULL ==>
              forall a :: a != bp && a != bp + WSIZE ==> Get(FreeBlock(s, bp).mem, a) == Get(s.mem, a)
  {
  }

  /** Links of the list after a push, from the words the push wrote. */
  lemma PushLinks(m: Mem, m': Mem, fl: seq<int>, bp: int)
    requires forall k :: 0 <= k < |fl| ==> LinkedAt(m, fl, k)
    requires Get(m', bp) == NULL
    requires Get(m', bp + WSIZE) == if |fl| == 0 then NULL else fl[0]
    requires forall k :: 0 <= k < |fl| ==> Get(m', fl[k]) == if k == 0 then bp else Get(m, fl[k])
    requires forall k :: 0 <= k < |fl| ==> Get(m', fl[k] + WSIZE) == Get(m, fl[k] + WSIZE)
    ensures forall k :: 0 <= k < |[bp] + fl| ==> LinkedAt(m', [bp] + fl, k)
  {
    var fl' := [bp] + fl;
    forall k | 0 <= k < |fl'|
      ensures LinkedAt(m', fl', k)
    {
      if k > 0 {
        assert fl'[k] == fl[k - 1];
        assert LinkedAt(m, fl, k - 1);
      }
      if k < |fl| {
        assert fl'[k + 1] == fl[k];
      }
    }
  }

  /**
   * free_block pushes bp: it becomes the head with a NULL PREV, its SUCC is
   * the old head (NULL for an empty list), the old head's PREV becomes bp,
   * the count goes up by one, and no word outside the links changes.
   */
  lemma FreeBlockPushes(s: Heap, fl: seq<int>, bp: int)
    requires ListAgree(s, fl)
    requires bp % 8 == 0 && bp > s.heapList && bp !in fl
    ensures ListAgree(FreeBlock(s, bp), [bp] + fl)
    ensures FreeBlock(s, bp).head == bp && FreeBlock(s, bp).count == s.count + 1
    ensures PrevLink(FreeBlock(s, bp).mem, bp) == NULL
    ensures SuccLink(FreeBlock(s, bp).mem, bp) == if |fl| == 0 then NULL else fl[0]
    ensures FreeBlock(s, bp).heapList == s.heapList
    ensures FreeBlock(s, bp).brk == s.brk && FreeBlock(s, bp).limit == s.limit
    ensures OnlyLinksChanged(s.mem, FreeBlock(s, bp).mem, [bp] + fl)
  {
    var r := FreeBlock(s, bp);
    var fl' := [bp] + fl;
    if |fl| > 0 {
      LinksApart(bp, fl[0]);
    }
    FreeBlockWords(s, bp);
    forall k | 0 <= k < |fl|
      ensures Get(r.mem, fl[k]) == if k == 0 then bp else Get(s.mem, fl[k])
      ensures Get(r.mem, fl[k] + WSIZE) == Get(s.mem, fl[k] + WSIZE)
    {
      LinksApart(bp, fl[k]);
      if k > 0 {
        LinksApart(fl[0], fl[k]);
      }
    }
    PushLinks(s.mem, r.mem, fl, bp);
    assert Distinct(fl');
    forall a | a !in LinkWords(fl')
      ensures Get(r.mem, a) == Get(s.mem, a)
    {
      assert bp in fl' && bp + WSIZE in LinkWords(fl');
      if |fl| > 0 {
        assert fl[0] in fl';
      }
    }
  }

  lemma RemoveAtDistinct(fl: seq<int>, k: int)
    requires Distinct(fl)
    requires 0 <= k < |fl|
    ensures Distinct(RemoveAt(fl, k))
  {
    var fl' := RemoveAt(fl, k);
    forall a, b | 0 <= a < b < |fl'|
      ensures fl'[a] != fl'[b]
    {
      var a0 := if a < k then a else a + 1;
      var b0 := if b < k then b else b + 1;
      assert fl'[a] == fl[a0] && fl'[b] == fl[b0];
    }
  }

  /**
   * r's memory is s's with the k-th node unlinked: its neighbours point at
   * each other (or NULL at an end), its own links are NULL, and no other
   * word differs.
   */
  ghost predicate UnlinkWritten(s: Heap, r: Heap, fl: seq<int>, k: int)
    requires 0 <= k < |fl|
  {
    && r.count == s.count - 1
    && r.heapList == s.heapList && r.brk == s.brk && r.limit == s.limit
    && r.head == (if |fl| == 1 then NULL else if k == 0 then fl[1] else s.head)
    && Get(r.mem, fl[k]) == NULL
    && Get(r.mem, fl[k] + WSIZE) == NULL
    && (k > 0 ==> Get(r.mem, fl[k - 1] + WSIZE) == if k == |fl| - 1 then NULL else fl[k + 1])
    && (k < |fl| - 1 ==> Get(r.mem, fl[k + 1]) == if k == 0 then NULL else fl[k - 1])
    && (forall a :: a != fl[k] && a != fl[k] + WSIZE
                    && (k > 0 ==> a != fl[k - 1] + WSIZE)
                    && (k < |fl| - 1 ==> a != fl[k + 1])
                    ==> Get(r.mem, a) == Get(s.mem, a))
  }

  /** The words allocate_block writes when it unlinks the k-th node. */
  lemma AllocateBlockWords(s: Heap, fl: seq<int>, k: int)
    requires ListAgree(s, fl)
    requires 0 <= k < |fl|
    ensures UnlinkWritten(s, AllocateBlock(s, fl[k]), fl, k)
  {
    var bp := fl[k];
    assert LinkedAt(s.mem, fl, k);
    if k > 0 {
      LinksApart(bp, fl[k - 1]);
    }
    if k < |fl| - 1 {
      LinksApart(bp, fl[k + 1]);
      assert fl[k + 1] != NULL;
    }
    if 0 < k < |fl| - 1 {
      LinksApart(fl[k - 1], fl[k + 1]);
    }
  }

  /** Links of the list after an unlink, from the words the unlink wrote. */
  lemma UnlinkLinks(m: Mem, m': Mem, fl: seq<int>, k: int)
    requires 0 <= k < |fl|
    requires forall j :: 0 <= j < |fl| ==> LinkedAt(m, fl, j)
    requires k > 0 ==> Get(m', fl[k - 1] + WSIZE) == if k == |fl| - 1 then NULL else fl[k + 1]
    requires k < |fl| - 1 ==> Get(m', fl[k + 1]) == if k == 0 then NULL else fl[k - 1]
    requires forall j :: 0 <= j < |fl| && j != k && j != k + 1 ==> Get(m', fl[j]) == Get(m, fl[j])
    requires forall j :: 0 <= j < |fl| && j != k && j != k - 1
                         ==> Get(m', fl[j] + WSIZE) == Get(m, fl[j] + WSIZE)
    ensures forall j :: 0 <= j < |RemoveAt(fl, k)| ==> LinkedAt(m', RemoveAt(fl, k), j)
  {
    var fl' := RemoveAt(fl, k);
    forall j | 0 <= j < |fl'|
      ensures LinkedAt(m', fl', j)
    {
      var j0 := if j < k then j else j + 1;
      assert fl'[j] == fl[j0];
      assert LinkedAt(m, fl, j0);
      if j > 0 {
        assert fl'[j - 1] == fl[if j - 1 < k then j - 1 else j];
      }
      if j < |fl'| - 1 {
        assert fl'[j + 1] == fl[if j + 1 < k then j + 1 else j + 2];
      }
    }
  }

  /**
   * allocate_block unlinks the k-th node: the list loses exactly that node,
   * the neighbours are spliced together (the successor becomes the head when
   * the head is removed), the node's own links are cleared, the count goes
   * down by one, and no word outside the links changes.
   */
  lemma AllocateBlockUnlinks(s: Heap, fl: seq<int>, k: int)
    requires ListAgree(s, fl)
    requires 0 <= k < |fl|
    ensures ListAgree(AllocateBlock(s, fl[k]), RemoveAt(fl, k))
    ensures AllocateBlock(s, fl[k]).count == s.count - 1
    ensures PrevLink(AllocateBlock(s, fl[k]).mem, fl[k]) == NULL
    ensures SuccLink(AllocateBlock(s, fl[k]).mem, fl[k]) == NULL
    ensures AllocateBlock(s, fl[k]).heapList == s.heapList
    ensures AllocateBlock(s, fl[k]).brk == s.brk && AllocateBlock(s, fl[k]).limit == s.limit
    ensures OnlyLinksChanged(s.mem, AllocateBlock(s, fl[k]).mem, fl)
  {
    AllocateBlockWords(s, fl, k);
    UnlinkAgree(s, AllocateBlock(s, fl[k]), fl, k);
  }

  /** The list relation after an unlink, from the words the unlink wrote. */
  lemma UnlinkAgree(s: Heap, r: Heap, fl: seq<int>, k: int)
    requires ListAgree(s, fl)
    requires 0 <= k < |fl|
    requires UnlinkWritten(s, r, fl, k)
    ensures ListAgree(r, RemoveAt(fl, k))
    ensures OnlyLinksChanged(s.mem, r.mem, fl)
  {
    var bp := fl[k];
    var fl' := RemoveAt(fl, k);
    RemoveAtDistinct(fl, k);
    forall j | 0 <= j < |fl| && j != k && j != k + 1
      ensures Get(r.mem, fl[j]) == Get(s.mem, fl[j])
    {
      LinksApart(fl[j], bp);
      if k > 0 && j != k - 1 {
        LinksApart(fl[j], fl[k - 1]);
      }
    }
    forall j | 0 <= j < |fl| && j != k && j != k - 1
      ensures Get(r.mem, fl[j] + WSIZE) == Get(s.mem, fl[j] + WSIZE)
    {
      LinksApart(fl[j], bp);
      if k < |fl| - 1 && j != k + 1 {
        LinksApart(fl[j], fl[k + 1]);
      }
    }
    UnlinkLinks(s.mem, r.mem, fl, k);
    UnlinkFrame(s, r, fl, k);
  }

  /** An unlink writes only link words of listed blocks. */
  lemma UnlinkFrame(s: Heap, r: Heap, fl: seq<int>, k: int)
    requires 0 <= k < |fl|
    requires UnlinkWritten(s, r, fl, k)
    ensures OnlyLinksChanged(s.mem, r.mem, fl)
  {
    forall a | a !in LinkWords(fl)
      ensures Get(r.mem, a) == Get(s.mem, a)
    {
      assert fl[k] in fl;
      if k > 0 {
        assert fl[k - 1] in fl;
      }
      if k < |fl| - 1 {
        assert fl[k + 1] in fl;
      }
    }
  }

  /** The list survives any change that keeps the globals and every listed node's two link words. */
  lemma ListFrame(s: Heap, s': Heap, fl: seq<int>)
    requires ListAgree(s, fl)
    requires s'.heapList == s.heapList && s'.head == s.head && s'.count == s.count
    requires forall k :: 0 <= k < |fl| ==> Get(s'.mem, fl[k]) == Get(s.mem, fl[k])
    requires forall k :: 0 <= k < |fl| ==> Get(s'.mem, fl[k] + WSIZE) == Get(s.mem, fl[k] + WSIZE)
    ensures ListAgree(s', fl)
  {
    forall k | 0 <= k < |fl|
      ensures LinkedAt(s'.mem, fl, k)
    {
      assert LinkedAt(s.mem, fl, k);
    }
  }

  /** Neither list operation touches the provider's limit. */
  lemma FreeBlockLimit(s: Heap, bp: int)
    ensures FreeBlock(s, bp).limit == s.limit
    ensures FreeBlock(s, bp).heapList == s.heapList && FreeBlock(s, bp).brk == s.brk
  {
  }

  lemma AllocateBlockLimit(s: Heap, bp: int)
    ensures AllocateBlock(s, bp).limit == s.limit
    ensures AllocateBlock(s, bp).heapList == s.heapList && AllocateBlock(s, bp).brk == s.brk
  {
  }
}

=== FILE: heap_state.dfy ===
/**
 * The allocator's global state, packaged as one immutable record.
 *
 * `heapList` is p_heap_list (the prologue block's payload address),
 * `head` is mp_firstfreeblock and `count` is m_freecount. `brk` and `limit`
 * stand for the external memory provider: the heap occupies addresses below
 * `brk`, and the provider can hand out bytes up to `limit`.
 */
module HeapState {
  import opened Words

  datatype Heap = Heap(mem: Mem, heapList: int, head: int, count: int, brk: int, limit: int)

  /** PUT(p, v): store one word. */
  function Put(s: Heap, p: int, v: int): (r: Heap)
    ensures Get(r.mem, p) == v
    ensures forall q {:trigger Get(r.mem, q)} :: q != p ==> Get(r.mem, q) == Get(s.mem, q)
    ensures r.heapList == s.heapList && r.head == s.head && r.count == s.count
    ensures r.brk == s.brk && r.limit == s.limit
  {
    s.(mem := s.mem[p := v])
  }

  /**
   * PUT(HDRP(bp), PACK(size, alloc)) followed by PUT(FTRP(bp), PACK(size, alloc)):
   * the footer's address is found from the header just written.
   */
  function SetTags(s: Heap, bp: int, size: int, alloc: int): Heap
    requires alloc == 0 || alloc == 1
  {
    var s1 := Put(s, Hdrp(bp), Pack(size, alloc));
    Put(s1, Ftrp(s1.mem, bp), Pack(size, alloc))
  }

  /** SetTags stores the tag at bp-4 and at bp+size-8 and nothing else. */
  lemma SetTagsWrites(s: Heap, bp: int, size: int, alloc: int)
    requires size % 8 == 0 && size >= DSIZE
    requires alloc == 0 || alloc == 1
    ensures Get(SetTags(s, bp, size, alloc).mem, bp - WSIZE) == size + alloc
    ensures Get(SetTags(s, bp, size, alloc).mem, bp + size - DSIZE) == size + alloc
    ensures forall q :: q != bp - WSIZE && q != bp + size - DSIZE
                        ==> Get(SetTags(s, bp, size, alloc).mem, q) == Get(s.mem, q)
    ensures SetTags(s, bp, size, alloc) == s.(mem := SetTags(s, bp, size, alloc).mem)
  {
    PackRoundTrip(size, alloc);
    var s1 := Put(s, Hdrp(bp), Pack(size, alloc));
    TagAt(s1.mem, bp - WSIZE, size, alloc);
  }

  /** Two stores of the same word, at a and then at b. */
  function PutPair(s: Heap, a: int, b: int, v: int): Heap
  {
    Put(Put(s, a, v), b, v)
  }

  /** PutPair changes the two words and nothing else. */
  lemma PutPairWrites(s: Heap, a: int, b: int, v: int)
    requires a != b
    ensures Get(PutPair(s, a, b, v).mem, a) == v
    ensures Get(PutPair(s, a, b, v).mem, b) == v
    ensures forall q :: q != a && q != b ==> Get(PutPair(s, a, b, v).mem, q) == Get(s.mem, q)
    ensures PutPair(s, a, b, v) == s.(mem := PutPair(s, a, b, v).mem)
  {
  }

  /** Writing the footer first and the header second leaves the same state as SetTags. */
  lemma FooterFirstIsSetTags(s: Heap, bp: int, size: int, f: int)
    requires size % 8 == 0 && size >= DSIZE
    requires f == bp + size - DSIZE
    ensures PutPair(s, f, Hdrp(bp), Pack(size, 0)) == SetTags(s, bp, size, 0)
  {
    SetTagsWrites(s, bp, size, 0);
    PutPairWrites(s, f, Hdrp(bp), Pack(size, 0));
    PackRoundTrip(size, 0);
    var a := PutPair(s, f, Hdrp(bp), Pack(size, 0));
    var b := SetTags(s, bp, size, 0);
    assert forall q :: Get(a.mem, q) == Get(b.mem, q);
  }

  /**
   * The provider's sbrk: extend the heap by incr bytes at the break and
   * return the old break, or return -1 (the (void *)-1 failure value) and
   * change nothing when the request is negative or would pass the limit.
   */
  function Sbrk(s: Heap, incr: int): (int, Heap)
  {
    if incr < 0 || s.brk + incr > s.limit then (-1, s)
    else (s.brk, s.(brk := s.brk + incr))
  }
}

=== FILE: init.dfy ===
/**
 * mm_init: take 16 bytes from the provider for the alignment pad, the
 * prologue header and footer and the epilogue header, point p_heap_list
 * between the prologue's tags, start with an empty list, and extend the
 * heap by CHUNKSIZE bytes. Two stores of NULL follow into the first free
 * block.
 */
module Initializing {
  import opened Words
  import opened HeapState
  import opened Layout
  import opened FreeList
  import opened Invariant
  import opened Coalescing
  import opened Extending

  /** The prologue and epilogue written at p, and the globals mm_init sets before growing the heap. */
  function Skeleton(s: Heap, p: int): Heap
  {
    var s1 := Put(Put(Put(Put(s, p, 0), p + WSIZE, Pack(OVERHEAD, 1)),
                      p + DSIZE, Pack(OVERHEAD, 1)), p + WSIZE + DSIZE, Pack(0, 1));
    s1.(heapList := p + DSIZE, head := p + DSIZE, count := 0)
  }

  /** Everything after the first mem_sbrk: the skeleton, extend_heap, and the two stray stores. */
  function InitFrom(s: Heap, p: int): (int, Heap)
  {
    var s2 := Skeleton(s, p);
    var e := ExtendHeap(s2, CHUNKSIZE / WSIZE);
    if e.0 == NULL then (-1, e.1) else (0, StrayStores(e.1))
  }

  /** SUCC(mp_firstfreeblock + WSIZE) = NULL, then PREV(mp_firstfreeblock + WSIZE) = NULL. */
  function StrayStores(t: Heap): Heap
  {
    var t1 := Put(t, t.head + WSIZE + WSIZE, NULL);
    Put(t1, t1.head + WSIZE, NULL)
  }

  /**
   * mm_init as written: the result of mem_sbrk is compared with NULL,
   * although the provider reports failure with (void *)-1.
   */
  function InitAsWritten(s: Heap): (int, Heap)
  {
    var g := Sbrk(s, 4 * WSIZE);
    if g.0 == NULL then (-1, g.1)
    else InitFrom(g.1, g.0)
  }

  /** mm_init comparing with the provider's failure value, as extend_heap does. */
  function Init(s: Heap): (int, Heap)
  {
    var g := Sbrk(s, 4 * WSIZE);
    if g.0 == -1 then (-1, g.1)
    else InitFrom(g.1, g.0)
  }

  /**
   * With an exhausted provider, mm_init as written does not stop: its
   * stores go through the failure value (void *)-1. In C that is undefined
   * behaviour and on a usual target a fault. Here memory has no invalid
   * addresses, so the model shows the prologue header PACK(8, 1) stored at
   * address 3 (-1 + 4) and extend_heap's refusal then giving -1.
   */
  lemma InitAsWrittenStoresOnFailure(s: Heap)
    requires s.brk == 8 && s.limit == 8 && Get(s.mem, 3) == 0
    ensures InitAsWritten(s).0 == -1
    ensures Get(InitAsWritten(s).1.mem, 3) == Pack(OVERHEAD, 1)
    ensures InitAsWritten(s).1 != s
  {
    var sk := Skeleton(s, -1);
    assert Get(sk.mem, 3) == Pack(OVERHEAD, 1);
    assert ExtendHeap(sk, CHUNKSIZE / WSIZE) == (NULL, sk);
  }

  /** The corrected mm_init changes nothing when the provider refuses the first 16 bytes. */
  lemma InitRefused(s: Heap)
    requires s.brk + 4 * WSIZE > s.limit
    ensures Init(s) == (-1, s)
  {
  }

  /** When the provider grants the first 16 bytes, the rest of mm_init starts at the old break. */
  lemma InitGranted(s: Heap)
    requires s.brk >= 0 && s.brk + 4 * WSIZE <= s.limit
    ensures Init(s) == InitFrom(Sbrk(s, 4 * WSIZE).1, s.brk)
    ensures Sbrk(s, 4 * WSIZE).1.brk == s.brk + 4 * WSIZE
    ensures Sbrk(s, 4 * WSIZE).1.limit == s.limit
  {
  }

  /** The skeleton is a sound heap with no blocks and an empty list. */
  lemma SkeletonSound(s: Heap, p: int)
    requires p >= 0 && p % 8 == 0
    requires s.brk == p + 4 * WSIZE && s.brk <= s.limit
    ensures Sound(Skeleton(s, p), [], [])
    ensures Skeleton(s, p).brk == s.brk && Skeleton(s, p).limit == s.limit
  {
    PackRoundTrip(OVERHEAD, 1);
    PackRoundTrip(0, 1);
  }

  /** The heap mm_init builds: one free block of CHUNKSIZE bytes right after the prologue, listed alone. */
  function InitialBlocks(p: int): seq<Block>
  {
    [Block(p + 2 * DSIZE, CHUNKSIZE, false)]
  }

  /** extend_heap on the skeleton gives the initial heap. */
  lemma SkeletonExtends(s: Heap, p: int)
    requires p >= 0 && p % 8 == 0
    requires s.brk == p + 4 * WSIZE && s.brk <= s.limit
    ensures ExtendHeap(Skeleton(s, p), CHUNKSIZE / WSIZE).0 == NULL <==> s.brk + CHUNKSIZE > s.limit
    ensures ExtendHeap(Skeleton(s, p), CHUNKSIZE / WSIZE).0 != NULL ==>
              Valid(ExtendHeap(Skeleton(s, p), CHUNKSIZE / WSIZE).1, InitialBlocks(p), [p + 2 * DSIZE])
  {
    var sk := Skeleton(s, p);
    SkeletonSound(s, p);
    ExtendBytesExact(CHUNKSIZE);
    ExtendValid(sk, [], [], CHUNKSIZE / WSIZE);
    var a := Appended([], sk.brk, CHUNKSIZE);
    assert a == InitialBlocks(p);
    assert MergeLo(a, 0) == 0 && MergeHi(a, 0) == 1;
    assert MergedBlock(a, 0) == a[0];
    assert Extended([], sk.brk, CHUNKSIZE) == InitialBlocks(p);
    assert ExtendedList([], sk.brk, CHUNKSIZE, []) == [p + 2 * DSIZE];
  }

  /**
   * The two stores after extend_heap hit the first free block's SUCC word,
   * which already holds NULL, and a payload word: the heap stays valid.
   */
  lemma StrayStoresHarmless(t: Heap, bp: int)
    requires Valid(t, [Block(bp, CHUNKSIZE, false)], [bp])
    ensures Valid(StrayStores(t), [Block(bp, CHUNKSIZE, false)], [bp])
  {
    var bs := [Block(bp, CHUNKSIZE, false)];
    var fl := [bp];
    assert t.head == bp;
    var t2 := StrayStores(t);
    assert t2 == Put(Put(t, bp + WSIZE + WSIZE, NULL), bp + WSIZE, NULL);
    assert LinkedAt(t.mem, fl, 0);
    Placement(t.heapList, t.brk, bs, 0);
    assert LinkedAt(t2.mem, fl, 0);
  }

  /** After the first mem_sbrk: extend_heap decides success, and the stray stores keep the heap valid. */
  lemma InitFromValid(g: Heap, p: int)
    requires p >= 0 && p % 8 == 0
    requires g.brk == p + 4 * WSIZE && g.brk <= g.limit
    ensures InitFrom(g, p).0 == 0 || InitFrom(g, p).0 == -1
    ensures InitFrom(g, p).0 == 0 <==> g.brk + CHUNKSIZE <= g.limit
    ensures InitFrom(g, p).0 == 0 ==> Valid(InitFrom(g, p).1, InitialBlocks(p), [p + 2 * DSIZE])
  {
    SkeletonExtends(g, p);
    var e := ExtendHeap(Skeleton(g, p), CHUNKSIZE / WSIZE);
    if e.0 != NULL {
      StrayStoresHarmless(e.1, p + 2 * DSIZE);
    }
  }

  /**
   * mm_init succeeds exactly when the provider can grant the 16 bytes of
   * prologue and epilogue and a first chunk of CHUNKSIZE bytes; the heap
   * is then one free block of CHUNKSIZE bytes, alone on the list.
   */
  lemma InitValid(s: Heap)
    requires s.brk >= 0 && s.brk % 8 == 0
    ensures Init(s).0 == 0 || Init(s).0 == -1
    ensures Init(s).0 == 0 <==> s.brk + 4 * WSIZE + CHUNKSIZE <= s.limit
    ensures Init(s).0 == 0 ==> Valid(Init(s).1, InitialBlocks(s.brk), [s.brk + 2 * DSIZE])
    ensures s.brk + 4 * WSIZE > s.limit ==> Init(s).1 == s
  {
    if s.brk + 4 * WSIZE > s.limit {
      InitRefused(s);
    } else {
      InitGrantedValid(s);
    }
  }

  /** mm_init once the provider has granted the first 16 bytes. */
  lemma InitGrantedValid(s: Heap)
    requires s.brk >= 0 && s.brk % 8 == 0 && s.brk + 4 * WSIZE <= s.limit
    ensures Init(s).0 == 0 || Init(s).0 == -1
    ensures Init(s).0 == 0 <==> s.brk + 4 * WSIZE + CHUNKSIZE <= s.limit
    ensures Init(s).0 == 0 ==> Valid(Init(s).1, InitialBlocks(s.brk), [s.brk + 2 * DSIZE])
  {
    InitGranted(s);
    InitOutcome(s, Init(s));
  }

  /** InitFromValid for a result r named by the caller, so that it can be stated of Init(s) without unfolding it. */
  lemma InitOutcome(s: Heap, r: (int, Heap))
    requires s.brk >= 0 && s.brk % 8 == 0 && s.brk + 4 * WSIZE <= s.limit
    requires r == InitFrom(Sbrk(s, 4 * WSIZE).1, s.brk)
    ensures r.0 == 0 || r.0 == -1
    ensures r.0 == 0 <==> s.brk + 4 * WSIZE + CHUNKSIZE <= s.limit
    ensures r.0 == 0 ==> Valid(r.1, InitialBlocks(s.brk), [s.brk + 2 * DSIZE])
  {
    InitFromValid(Sbrk(s, 4 * WSIZE).1, s.brk);
  }
}

=== FILE: invariant.dfy ===
/**
 * The representation invariant tying the concrete heap (memory words and
 * the three globals) to the abstract view (a tiling of blocks and the list
 * of free block pointers), and the frame lemmas that carry it across writes.
 */
module Invariant {
  import opened Words
  import opened HeapState
  import opened Layout
  import opened FreeList

  /** Every listed pointer is the payload address of a free block. */
  ghost predicate Listed(bs: seq<Block>, fl: seq<int>)
  {
    forall y :: y in fl ==> y in FreeBps(bs)
  }

  /**
   * The heap is laid out as bs (tags in memory, epilogue at brk, within the
   * provider's limit), coalescing has run, and fl is the free list, which
   * holds exactly the free blocks.
   */
  ghost predicate Sound(s: Heap, bs: seq<Block>, fl: seq<int>)
  {
    && Tiled(s.heapList, s.brk, bs)
    && TagsAgree(s.mem, s.heapList, s.brk, bs)
    && s.brk <= s.limit
    && NoAdjacentFree(bs)
    && ListAgree(s, fl)
    && (forall y :: y in fl <==> y in FreeBps(bs))
  }

  /**
   * The state between mm_init and mm_malloc/mm_free calls. Once the first
   * block has been freed the list head is never the p_heap_list sentinel
   * again: an empty list has a NULL head.
   */
  ghost predicate Valid(s: Heap, bs: seq<Block>, fl: seq<int>)
  {
    Sound(s, bs, fl) && s.head != s.heapList
  }

  /** The link words of a block lie strictly inside it: they are nobody's tag. */
  lemma LinkNotTag(h: int, brk: int, bs: seq<Block>, i: int, a: int)
    requires Tiled(h, brk, bs)
    requires 0 <= i < |bs|
    requires a == bs[i].bp || a == bs[i].bp + WSIZE
    ensures a != h - WSIZE && a != h && a != brk - WSIZE
    ensures forall k :: 0 <= k < |bs| ==> a != bs[k].bp - WSIZE && a != End(bs[k]) - DSIZE
  {
    Placement(h, brk, bs, i);
    forall k | 0 <= k < |bs|
      ensures a != bs[k].bp - WSIZE && a != End(bs[k]) - DSIZE
    {
      if k < i {
        Ordered(bs, k, i);
      } else if k > i {
        Ordered(bs, i, k);
      }
    }
  }

  /** Writes confined to the link words of listed blocks leave every tag in place. */
  lemma LinksKeepTags(m: Mem, m': Mem, h: int, brk: int, bs: seq<Block>, fl: seq<int>)
    requires Tiled(h, brk, bs) && TagsAgree(m, h, brk, bs)
    requires Listed(bs, fl)
    requires OnlyLinksChanged(m, m', fl)
    ensures TagsAgree(m', h, brk, bs)
  {
    forall y | y in fl
      ensures y != h - WSIZE && y != h && y != brk - WSIZE
      ensures y + WSIZE != h - WSIZE && y + WSIZE != h && y + WSIZE != brk - WSIZE
      ensures forall k :: 0 <= k < |bs| ==> y != bs[k].bp - WSIZE && y != End(bs[k]) - DSIZE
      ensures forall k :: 0 <= k < |bs| ==> y + WSIZE != bs[k].bp - WSIZE && y + WSIZE != End(bs[k]) - DSIZE
    {
      assert y in FreeBps(bs);
      var i :| 0 <= i < |bs| && !bs[i].alloc && bs[i].bp == y;
      LinkNotTag(h, brk, bs, i, y);
      LinkNotTag(h, brk, bs, i, y + WSIZE);
    }
    forall a | a == h - WSIZE || a == h || a == brk - WSIZE
      ensures Get(m', a) == Get(m, a)
    {
      assert a !in LinkWords(fl);
    }
    forall k | 0 <= k < |bs|
      ensures Get(m', bs[k].bp - WSIZE) == Tag(bs[k])
      ensures Get(m', End(bs[k]) - DSIZE) == Tag(bs[k])
    {
      assert bs[k].bp - WSIZE !in LinkWords(fl);
      assert End(bs[k]) - DSIZE !in LinkWords(fl);
    }
  }

  /**
   * Writes confined to the tags of the run bs[lo..hi] leave the free list
   * intact when no listed block lies in the run.
   */
  lemma RunKeepsList(s: Heap, s': Heap, bs: seq<Block>, lo: int, hi: int, fl: seq<int>)
    requires Tiled(s.heapList, s.brk, bs)
    requires ListAgree(s, fl)
    requires 0 <= lo < hi <= |bs|
    requires forall y :: y in fl ==> y in FreeBps(bs[..lo]) || y in FreeBps(bs[hi..])
    requires s' == s.(mem := s'.mem)
    requires forall a :: a < bs[lo].bp - WSIZE || a >= End(bs[hi - 1]) - WSIZE ==> Get(s'.mem, a) == Get(s.mem, a)
    ensures ListAgree(s', fl)
  {
    forall k | 0 <= k < |fl|
      ensures Get(s'.mem, fl[k]) == Get(s.mem, fl[k])
      ensures Get(s'.mem, fl[k] + WSIZE) == Get(s.mem, fl[k] + WSIZE)
      ensures LinkedAt(s'.mem, fl, k)
    {
      assert LinkedAt(s.mem, fl, k);
      var y := fl[k];
      if y in FreeBps(bs[..lo]) {
        var i :| 0 <= i < lo && !bs[..lo][i].alloc && bs[..lo][i].bp == y;
        assert bs[..lo][i] == bs[i];
        Ordered(bs, i, lo);
      } else {
        assert y in FreeBps(bs[hi..]);
        var i :| 0 <= i < |bs| - hi && !bs[hi..][i].alloc && bs[hi..][i].bp == y;
        assert bs[hi..][i] == bs[hi + i];
        if i > 0 {
          Ordered(bs, hi - 1, hi + i);
        }
      }
    }
  }

  /** Unlinking a listed block writes only link words, so every tag stays where it was. */
  lemma UnlinkKeepsTags(s: Heap, bs: seq<Block>, fl: seq<int>, n: int)
    requires Tiled(s.heapList, s.brk, bs) && TagsAgree(s.mem, s.heapList, s.brk, bs)
    requires ListAgree(s, fl) && Listed(bs, fl)
    requires n in fl
    ensures TagsAgree(AllocateBlock(s, n).mem, s.heapList, s.brk, bs)
  {
    var j :| 0 <= j < |fl| && fl[j] == n;
    AllocateBlockUnlinks(s, fl, j);
    LinksKeepTags(s.mem, AllocateBlock(s, n).mem, s.heapList, s.brk, bs, fl);
  }

  /**
   * allocate_block on a listed block keeps every tag and leaves the list
   * without that block.
   */
  lemma UnlinkStep(s: Heap, bs: seq<Block>, fl: seq<int>, n: int)
    requires Tiled(s.heapList, s.brk, bs) && TagsAgree(s.mem, s.heapList, s.brk, bs)
    requires ListAgree(s, fl) && Listed(bs, fl)
    requires n in fl
    ensures ListAgree(AllocateBlock(s, n), Unlist(fl, n))
    ensures TagsAgree(AllocateBlock(s, n).mem, s.heapList, s.brk, bs)
    ensures AllocateBlock(s, n).heapList == s.heapList
    ensures AllocateBlock(s, n).brk == s.brk && AllocateBlock(s, n).limit == s.limit
    ensures forall y :: y in Unlist(fl, n) <==> y in fl && y != n
  {
    var j :| 0 <= j < |fl| && fl[j] == n;
    AllocateBlockUnlinks(s, fl, j);
    UnlistRemoveAt(fl, j);
    LinksKeepTags(s.mem, AllocateBlock(s, n).mem, s.heapList, s.brk, bs, fl);
    forall y ensures y in Unlist(fl, n) <==> y in fl && y != n {
      UnlistMembers(fl, n, y);
    }
  }

  /**
   * free_block on a free, not yet listed block whose neighbours are not
   * free completes the invariant, with the block at the head of the list.
   */
  lemma PushStep(s: Heap, bs: seq<Block>, fl: seq<int>, i: int)
    requires Tiled(s.heapList, s.brk, bs) && TagsAgree(s.mem, s.heapList, s.brk, bs)
    requires s.brk <= s.limit && NoAdjacentFree(bs)
    requires ListAgree(s, fl)
    requires 0 <= i < |bs| && !bs[i].alloc
    requires forall y :: y in fl <==> y in FreeBps(bs) && y != bs[i].bp
    ensures Valid(FreeBlock(s, bs[i].bp), bs, [bs[i].bp] + fl)
    ensures FreeBlock(s, bs[i].bp).head == bs[i].bp
  {
    var bp := bs[i].bp;
    var r := FreeBlock(s, bp);
    Placement(s.heapList, s.brk, bs, i);
    assert bp in FreeBps(bs);
    FreeBlockPushes(s, fl, bp);
    LinksKeepTags(s.mem, r.mem, s.heapList, s.brk, bs, [bp] + fl);
  }

  /** The invariant of a state carries over to an equal state. */
  lemma ValidEq(a: Heap, b: Heap, bs: seq<Block>, fl: seq<int>)
    requires a == b
    ensures Valid(b, bs, fl) ==> Valid(a, bs, fl)
  {
  }

  /** PushStep with the pushed block's address named by the caller. */
  lemma PushAt(s: Heap, bs: seq<Block>, fl: seq<int>, i: int, bp: int)
    requires Tiled(s.heapList, s.brk, bs) && TagsAgree(s.mem, s.heapList, s.brk, bs)
    requires s.brk <= s.limit && NoAdjacentFree(bs)
    requires ListAgree(s, fl)
    requires 0 <= i < |bs| && !bs[i].alloc && bs[i].bp == bp
    requires forall y :: y in fl <==> y in FreeBps(bs) && y != bp
    ensures Valid(FreeBlock(s, bp), bs, [bp] + fl)
  {
    PushStep(s, bs, fl, i);
  }

  /** A free block outside a run stays free after the run is replaced, and is none of the new blocks. */
  lemma OutsideRun(h: int, brk: int, bs: seq<Block>, lo: int, hi: int, mid: seq<Block>, y: int)
    requires Tiled(h, brk, bs)
    requires 0 <= lo < hi <= |bs|
    requires Contiguous(mid) && |mid| > 0
    requires mid[0].bp == bs[lo].bp && End(mid[|mid| - 1]) == End(bs[hi - 1])
    requires y in FreeBps(bs) && y !in FreeBps(bs[lo..hi])
    ensures y in FreeBps(bs[..lo]) || y in FreeBps(bs[hi..])
    ensures y in FreeBps(Splice(bs, lo, hi, mid)) && y !in FreeBps(mid)
  {
    FreeBpsOutside(bs, lo, hi, y);
    FreeBpsSplice(h, brk, bs, lo, hi, mid, y);
    if y in FreeBps(mid) {
      FreeBpsWithin(mid, y);
      if y in FreeBps(bs[..lo]) {
        var i :| 0 <= i < lo && !bs[..lo][i].alloc && bs[..lo][i].bp == y;
        assert bs[..lo][i] == bs[i];
        Ordered(bs, i, lo);
      } else {
        var i :| 0 <= i < |bs| - hi && !bs[hi..][i].alloc && bs[hi..][i].bp == y;
        assert bs[hi..][i] == bs[hi + i];
        if i > 0 {
          Ordered(bs, hi - 1, hi + i);
        }
      }
    }
  }

  /**
   * Rewriting the tags of the run bs[lo..hi] as the blocks mid (same span)
   * yields the spliced tiling, and a list of blocks outside the run still
   * holds and still lists only free blocks outside mid.
   */
  lemma RewriteStep(s: Heap, s': Heap, bs: seq<Block>, fl: seq<int>, lo: int, hi: int, mid: seq<Block>)
    requires Tiled(s.heapList, s.brk, bs) && TagsAgree(s.mem, s.heapList, s.brk, bs)
    requires ListAgree(s, fl)
    requires 0 <= lo < hi <= |bs|
    requires Contiguous(mid) && |mid| > 0
    requires mid[0].bp == bs[lo].bp && End(mid[|mid| - 1]) == End(bs[hi - 1])
    requires forall y :: y in fl ==> y in FreeBps(bs) && y !in FreeBps(bs[lo..hi])
    requires s' == s.(mem := s'.mem)
    requires forall a :: a < bs[lo].bp - WSIZE || a >= End(bs[hi - 1]) - WSIZE ==> Get(s'.mem, a) == Get(s.mem, a)
    requires forall k :: 0 <= k < |mid| ==> Get(s'.mem, mid[k].bp - WSIZE) == Tag(mid[k])
    requires forall k :: 0 <= k < |mid| ==> Get(s'.mem, End(mid[k]) - DSIZE) == Tag(mid[k])
    ensures Tiled(s.heapList, s.brk, Splice(bs, lo, hi, mid))
    ensures TagsAgree(s'.mem, s.heapList, s.brk, Splice(bs, lo, hi, mid))
    ensures ListAgree(s', fl)
    ensures forall y :: y in fl ==> y in FreeBps(Splice(bs, lo, hi, mid)) && y !in FreeBps(mid)
  {
    var h, brk := s.heapList, s.brk;
    SpliceTiled(h, brk, bs, lo, hi, mid);
    SpliceTags(s.mem, s'.mem, h, brk, bs, lo, hi, mid);
    forall y | y in fl
      ensures y in FreeBps(bs[..lo]) || y in FreeBps(bs[hi..])
      ensures y in FreeBps(Splice(bs, lo, hi, mid)) && y !in FreeBps(mid)
    {
      OutsideRun(h, brk, bs, lo, hi, mid, y);
    }
    RunKeepsList(s, s', bs, lo, hi, fl);
  }

  /** RewriteStep for a run that becomes the single block b, whose two tags are the only words written. */
  lemma RewriteOne(s: Heap, s': Heap, bs: seq<Block>, fl: seq<int>, lo: int, hi: int, b: Block)
    requires Tiled(s.heapList, s.brk, bs) && TagsAgree(s.mem, s.heapList, s.brk, bs)
    requires ListAgree(s, fl)
    requires 0 <= lo < hi <= |bs|
    requires WellSized(b) && b.bp == bs[lo].bp && End(b) == End(bs[hi - 1])
    requires forall y :: y in fl ==> y in FreeBps(bs) && y !in FreeBps(bs[lo..hi])
    requires s' == s.(mem := s'.mem)
    requires Get(s'.mem, b.bp - WSIZE) == Tag(b) && Get(s'.mem, End(b) - DSIZE) == Tag(b)
    requires forall a :: a != b.bp - WSIZE && a != End(b) - DSIZE ==> Get(s'.mem, a) == Get(s.mem, a)
    ensures Tiled(s.heapList, s.brk, Splice(bs, lo, hi, [b]))
    ensures TagsAgree(s'.mem, s.heapList, s.brk, Splice(bs, lo, hi, [b]))
    ensures ListAgree(s', fl)
    ensures forall y :: y in fl ==> y in FreeBps(Splice(bs, lo, hi, [b])) && y !in FreeBps([b])
  {
    Placement(s.heapList, s.brk, bs, lo);
    RewriteStep(s, s', bs, fl, lo, hi, [b]);
  }
}

=== FILE: layout.dfy ===
/**
 * The abstract view of the heap: the sequence of blocks lying between the
 * prologue and the epilogue, and how that sequence is written into memory
 * by boundary tags.
 *
 * A heap whose prologue payload address is h (p_heap_list) looks like
 *
 *   h-8: padding | h-4: hdr(8:a) | h: ftr(8:a) | blocks ... | brk-4: hdr(0:a)
 *
 * and its first ordinary block has payload address h+8.
 */
module Layout {
  import opened Words

  /** One block: its payload address (block pointer), its size including the tags, and its flag. */
  datatype Block = Block(bp: int, size: int, alloc: bool)

  /** The block pointer of the physically next block. */
  function End(b: Block): int { b.bp + b.size }

  function AllocBit(b: Block): int { if b.alloc then 1 else 0 }

  /**
   * The word written into both the header and the footer of b. Sizes are
   * multiples of 8, so this is exactly Pack(b.size, AllocBit(b)) (see
   * Words.PackRoundTrip); it is written as a sum to keep proofs linear.
   */
  function Tag(b: Block): int { b.size + AllocBit(b) }

  /** Every block is a multiple of 8 bytes and large enough to hold its free-list links. */
  ghost predicate WellSized(b: Block)
  {
    b.size >= MIN_BLOCK && b.size % 8 == 0
  }

  /** The blocks follow one another with no gap. */
  ghost predicate Contiguous(bs: seq<Block>)
  {
    && (forall k :: 0 <= k < |bs| ==> WellSized(bs[k]))
    && (forall k :: 0 <= k < |bs| - 1 ==> End(bs[k]) == bs[k+1].bp)
  }

  /** The blocks tile the heap exactly, from just after the prologue up to the epilogue at brk. */
  ghost predicate Tiled(h: int, brk: int, bs: seq<Block>)
  {
    && h >= DSIZE && h % 8 == 0
    && Contiguous(bs)
    && (if |bs| == 0 then brk == h + DSIZE
        else bs[0].bp == h + DSIZE && End(bs[|bs| - 1]) == brk)
  }

  /**
   * Memory holds the prologue's header and footer, a header and an equal
   * footer for every block, and the epilogue header.
   */
  ghost predicate TagsAgree(m: Mem, h: int, brk: int, bs: seq<Block>)
  {
    && Get(m, h - WSIZE) == Pack(OVERHEAD, 1)
    && Get(m, h) == Pack(OVERHEAD, 1)
    && (forall k :: 0 <= k < |bs| ==> Get(m, bs[k].bp - WSIZE) == Tag(bs[k]))
    && (forall k :: 0 <= k < |bs| ==> Get(m, End(bs[k]) - DSIZE) == Tag(bs[k]))
    && Get(m, brk - WSIZE) == Pack(0, 1)
  }

  /** Coalescing has run: no two physically adjacent blocks are both free. */
  ghost predicate NoAdjacentFree(bs: seq<Block>)
  {
    forall k :: 0 <= k < |bs| - 1 ==> bs[k].alloc || bs[k+1].alloc
  }

  /** The block pointers of the free blocks. */
  ghost function FreeBps(bs: seq<Block>): set<int>
  {
    set k | 0 <= k < |bs| && !bs[k].alloc :: bs[k].bp
  }

  /** Replace bs[i..j] by mid. */
  function Splice(bs: seq<Block>, i: int, j: int, mid: seq<Block>): seq<Block>
    requires 0 <= i <= j <= |bs|
  {
    bs[..i] + mid + bs[j..]
  }

  /** The difference of two multiples of 8 is one. */
  lemma SubAligned(a: int, b: int)
    requires a % 8 == 0 && b % 8 == 0
    ensures (a - b) % 8 == 0
  {
    assert a - b == 8 * (a / 8 - b / 8);
  }

  lemma AddAligned(a: int, b: int)
    requires a % 8 == 0 && b % 8 == 0
    ensures (a + b) % 8 == 0
  {
    assert a == 8 * (a / 8) && b == 8 * (b / 8);
    assert a + b == 8 * (a / 8 + b / 8);
  }

  /** Blocks further along start no earlier than where an earlier block ends. */
  lemma {:induction false} Ordered(bs: seq<Block>, i: int, j: int)
    requires Contiguous(bs)
    requires 0 <= i < j < |bs|
    ensures End(bs[i]) <= bs[j].bp
    decreases j - i
  {
    if i + 1 < j {
      Ordered(bs, i + 1, j);
    }
  }

  /** Every block lies inside the heap and its block pointer is 8-byte aligned. */
  lemma {:induction false} Placement(h: int, brk: int, bs: seq<Block>, k: int)
    requires Tiled(h, brk, bs)
    requires 0 <= k < |bs|
    ensures h + DSIZE <= bs[k].bp
    ensures End(bs[k]) <= brk
    ensures bs[k].bp % 8 == 0
  {
    if k + 1 < |bs| {
      Ordered(bs, k, |bs| - 1);
    }
    if k == 0 {
      AddAligned(h, DSIZE);
    } else {
      Placement(h, brk, bs, k - 1);
      AddAligned(bs[k - 1].bp, bs[k - 1].size);
    }
  }

  /** Two distinct blocks of a tiling do not overlap. */
  lemma Disjoint(bs: seq<Block>, i: int, j: int)
    requires Contiguous(bs)
    requires 0 <= i < |bs| && 0 <= j < |bs| && i != j
    ensures End(bs[i]) <= bs[j].bp || End(bs[j]) <= bs[i].bp
  {
    if i < j { Ordered(bs, i, j); } else { Ordered(bs, j, i); }
  }

  /** No allocated block of a tiling starts where a free block of it starts. */
  lemma FreeNotAllocated(bs: seq<Block>, j: int)
    requires Contiguous(bs)
    requires 0 <= j < |bs| && !bs[j].alloc
    ensures forall b :: b in bs && b.alloc ==> b.bp != bs[j].bp
  {
    forall b | b in bs && b.alloc
      ensures b.bp != bs[j].bp
    {
      var i :| 0 <= i < |bs| && bs[i] == b;
      Disjoint(bs, i, j);
    }
  }

  /** Replacing a run of blocks by blocks that cover the same addresses keeps the heap tiled. */
  lemma SpliceTiled(h: int, brk: int, bs: seq<Block>, i: int, j: int, mid: seq<Block>)
    requires Tiled(h, brk, bs)
    requires 0 <= i < j <= |bs|
    requires Contiguous(mid) && |mid| > 0
    requires mid[0].bp == bs[i].bp && End(mid[|mid| - 1]) == End(bs[j - 1])
    ensures Tiled(h, brk, Splice(bs, i, j, mid))
  {
    var r := Splice(bs, i, j, mid);
    var n := |mid|;
    assert |r| == i + n + |bs| - j;
    forall k | 0 <= k < |r|
      ensures WellSized(r[k])
    {
      if k < i {
        assert r[k] == bs[k];
      } else if k < i + n {
        assert r[k] == mid[k - i];
      } else {
        assert r[k] == bs[k - i - n + j];
      }
    }
    forall k | 0 <= k < |r| - 1
      ensures End(r[k]) == r[k + 1].bp
    {
      if k < i - 1 {
        assert r[k] == bs[k] && r[k + 1] == bs[k + 1];
      } else if k == i - 1 {
        assert r[k] == bs[i - 1] && r[k + 1] == mid[0];
      } else if k < i + n - 1 {
        assert r[k] == mid[k - i] && r[k + 1] == mid[k - i + 1];
      } else if k == i + n - 1 {
        assert r[k] == mid[n - 1] && r[k + 1] == bs[j];
        if j - 1 < j {
          assert End(bs[j - 1]) == bs[j].bp;
        }
      } else {
        var q := k - i - n + j;
        assert r[k] == bs[q] && r[k + 1] == bs[q + 1];
      }
    }
    if i == 0 {
      assert r[0] == mid[0];
    } else {
      assert r[0] == bs[0];
    }
    if j == |bs| {
      assert r[|r| - 1] == mid[n - 1];
    } else {
      assert r[|r| - 1] == bs[|bs| - 1];
    }
  }

  /** A block outside the replaced run keeps its tags when memory changed only inside the run. */
  lemma OutsideRunTags(m: Mem, m': Mem, h: int, brk: int, bs: seq<Block>, i: int, j: int, q: int)
    requires Tiled(h, brk, bs) && TagsAgree(m, h, brk, bs)
    requires 0 <= i < j <= |bs|
    requires 0 <= q < i || j <= q < |bs|
    requires forall a :: a < bs[i].bp - WSIZE || a >= End(bs[j - 1]) - WSIZE ==> Get(m', a) == Get(m, a)
    ensures Get(m', bs[q].bp - WSIZE) == Tag(bs[q])
    ensures Get(m', End(bs[q]) - DSIZE) == Tag(bs[q])
  {
    if q < i {
      Ordered(bs, q, i);
    } else if j - 1 < q {
      Ordered(bs, j - 1, q);
    }
  }

  /** The spliced sequence, position by position. */
  lemma SpliceAt(bs: seq<Block>, i: int, j: int, mid: seq<Block>, k: int)
    requires 0 <= i <= j <= |bs|
    requires 0 <= k < |Splice(bs, i, j, mid)|
    ensures k < i ==> Splice(bs, i, j, mid)[k] == bs[k]
    ensures i <= k < i + |mid| ==> Splice(bs, i, j, mid)[k] == mid[k - i]
    ensures i + |mid| <= k ==> Splice(bs, i, j, mid)[k] == bs[k - i - |mid| + j]
  {
  }

  /** One block of a spliced heap has its tags in place. */
  lemma SplicedBlockTags(m: Mem, m': Mem, h: int, brk: int, bs: seq<Block>, i: int, j: int, mid: seq<Block>, k: int)
    requires Tiled(h, brk, bs) && TagsAgree(m, h, brk, bs)
    requires 0 <= i < j <= |bs|
    requires forall a :: a < bs[i].bp - WSIZE || a >= End(bs[j - 1]) - WSIZE ==> Get(m', a) == Get(m, a)
    requires forall k :: 0 <= k < |mid| ==> Get(m', mid[k].bp - WSIZE) == Tag(mid[k])
    requires forall k :: 0 <= k < |mid| ==> Get(m', End(mid[k]) - DSIZE) == Tag(mid[k])
    requires 0 <= k < |Splice(bs, i, j, mid)|
    ensures Get(m', Splice(bs, i, j, mid)[k].bp - WSIZE) == Tag(Splice(bs, i, j, mid)[k])
    ensures Get(m', End(Splice(bs, i, j, mid)[k]) - DSIZE) == Tag(Splice(bs, i, j, mid)[k])
  {
    SpliceAt(bs, i, j, mid, k);
    if k < i {
      OutsideRunTags(m, m', h, brk, bs, i, j, k);
    } else if k >= i + |mid| {
      OutsideRunTags(m, m', h, brk, bs, i, j, k - i - |mid| + j);
    }
  }

  /**
   * Tags of a spliced heap: if memory changed only inside the span of the
   * replaced blocks, and the new blocks' tags are in place, then every tag of
   * the spliced sequence is in place.
   */
  lemma SpliceTags(m: Mem, m': Mem, h: int, brk: int, bs: seq<Block>, i: int, j: int, mid: seq<Block>)
    requires Tiled(h, brk, bs) && TagsAgree(m, h, brk, bs)
    requires 0 <= i < j <= |bs|
    requires forall a :: a < bs[i].bp - WSIZE || a >= End(bs[j - 1]) - WSIZE ==> Get(m', a) == Get(m, a)
    requires forall k :: 0 <= k < |mid| ==> Get(m', mid[k].bp - WSIZE) == Tag(mid[k])
    requires forall k :: 0 <= k < |mid| ==> Get(m', End(mid[k]) - DSIZE) == Tag(mid[k])
    ensures TagsAgree(m', h, brk, Splice(bs, i, j, mid))
  {
    var r := Splice(bs, i, j, mid);
    Placement(h, brk, bs, i);
    Placement(h, brk, bs, j - 1);
    forall k | 0 <= k < |r|
      ensures Get(m', r[k].bp - WSIZE) == Tag(r[k])
      ensures Get(m', End(r[k]) - DSIZE) == Tag(r[k])
    {
      SplicedBlockTags(m, m', h, brk, bs, i, j, mid, k);
    }
  }

  /** Free block pointers of a concatenation. */
  lemma FreeBpsConcat(a: seq<Block>, b: seq<Block>)
    ensures FreeBps(a + b) == FreeBps(a) + FreeBps(b)
  {
    var ab := a + b;
    forall y | y in FreeBps(ab)
      ensures y in FreeBps(a) + FreeBps(b)
    {
      var k :| 0 <= k < |ab| && !ab[k].alloc && ab[k].bp == y;
      if k < |a| {
        assert ab[k] == a[k];
      } else {
        assert ab[k] == b[k - |a|];
      }
    }
    forall y | y in FreeBps(a) + FreeBps(b)
      ensures y in FreeBps(ab)
    {
      if y in FreeBps(a) {
        var k :| 0 <= k < |a| && !a[k].alloc && a[k].bp == y;
        assert ab[k] == a[k];
      } else {
        var k :| 0 <= k < |b| && !b[k].alloc && b[k].bp == y;
        assert ab[k + |a|] == b[k];
      }
    }
  }

  /** A free block pointer lies inside the span of the blocks it comes from. */
  lemma FreeBpsWithin(bs: seq<Block>, y: int)
    requires Contiguous(bs)
    requires y in FreeBps(bs)
    ensures |bs| > 0 && bs[0].bp <= y < End(bs[|bs| - 1])
  {
    var k :| 0 <= k < |bs| && !bs[k].alloc && bs[k].bp == y;
    if 0 < k {
      Ordered(bs, 0, k);
    }
    if k < |bs| - 1 {
      Ordered(bs, k, |bs| - 1);
    }
  }

  /** The free pointers of a run of blocks occur nowhere else in the tiling. */
  lemma FreeBpsRunSeparate(h: int, brk: int, bs: seq<Block>, i: int, j: int, y: int)
    requires Tiled(h, brk, bs)
    requires 0 <= i < j <= |bs|
    requires y in FreeBps(bs[i..j])
    ensures y !in FreeBps(bs[..i]) && y !in FreeBps(bs[j..])
  {
    var pre, run, post := bs[..i], bs[i..j], bs[j..];
    assert Contiguous(run);
    FreeBpsWithin(run, y);
    if y in FreeBps(pre) {
      var k :| 0 <= k < |pre| && !pre[k].alloc && pre[k].bp == y;
      Ordered(bs, k, i);
    }
    if y in FreeBps(post) {
      var k :| 0 <= k < |post| && !post[k].alloc && post[k].bp == y;
      if j - 1 < j + k {
        Ordered(bs, j - 1, j + k);
      }
    }
  }

  /**
   * Splicing changes the free set exactly by the replaced blocks' free
   * pointers, which never occur outside the replaced span.
   */
  lemma FreeBpsSplice(h: int, brk: int, bs: seq<Block>, i: int, j: int, mid: seq<Block>, y: int)
    requires Tiled(h, brk, bs)
    requires 0 <= i < j <= |bs|
    ensures y in FreeBps(Splice(bs, i, j, mid))
        <==> (y in FreeBps(bs) && y !in FreeBps(bs[i..j])) || y in FreeBps(mid)
  {
    var pre, run, post := bs[..i], bs[i..j], bs[j..];
    assert bs == (pre + run) + post;
    assert Splice(bs, i, j, mid) == (pre + mid) + post;
    FreeBpsConcat(pre + run, post);
    FreeBpsConcat(pre, run);
    FreeBpsConcat(pre + mid, post);
    FreeBpsConcat(pre, mid);
    if y in FreeBps(run) {
      FreeBpsRunSeparate(h, brk, bs, i, j, y);
    }
  }

  /** A free pointer outside a run comes from the blocks before it or after it. */
  lemma FreeBpsOutside(bs: seq<Block>, i: int, j: int, y: int)
    requires 0 <= i <= j <= |bs|
    requires y in FreeBps(bs) && y !in FreeBps(bs[i..j])
    ensures y in FreeBps(bs[..i]) || y in FreeBps(bs[j..])
  {
    assert bs == (bs[..i] + bs[i..j]) + bs[j..];
    FreeBpsConcat(bs[..i] + bs[i..j], bs[j..]);
    FreeBpsConcat(bs[..i], bs[i..j]);
  }

  /** The free pointers of a single block. */
  lemma FreeBpsOne(b: Block, y: int)
    ensures y in FreeBps([b]) <==> !b.alloc && y == b.bp
  {
    if !b.alloc {
      assert [b][0] == b;
    }
  }

  /** A block placed at the old end extends the tiling to the block's end. */
  lemma AppendTiled(h: int, brk: int, bs: seq<Block>, b: Block)
    requires Tiled(h, brk, bs)
    requires b.bp == brk && WellSized(b)
    ensures Tiled(h, End(b), bs + [b])
  {
    var r := bs + [b];
    forall k | 0 <= k < |r| ensures WellSized(r[k]) {
      if k < |bs| {
        assert r[k] == bs[k];
      }
    }
    forall k | 0 <= k < |r| - 1 ensures End(r[k]) == r[k + 1].bp {
      assert r[k] == bs[k];
      if k + 1 < |bs| {
        assert r[k + 1] == bs[k + 1];
      }
    }
  }

  /** Writes at or above the epilogue header leave the prologue and every block's tags. */
  lemma BelowEpilogueTags(m: Mem, m': Mem, h: int, brk: int, bs: seq<Block>)
    requires Tiled(h, brk, bs) && TagsAgree(m, h, brk, bs)
    requires forall a :: a < brk - WSIZE ==> Get(m', a) == Get(m, a)
    ensures Get(m', h - WSIZE) == Pack(OVERHEAD, 1) && Get(m', h) == Pack(OVERHEAD, 1)
    ensures forall k :: 0 <= k < |bs| ==> Get(m', bs[k].bp - WSIZE) == Tag(bs[k])
    ensures forall k :: 0 <= k < |bs| ==> Get(m', End(bs[k]) - DSIZE) == Tag(bs[k])
  {
    if |bs| > 0 {
      Placement(h, brk, bs, |bs| - 1);
    }
    forall k | 0 <= k < |bs|
      ensures Get(m', bs[k].bp - WSIZE) == Tag(bs[k])
      ensures Get(m', End(bs[k]) - DSIZE) == Tag(bs[k])
    {
      Placement(h, brk, bs, k);
    }
  }

  /**
   * Writing the new block's tags and a new epilogue at and above the old
   * epilogue header keeps every older tag and describes the extended tiling.
   */
  lemma AppendTags(m: Mem, m': Mem, h: int, brk: int, bs: seq<Block>, b: Block)
    requires Tiled(h, brk, bs) && TagsAgree(m, h, brk, bs)
    requires b.bp == brk && WellSized(b)
    requires forall a :: a < brk - WSIZE ==> Get(m', a) == Get(m, a)
    requires Get(m', b.bp - WSIZE) == Tag(b)
    requires Get(m', End(b) - DSIZE) == Tag(b)
    requires Get(m', End(b) - WSIZE) == Pack(0, 1)
    ensures TagsAgree(m', h, End(b), bs + [b])
  {
    var r := bs + [b];
    BelowEpilogueTags(m, m', h, brk, bs);
    forall k | 0 <= k < |r|
      ensures Get(m', r[k].bp - WSIZE) == Tag(r[k])
      ensures Get(m', End(r[k]) - DSIZE) == Tag(r[k])
    {
      if k < |bs| {
        assert r[k] == bs[k];
      }
    }
  }

  /**
   * What the block macros compute on a tiled heap whose tags are in place:
   * the header's fields, the footer's address, and the neighbours on both
   * sides (the prologue on the left of the first block, the epilogue on the
   * right of the last, both allocated).
   */
  lemma MacrosAt(m: Mem, h: int, brk: int, bs: seq<Block>, k: int)
    requires Tiled(h, brk, bs) && TagsAgree(m, h, brk, bs)
    requires 0 <= k < |bs|
    ensures GetSize(m, Hdrp(bs[k].bp)) == bs[k].size
    ensures GetAlloc(m, Hdrp(bs[k].bp)) == AllocBit(bs[k])
    ensures Ftrp(m, bs[k].bp) == End(bs[k]) - DSIZE
    ensures GetSize(m, Ftrp(m, bs[k].bp)) == bs[k].size
    ensures NextBlkp(m, bs[k].bp) == End(bs[k])
    ensures PrevBlkp(m, bs[k].bp) == if k > 0 then bs[k - 1].bp else h
    ensures GetAlloc(m, Hdrp(NextBlkp(m, bs[k].bp))) == if k < |bs| - 1 then AllocBit(bs[k + 1]) else 1
    ensures GetAlloc(m, Ftrp(m, PrevBlkp(m, bs[k].bp))) == if k > 0 then AllocBit(bs[k - 1]) else 1
  {
    var bp := bs[k].bp;
    TagAt(m, bp - WSIZE, bs[k].size, AllocBit(bs[k]));
    TagAt(m, End(bs[k]) - DSIZE, bs[k].size, AllocBit(bs[k]));
    if k < |bs| - 1 {
      TagAt(m, bs[k + 1].bp - WSIZE, bs[k + 1].size, AllocBit(bs[k + 1]));
    } else {
      TagAt(m, brk - WSIZE, 0, 1);
    }
    if k > 0 {
      assert bp - DSIZE == End(bs[k - 1]) - DSIZE;
      TagAt(m, bs[k - 1].bp - WSIZE, bs[k - 1].size, AllocBit(bs[k - 1]));
      TagAt(m, bp - DSIZE, bs[k - 1].size, AllocBit(bs[k - 1]));
    } else {
      TagAt(m, h - WSIZE, DSIZE, 1);
      TagAt(m, h, DSIZE, 1);
    }
  }
}

=== FILE: malloc.dfy ===
/**
 * mm_malloc and its helpers: the adjusted block size, the first-fit search
 * along the free list, and the request itself (search, else grow the heap,
 * then place).
 */
module Allocating {
  import opened Wrappers
  import opened Words
  import opened HeapState
  import opened Layout
  import opened FreeList
  import opened Invariant
  import opened Coalescing
  import opened Placing
  import opened Extending

  // ---------------------------------------------------------------------
  // The adjusted size

  /**
   * asize exactly as mm_malloc computes it on a 32-bit size_t: the sum
   * size + OVERHEAD + DSIZE - 1 is reduced modulo 2^32 before the division.
   */
  function AdjustSizeAsWritten(size: int): int
    requires 0 < size < SIZE_T_LIMIT
  {
    if size <= DSIZE then DSIZE + OVERHEAD
    else DSIZE * (((size + OVERHEAD + (DSIZE - 1)) % SIZE_T_LIMIT) / DSIZE)
  }

  /**
   * For the largest requests the sum wraps and the computed block size is
   * 0 or 8: too small for any block, let alone for the request.
   */
  lemma AdjustSizeAsWrittenWraps(size: int)
    requires 0 < size < SIZE_T_LIMIT
    ensures AdjustSizeAsWritten(size) >= size + OVERHEAD
            <==> size + OVERHEAD + (DSIZE - 1) < SIZE_T_LIMIT
    ensures size + OVERHEAD + (DSIZE - 1) >= SIZE_T_LIMIT ==> AdjustSizeAsWritten(size) < MIN_BLOCK
  {
  }

  /** The request of 2^32 - 8 bytes is adjusted to a block of 0 bytes. */
  lemma AdjustSizeCounterexample()
    ensures AdjustSizeAsWritten(SIZE_T_LIMIT - DSIZE) == 0
  {
  }

  /**
   * asize with the wrap-around ruled out: None when the request is too
   * large for any block, otherwise the smallest multiple of 8 that holds
   * the request plus header and footer, and at least a minimum block.
   */
  function AdjustSize(size: int): (r: Option<int>)
    requires 0 < size < SIZE_T_LIMIT
    ensures r.None? <==> size + OVERHEAD + (DSIZE - 1) >= SIZE_T_LIMIT
    ensures r.Some? ==> r.value % 8 == 0 && MIN_BLOCK <= r.value
    ensures r.Some? ==> size + OVERHEAD <= r.value < size + OVERHEAD + DSIZE
    ensures r.Some? ==> r.value < SIZE_T_LIMIT
  {
    if size + OVERHEAD + (DSIZE - 1) >= SIZE_T_LIMIT then None
    else Some(AdjustSizeAsWritten(size))
  }

  /** Where the request does not wrap, the corrected size is the one the code computes. */
  lemma AdjustSizeAgrees(size: int)
    requires 0 < size < SIZE_T_LIMIT
    requires size + OVERHEAD + (DSIZE - 1) < SIZE_T_LIMIT
    ensures AdjustSize(size) == Some(AdjustSizeAsWritten(size))
  {
  }

  // ---------------------------------------------------------------------
  // First fit

  /** find_fit's test on one block: free and at least asize bytes. */
  predicate Fits(m: Mem, bp: int, asize: int)
  {
    GetAlloc(m, Hdrp(bp)) == 0 && asize <= GetSize(m, Hdrp(bp))
  }

  /** The position in list order of the first block that fits, or |fl| if none does. */
  function FirstFitIndex(m: Mem, fl: seq<int>, asize: int): (i: int)
    ensures 0 <= i <= |fl|
    ensures forall k :: 0 <= k < i ==> !Fits(m, fl[k], asize)
    ensures i < |fl| ==> Fits(m, fl[i], asize)
  {
    if |fl| == 0 then 0
    else if Fits(m, fl[0], asize) then 0
    else 1 + FirstFitIndex(m, fl[1..], asize)
  }

  /** The linked structure find_fit walks: fl from the head, linked by SUCC, ending in NULL. */
  ghost predicate Chained(s: Heap, fl: seq<int>)
  {
    && (forall k :: 0 <= k < |fl| ==> fl[k] != NULL && LinkedAt(s.mem, fl, k))
    && s.head == (if |fl| == 0 then NULL else fl[0])
  }

  /**
   * find_fit(asize): follow SUCC from the head and return the first block
   * that fits, or NULL at the end of the list; a negative count makes the
   * loop exit at once with NULL.
   */
  method FindFit(s: Heap, asize: int, ghost fl: seq<int>) returns (bp: int)
    requires Chained(s, fl)
    ensures bp == (if s.count < 0 || FirstFitIndex(s.mem, fl, asize) == |fl| then NULL
                   else fl[FirstFitIndex(s.mem, fl, asize)])
  {
    bp := s.head;
    ghost var i := 0;
    while s.count >= 0
      invariant 0 <= i <= |fl|
      invariant bp == if i < |fl| then fl[i] else NULL
      invariant forall k :: 0 <= k < i ==> !Fits(s.mem, fl[k], asize)
      decreases |fl| - i
    {
      if bp == NULL {
        return NULL;
      }
      if Fits(s.mem, bp, asize) {
        return bp;
      }
      assert LinkedAt(s.mem, fl, i);
      bp := SuccLink(s.mem, bp);
      i := i + 1;
    }
    bp := NULL;
  }

  // ---------------------------------------------------------------------
  // From the list to the blocks

  /** No free block is large enough. */
  ghost predicate NoFit(bs: seq<Block>, asize: int)
  {
    forall k :: 0 <= k < |bs| && !bs[k].alloc ==> bs[k].size < asize
  }

  /** A valid heap's list is the chain find_fit walks. */
  lemma ValidChained(s: Heap, bs: seq<Block>, fl: seq<int>)
    requires Valid(s, bs, fl)
    ensures Chained(s, fl)
  {
  }

  /** A listed block is a free block of the tiling, and find_fit's test reads its size. */
  lemma ListedBlock(s: Heap, bs: seq<Block>, fl: seq<int>, i: int, asize: int) returns (j: int)
    requires Valid(s, bs, fl)
    requires 0 <= i < |fl|
    ensures 0 <= j < |bs| && bs[j].bp == fl[i] && !bs[j].alloc
    ensures Fits(s.mem, fl[i], asize) <==> asize <= bs[j].size
  {
    assert fl[i] in FreeBps(bs);
    j :| 0 <= j < |bs| && !bs[j].alloc && bs[j].bp == fl[i];
    MacrosAt(s.mem, s.heapList, s.brk, bs, j);
  }

  /** find_fit's test fails on the whole list exactly when no free block is large enough. */
  lemma NoFitIff(s: Heap, bs: seq<Block>, fl: seq<int>, asize: int)
    requires Valid(s, bs, fl)
    ensures (forall i :: 0 <= i < |fl| ==> !Fits(s.mem, fl[i], asize)) <==> NoFit(bs, asize)
  {
    if forall i :: 0 <= i < |fl| ==> !Fits(s.mem, fl[i], asize) {
      forall k | 0 <= k < |bs| && !bs[k].alloc
        ensures bs[k].size < asize
      {
        assert bs[k].bp in FreeBps(bs);
        var i :| 0 <= i < |fl| && fl[i] == bs[k].bp;
        var j := ListedBlock(s, bs, fl, i, asize);
        if j != k {
          Disjoint(bs, j, k);
        }
      }
    } else {
      var i :| 0 <= i < |fl| && Fits(s.mem, fl[i], asize);
      var j := ListedBlock(s, bs, fl, i, asize);
    }
  }

  /** Blocks of a valid heap are smaller than the 32-bit address space. */
  lemma BlockFits(s: Heap, bs: seq<Block>, fl: seq<int>, j: int)
    requires Valid(s, bs, fl) && s.limit <= SIZE_T_LIMIT
    requires 0 <= j < |bs|
    ensures bs[j].size < SIZE_T_LIMIT
  {
    Placement(s.heapList, s.brk, bs, j);
  }

  // ---------------------------------------------------------------------
  // mm_malloc

  /** Allocated blocks outside a run of free blocks survive replacing the run. */
  lemma SpliceKeepsAllocated(bs: seq<Block>, i: int, j: int, mid: seq<Block>)
    requires 0 <= i <= j <= |bs|
    requires forall k :: i <= k < j ==> !bs[k].alloc
    ensures forall b :: b in bs && b.alloc ==> b in Splice(bs, i, j, mid)
  {
    forall b | b in bs && b.alloc
      ensures b in Splice(bs, i, j, mid)
    {
      var k :| 0 <= k < |bs| && bs[k] == b;
      if k < i {
        assert Splice(bs, i, j, mid)[k] == b;
      } else {
        assert Splice(bs, i, j, mid)[k - j + i + |mid|] == b;
      }
    }
  }

  /** When mm_malloc returns NULL: a zero or unrepresentable request, or no fit and no memory. */
  ghost predicate MallocFails(s: Heap, bs: seq<Block>, size: int)
    requires 0 <= size < SIZE_T_LIMIT
  {
    || size == 0
    || AdjustSize(size).None?
    || (&& NoFit(bs, AdjustSize(size).value)
        && s.brk + Max(AdjustSize(size).value, CHUNKSIZE) > s.limit)
  }

  /** The request is granted: bp is an allocated block with room for size bytes between its tags. */
  ghost predicate Granted(bs: seq<Block>, bp: int, size: int)
  {
    exists j :: 0 <= j < |bs| && bs[j].bp == bp && bs[j].alloc
                && size + OVERHEAD <= bs[j].size < size + OVERHEAD + DSIZE + MIN_BLOCK
  }

  /** The block find_fit returns under the invariant: a free block of the tiling with room for asize. */
  lemma FitBlock(s: Heap, bs: seq<Block>, fl: seq<int>, size: int, asize: int) returns (j: int)
    requires Valid(s, bs, fl) && s.limit <= SIZE_T_LIMIT
    requires 0 < size < SIZE_T_LIMIT && AdjustSize(size) == Some(asize)
    requires FirstFitIndex(s.mem, fl, asize) < |fl|
    ensures 0 <= j < |bs| && !bs[j].alloc && bs[j].bp == fl[FirstFitIndex(s.mem, fl, asize)]
    ensures asize <= bs[j].size < SIZE_T_LIMIT
    ensures !MallocFails(s, bs, size)
  {
    j := ListedBlock(s, bs, fl, FirstFitIndex(s.mem, fl, asize), asize);
    BlockFits(s, bs, fl, j);
    NoFitIff(s, bs, fl, asize);
  }

  /** When find_fit finds nothing and the provider refuses, mm_malloc fails and nothing changed. */
  lemma MallocRefused(s: Heap, bs: seq<Block>, fl: seq<int>, size: int, asize: int, words: nat)
    requires Valid(s, bs, fl)
    requires 0 < size < SIZE_T_LIMIT && AdjustSize(size) == Some(asize)
    requires FirstFitIndex(s.mem, fl, asize) == |fl|
    requires words == Max(asize, CHUNKSIZE) / WSIZE
    requires ExtendHeap(s, words).0 == NULL
    ensures ExtendHeap(s, words).1 == s
    ensures MallocFails(s, bs, size)
  {
    NoFitIff(s, bs, fl, asize);
    ExtendBytesExact(Max(asize, CHUNKSIZE));
    ExtendValid(s, bs, fl, words);
  }

  /**
   * When find_fit finds nothing and the provider grants the bytes, the heap
   * grows by MAX(asize, CHUNKSIZE) and its last block is free and fits.
   */
  lemma MallocGrows(s: Heap, bs: seq<Block>, fl: seq<int>, size: int, asize: int, words: nat)
    returns (bs1: seq<Block>, fl1: seq<int>, j: int)
    requires Valid(s, bs, fl) && s.limit <= SIZE_T_LIMIT
    requires 0 < size < SIZE_T_LIMIT && AdjustSize(size) == Some(asize)
    requires words == Max(asize, CHUNKSIZE) / WSIZE
    requires ExtendHeap(s, words).0 != NULL
    ensures Valid(ExtendHeap(s, words).1, bs1, fl1) && ExtendHeap(s, words).1.limit == s.limit
    ensures 0 <= j < |bs1| && !bs1[j].alloc && bs1[j].bp == ExtendHeap(s, words).0
    ensures asize <= bs1[j].size < SIZE_T_LIMIT
    ensures s.brk + Max(asize, CHUNKSIZE) <= s.limit
    ensures ExtendHeap(s, words).1.brk == s.brk + Max(asize, CHUNKSIZE)
    ensures ExtendHeap(s, words).1.heapList == s.heapList
    ensures forall b :: b in bs && b.alloc ==> b in bs1
    ensures forall b :: b in bs1 && b.alloc ==> b in bs
  {
    var size1 := ExtendBytes(words);
    ExtendBytesExact(Max(asize, CHUNKSIZE));
    ExtendValid(s, bs, fl, words);
    bs1 := Extended(bs, s.brk, size1);
    fl1 := ExtendedList(bs, s.brk, size1, fl);
    ExtendedShape(s.heapList, s.brk, bs, size1);
    j := |bs1| - 1;
    ExtendedKeepsAllocated(s.heapList, s.brk, bs, size1);
    ExtendLimit(s, words);
    BlockFits(ExtendHeap(s, words).1, bs1, fl1, j);
  }

  /**
   * place on the block mm_malloc chose: the heap stays valid, the block is
   * granted, its pointer is aligned, and every allocated block survives.
   */
  lemma PlaceGrants(t: Heap, bs: seq<Block>, fl: seq<int>, j: int, size: int, asize: int, bp: int)
    requires Valid(t, bs, fl)
    requires 0 <= j < |bs| && !bs[j].alloc && bs[j].bp == bp
    requires asize <= bs[j].size < SIZE_T_LIMIT
    requires 0 < size < SIZE_T_LIMIT && AdjustSize(size) == Some(asize)
    ensures Valid(Place(t, bp, asize), Placed(bs, j, asize), PlacedList(bs, j, asize, fl))
    ensures Place(t, bp, asize).limit == t.limit
    ensures Granted(Placed(bs, j, asize), bp, size) && bp % 8 == 0
    ensures Place(t, bp, asize).heapList == t.heapList && Place(t, bp, asize).brk == t.brk
    ensures forall b :: b in bs && b.alloc ==> b in Placed(bs, j, asize)
    ensures forall b :: b in Placed(bs, j, asize) && b.alloc && b.bp != bp ==> b in bs
  {
    ValidEq(Place(t, bp, asize), Place(t, bs[j].bp, asize), Placed(bs, j, asize), PlacedList(bs, j, asize, fl));
    PlaceLimit(t, bp, asize);
    PlaceValid(t, bs, fl, j, asize);
    Placement(t.heapList, t.brk, bs, j);
    MallocPlaced(bs, j, asize, size);
  }

  /**
   * mm_malloc(size): the pointer handed out and the new state, with the
   * tiling and free list that describe it. It returns NULL and changes
   * nothing exactly when MallocFails; otherwise the block is allocated,
   * large enough, was not allocated before the call, and every block
   * allocated before is still there.
   */
  method Malloc(s: Heap, size: int, ghost bs: seq<Block>, ghost fl: seq<int>)
    returns (bp: int, r: Heap, ghost bs': seq<Block>, ghost fl': seq<int>)
    requires Valid(s, bs, fl) && s.limit <= SIZE_T_LIMIT
    requires 0 <= size < SIZE_T_LIMIT
    ensures Valid(r, bs', fl') && r.limit == s.limit
    ensures bp == NULL <==> MallocFails(s, bs, size)
    ensures bp == NULL ==> r == s && bs' == bs && fl' == fl
    ensures bp != NULL ==> Granted(bs', bp, size) && bp % 8 == 0
    ensures bp != NULL ==> forall b :: b in bs && b.alloc ==> b.bp != bp
    ensures forall b :: b in bs && b.alloc ==> b in bs'
    ensures bp != NULL ==> forall b :: b in bs' && b.alloc && b.bp != bp ==> b in bs
    ensures r.heapList == s.heapList
    ensures bp != NULL && AdjustSize(size).Some? ==>
      r.brk == (if NoFit(bs, AdjustSize(size).value) then s.brk + Max(AdjustSize(size).value, CHUNKSIZE) else s.brk)
  {
    if size == 0 {
      return NULL, s, bs, fl;
    }
    var adjusted := AdjustSize(size);
    if adjusted.None? {
      return NULL, s, bs, fl;
    }
    var asize := adjusted.value;
    ValidChained(s, bs, fl);
    bp := FindFit(s, asize, fl);
    if bp != NULL {
      ghost var j := FitBlock(s, bs, fl, size, asize);
      NoFitIff(s, bs, fl, asize);
      PlaceGrants(s, bs, fl, j, size, asize, bp);
      FreeNotAllocated(bs, j);
      r := Place(s, bp, asize);
      bs' := Placed(bs, j, asize);
      fl' := PlacedList(bs, j, asize, fl);
      return;
    }
    var words := Max(asize, CHUNKSIZE) / WSIZE;
    var grown := ExtendHeap(s, words);
    if grown.0 == NULL {
      MallocRefused(s, bs, fl, size, asize, words);
      return NULL, s, bs, fl;
    }
    NoFitIff(s, bs, fl, asize);
    ghost var bs1, fl1, j := MallocGrows(s, bs, fl, size, asize, words);
    bp := grown.0;
    PlaceGrants(grown.1, bs1, fl1, j, size, asize, bp);
    FreeNotAllocated(bs1, j);
    r := Place(grown.1, bp, asize);
    bs' := Placed(bs1, j, asize);
    fl' := PlacedList(bs1, j, asize, fl1);
  }

  /** The block place hands out is granted, and place keeps every allocated block. */
  lemma MallocPlaced(bs: seq<Block>, j: int, asize: int, size: int)
    requires 0 <= j < |bs| && !bs[j].alloc && asize <= bs[j].size
    requires 0 < size && size + OVERHEAD <= asize < size + OVERHEAD + DSIZE
    ensures Granted(Placed(bs, j, asize), bs[j].bp, size)
    ensures forall b :: b in bs && b.alloc ==> b in Placed(bs, j, asize)
    ensures forall b :: b in Placed(bs, j, asize) && b.alloc && b.bp != bs[j].bp ==> b in bs
  {
    var c := Carve(bs[j], asize);
    SpliceAt(bs, j, j + 1, c, j);
    SpliceKeepsAllocated(bs, j, j + 1, c);
    forall b | b in Placed(bs, j, asize) && b.alloc && b.bp != bs[j].bp
      ensures b in bs
    {
      var k :| 0 <= k < |Placed(bs, j, asize)| && Placed(bs, j, asize)[k] == b;
      SpliceAt(bs, j, j + 1, c, k);
    }
  }

  /** extend_heap keeps every allocated block and allocates none. */
  lemma ExtendedKeepsAllocated(h: int, brk: int, bs: seq<Block>, size: int)
    ensures forall b :: b in bs && b.alloc ==> b in Extended(bs, brk, size)
    ensures forall b :: b in Extended(bs, brk, size) && b.alloc ==> b in bs
  {
    var a := Appended(bs, brk, size);
    var k := |bs|;
    var lo, hi := MergeLo(a, k), MergeHi(a, k);
    forall i | lo <= i < hi
      ensures !a[i].alloc
    {
    }
    SpliceKeepsAllocated(a, lo, hi, [MergedBlock(a, k)]);
    forall b | b in Extended(bs, brk, size) && b.alloc
      ensures b in bs
    {
      var i :| 0 <= i < |Extended(bs, brk, size)| && Extended(bs, brk, size)[i] == b;
      SpliceAt(a, lo, hi, [MergedBlock(a, k)], i);
      assert a[if i < lo then i else i - lo - 1 + hi] == b;
    }
  }
}

=== FILE: old.dfy ===
/**
 * The earlier variant of the allocator (mm_old.c). Its block layout, tag
 * macros, size adjustment, split decision and coalescing arithmetic are the
 * ones modelled for mm.c and are shared here. Its free-list routines
 * addFree and removeFree are not modelled: they are recorded as calls in a
 * log, next to every word stored, so that the order of list calls and tag
 * stores can be stated. A call sequence is read as operations on the set
 * of listed blocks (addFree inserts, removeFree deletes).
 */
module OldAllocator {
  import opened Wrappers
  import opened Words
  import opened HeapState
  import opened Layout
  import opened FreeList
  import opened Coalescing
  import opened Placing
  import opened Extending
  import opened Freeing
  import opened Allocating

  /** One step the old allocator takes: a word stored, or a call to a list routine. */
  datatype Event = Write(addr: int, val: int) | AddFree(bp: int) | RemoveFree(bp: int)

  /** The heap and everything done to it so far. */
  datatype Run = Run(heap: Heap, log: seq<Event>)

  /** PUT(p, v), logged. */
  function Store(r: Run, p: int, v: int): Run
  {
    Run(Put(r.heap, p, v), r.log + [Write(p, v)])
  }

  /** addFree(bp): only the call is recorded. */
  function AddCall(r: Run, bp: int): Run
  {
    r.(log := r.log + [AddFree(bp)])
  }

  /** removeFree(bp): only the call is recorded. */
  function RemoveCall(r: Run, bp: int): Run
  {
    r.(log := r.log + [RemoveFree(bp)])
  }

  /** PUT(HDRP(bp), PACK(size, alloc)) then PUT(FTRP(bp), PACK(size, alloc)), logged. */
  function StoreTags(r: Run, bp: int, size: int, alloc: int): Run
    requires alloc == 0 || alloc == 1
  {
    var r1 := Store(r, Hdrp(bp), Pack(size, alloc));
    Store(r1, Ftrp(r1.heap.mem, bp), Pack(size, alloc))
  }

  /** What was done between two points of a run. */
  function Since(r: Run, r': Run): seq<Event>
    requires |r.log| <= |r'.log|
  {
    r'.log[|r.log|..]
  }

  /** The heap is laid out as bs: the tiling and its tags, with no assumption on the free list. */
  ghost predicate Laid(s: Heap, bs: seq<Block>)
  {
    Tiled(s.heapList, s.brk, bs) && TagsAgree(s.mem, s.heapList, s.brk, bs)
  }

  // ---------------------------------------------------------------------
  // Reading a log as list operations

  function Step(L: set<int>, e: Event): set<int>
  {
    match e
    case AddFree(b) => L + {b}
    case RemoveFree(b) => L - {b}
    case Write(_, _) => L
  }

  /** The set of listed blocks after the calls of ev, starting from L. */
  function ListedAfter(L: set<int>, ev: seq<Event>): set<int>
  {
    if |ev| == 0 then L else Step(ListedAfter(L, ev[..|ev| - 1]), ev[|ev| - 1])
  }

  /** The blocks ev removes from the list. */
  function Removed(ev: seq<Event>): set<int>
  {
    set i | 0 <= i < |ev| && ev[i].RemoveFree? :: ev[i].bp
  }

  /** No store and no insertion comes before a removal. */
  predicate RemovesFirst(ev: seq<Event>)
  {
    forall i, j :: 0 <= i < j < |ev| && ev[j].RemoveFree? ==> ev[i].RemoveFree?
  }

  /** Exactly one insertion, of bp, and it is the last step. */
  predicate OneAddLast(ev: seq<Event>, bp: int)
  {
    && |ev| > 0 && ev[|ev| - 1] == AddFree(bp)
    && forall i :: 0 <= i < |ev| - 1 ==> !ev[i].AddFree?
  }

  predicate AllRemoves(ev: seq<Event>)
  {
    forall i :: 0 <= i < |ev| ==> ev[i].RemoveFree?
  }

  predicate AllWrites(ev: seq<Event>)
  {
    forall i :: 0 <= i < |ev| ==> ev[i].Write?
  }

  /** Reading a log in two parts. */
  lemma {:induction false} ListedAfterConcat(L: set<int>, a: seq<Event>, b: seq<Event>)
    ensures ListedAfter(L, a + b) == ListedAfter(ListedAfter(L, a), b)
    decreases |b|
  {
    if |b| > 0 {
      assert (a + b)[..|a + b| - 1] == a + b[..|b| - 1];
      ListedAfterConcat(L, a, b[..|b| - 1]);
    } else {
      assert a + b == a;
    }
  }

  /** Removals only take their blocks out of the set. */
  lemma {:induction false} ListedAfterRemoves(L: set<int>, rs: seq<Event>)
    requires AllRemoves(rs)
    ensures ListedAfter(L, rs) == L - Removed(rs)
  {
    if |rs| > 0 {
      var init := rs[..|rs| - 1];
      ListedAfterRemoves(L, init);
      assert Removed(rs) == Removed(init) + {rs[|rs| - 1].bp} by {
        forall y | y in Removed(rs)
          ensures y in Removed(init) + {rs[|rs| - 1].bp}
        {
          var i :| 0 <= i < |rs| && rs[i].RemoveFree? && rs[i].bp == y;
          if i < |rs| - 1 {
            assert init[i] == rs[i];
          }
        }
        forall y | y in Removed(init)
          ensures y in Removed(rs)
        {
          var i :| 0 <= i < |init| && init[i].RemoveFree? && init[i].bp == y;
          assert rs[i] == init[i];
        }
      }
    }
  }

  /** Stores leave the set alone. */
  lemma {:induction false} ListedAfterWrites(L: set<int>, ws: seq<Event>)
    requires AllWrites(ws)
    ensures ListedAfter(L, ws) == L
  {
    if |ws| > 0 {
      ListedAfterWrites(L, ws[..|ws| - 1]);
    }
  }

  /**
   * Removals, then stores, then one insertion: the shape of a merging
   * coalesce. The removals come first, the insertion is the only one and
   * the last, and the listed set loses the removed blocks and gains x.
   */
  lemma CallShape(L: set<int>, rs: seq<Event>, ws: seq<Event>, x: int)
    requires AllRemoves(rs) && AllWrites(ws)
    ensures RemovesFirst(rs + ws + [AddFree(x)])
    ensures OneAddLast(rs + ws + [AddFree(x)], x)
    ensures Removed(rs + ws + [AddFree(x)]) == Removed(rs)
    ensures ListedAfter(L, rs + ws + [AddFree(x)]) == (L - Removed(rs)) + {x}
  {
    var ev := rs + ws + [AddFree(x)];
    forall i | 0 <= i < |ev|
      ensures ev[i] == if i < |rs| then rs[i] else if i < |rs| + |ws| then ws[i - |rs|] else AddFree(x)
    {
    }
    ListedAfterConcat(L, rs, ws);
    ListedAfterRemoves(L, rs);
    ListedAfterWrites(L - Removed(rs), ws);
    assert ev[..|ev| - 1] == rs + ws;
    assert Removed(ev) == Removed(rs) by {
      forall y | y in Removed(ev)
        ensures y in Removed(rs)
      {
        var i :| 0 <= i < |ev| && ev[i].RemoveFree? && ev[i].bp == y;
        assert i < |rs|;
      }
      forall y | y in Removed(rs)
        ensures y in Removed(ev)
      {
        var i :| 0 <= i < |rs| && rs[i].RemoveFree? && rs[i].bp == y;
        assert ev[i] == rs[i];
      }
    }
  }

  /** PUT of a header then of the footer it describes is the tag pair SetTags writes, logged in that order. */
  lemma StoreTagsIs(r: Run, bp: int, size: int, alloc: int)
    requires size % 8 == 0 && size >= DSIZE
    requires alloc == 0 || alloc == 1
    ensures StoreTags(r, bp, size, alloc).heap == SetTags(r.heap, bp, size, alloc)
    ensures StoreTags(r, bp, size, alloc).log
         == r.log + [Write(bp - WSIZE, size + alloc), Write(bp + size - DSIZE, size + alloc)]
  {
    PackRoundTrip(size, alloc);
    TagAt(Put(r.heap, Hdrp(bp), Pack(size, alloc)).mem, bp - WSIZE, size, alloc);
  }

  // ---------------------------------------------------------------------
  // coalesce (mm_old.c)

  /** Case 2: removeFree of the next block, then its size added and bp's tags rewritten. */
  function OldCoalesceNext(r: Run, bp: int, size: int): (Run, int)
  {
    var m := r.heap.mem;
    var size := size + GetSize(m, Hdrp(NextBlkp(m, bp)));
    var r2 := RemoveCall(r, NextBlkp(m, bp));
    (AddCall(StoreTags(r2, bp, size, 0), bp), bp)
  }

  /** Case 3: removeFree of the previous block, then bp's footer and the previous header. */
  function OldCoalescePrev(r: Run, bp: int, size: int): (Run, int)
  {
    var m := r.heap.mem;
    var size := size + GetSize(m, Hdrp(PrevBlkp(m, bp)));
    var r2 := RemoveCall(r, PrevBlkp(m, bp));
    var r3 := Store(r2, Ftrp(r2.heap.mem, bp), Pack(size, 0));
    var r4 := Store(r3, Hdrp(PrevBlkp(r3.heap.mem, bp)), Pack(size, 0));
    var p := PrevBlkp(r4.heap.mem, bp);
    (AddCall(r4, p), p)
  }

  /**
   * Case 4: both sizes read (the next one from its footer), removeFree of
   * the previous and then the next block, then the previous header and
   * the next footer.
   */
  function OldCoalesceBoth(r: Run, bp: int, size: int): (Run, int)
  {
    var m := r.heap.mem;
    var size := size + GetSize(m, Hdrp(PrevBlkp(m, bp))) + GetSize(m, Ftrp(m, NextBlkp(m, bp)));
    var r2 := RemoveCall(r, PrevBlkp(m, bp));
    var r3 := RemoveCall(r2, NextBlkp(r2.heap.mem, bp));
    var r4 := Store(r3, Hdrp(PrevBlkp(r3.heap.mem, bp)), Pack(size, 0));
    var r5 := Store(r4, Ftrp(r4.heap.mem, NextBlkp(r4.heap.mem, bp)), Pack(size, 0));
    var p := PrevBlkp(r5.heap.mem, bp);
    (AddCall(r5, p), p)
  }

  /**
   * coalesce(bp) of mm_old.c: nothing when both neighbours are allocated;
   * otherwise removeFree(bp) first, then the case, then addFree of the
   * result.
   */
  function OldCoalesce(r: Run, bp: int): (Run, int)
  {
    var m := r.heap.mem;
    var prevAlloc := GetAlloc(m, Ftrp(m, PrevBlkp(m, bp)));
    var nextAlloc := GetAlloc(m, Hdrp(NextBlkp(m, bp)));
    var size := GetSize(m, Hdrp(bp));
    if prevAlloc != 0 && nextAlloc != 0 then (r, bp)
    else
      var r1 := RemoveCall(r, bp);
      if prevAlloc != 0 && nextAlloc == 0 then OldCoalesceNext(r1, bp, size)
      else if prevAlloc == 0 && nextAlloc != 0 then OldCoalescePrev(r1, bp, size)
      else OldCoalesceBoth(r1, bp, size)
  }

  /** Which case coalesce takes on a laid-out heap; the cases after the first start with removeFree(bp). */
  lemma OldTakes(r: Run, bs: seq<Block>, k: int)
    requires Laid(r.heap, bs) && 0 <= k < |bs| && !bs[k].alloc
    ensures MergeLo(bs, k) == k && MergeHi(bs, k) == k + 1 ==> OldCoalesce(r, bs[k].bp) == (r, bs[k].bp)
    ensures MergeLo(bs, k) == k && MergeHi(bs, k) == k + 2 ==>
              OldCoalesce(r, bs[k].bp) == OldCoalesceNext(RemoveCall(r, bs[k].bp), bs[k].bp, bs[k].size)
    ensures MergeLo(bs, k) == k - 1 && MergeHi(bs, k) == k + 1 ==>
              OldCoalesce(r, bs[k].bp) == OldCoalescePrev(RemoveCall(r, bs[k].bp), bs[k].bp, bs[k].size)
    ensures MergeLo(bs, k) == k - 1 && MergeHi(bs, k) == k + 2 ==>
              OldCoalesce(r, bs[k].bp) == OldCoalesceBoth(RemoveCall(r, bs[k].bp), bs[k].bp, bs[k].size)
  {
    MacrosAt(r.heap.mem, r.heap.heapList, r.heap.brk, bs, k);
  }

  /** Case 2 once the next block n and the merged size are known. */
  lemma OldNextIs(r: Run, bp: int, size: int, n: int, total: int)
    requires total % 8 == 0 && total >= DSIZE
    requires NextBlkp(r.heap.mem, bp) == n
    requires size + GetSize(r.heap.mem, Hdrp(n)) == total
    ensures OldCoalesceNext(r, bp, size)
         == (Run(SetTags(r.heap, bp, total, 0),
                 r.log + [RemoveFree(n)] + [Write(bp - WSIZE, total), Write(bp + total - DSIZE, total)]
                       + [AddFree(bp)]),
             bp)
  {
    StoreTagsIs(RemoveCall(r, n), bp, total, 0);
  }

  /** Case 3 once the previous block q, the merged size and bp's footer f are known. */
  lemma OldPrevIs(r: Run, bp: int, size: int, q: int, total: int, f: int)
    requires total % 8 == 0 && total >= DSIZE && f == q + total - DSIZE
    requires PrevBlkp(r.heap.mem, bp) == q
    requires size + GetSize(r.heap.mem, Hdrp(q)) == total
    requires Ftrp(r.heap.mem, bp) == f
    requires PrevBlkp(Put(r.heap, f, Pack(total, 0)).mem, bp) == q
    requires PrevBlkp(PutPair(r.heap, f, Hdrp(q), Pack(total, 0)).mem, bp) == q
    ensures OldCoalescePrev(r, bp, size)
         == (Run(SetTags(r.heap, q, total, 0),
                 r.log + [RemoveFree(q)] + [Write(f, total), Write(q - WSIZE, total)] + [AddFree(q)]),
             q)
  {
    PackRoundTrip(total, 0);
    FooterFirstIsSetTags(r.heap, q, total, f);
    var a, b, c, d := RemoveFree(q), Write(f, total), Write(q - WSIZE, total), AddFree(q);
    assert r.log + [a] + [b] + [c] + [d] == r.log + [a] + [b, c] + [d];
  }

  /** Case 4 once both neighbours, the merged size and the next block's footer f are known. */
  lemma OldBothIs(r: Run, bp: int, size: int, q: int, n: int, total: int, f: int)
    requires total % 8 == 0 && total >= DSIZE && f == q + total - DSIZE
    requires PrevBlkp(r.heap.mem, bp) == q && NextBlkp(r.heap.mem, bp) == n
    requires size + GetSize(r.heap.mem, Hdrp(q)) + GetSize(r.heap.mem, Ftrp(r.heap.mem, n)) == total
    requires Ftrp(Put(r.heap, Hdrp(q), Pack(total, 0)).mem, NextBlkp(Put(r.heap, Hdrp(q), Pack(total, 0)).mem, bp)) == f
    requires PrevBlkp(PutPair(r.heap, Hdrp(q), f, Pack(total, 0)).mem, bp) == q
    ensures OldCoalesceBoth(r, bp, size)
         == (Run(SetTags(r.heap, q, total, 0),
                 r.log + [RemoveFree(q), RemoveFree(n)] + [Write(q - WSIZE, total), Write(f, total)] + [AddFree(q)]),
             q)
  {
    PackRoundTrip(total, 0);
    TagAt(Put(r.heap, Hdrp(q), Pack(total, 0)).mem, q - WSIZE, total, 0);
    var a, a', b, c, d := RemoveFree(q), RemoveFree(n), Write(q - WSIZE, total), Write(f, total), AddFree(q);
    assert r.log + [a] + [a'] + [b] + [c] + [d] == r.log + [a, a'] + [b, c] + [d];
  }

  /** Case 2 in normal form: the merged block's tags written over bs[k] and bs[k + 1]. */
  lemma OldNextForm(r: Run, bs: seq<Block>, k: int)
    requires Laid(r.heap, bs) && 0 <= k < |bs| && !bs[k].alloc
    requires MergeLo(bs, k) == k && MergeHi(bs, k) == k + 2
    ensures OldCoalesceNext(r, bs[k].bp, bs[k].size)
         == (Run(SetTags(r.heap, bs[k].bp, MergedBlock(bs, k).size, 0),
                 r.log + [RemoveFree(bs[k + 1].bp)]
                       + [Write(bs[k].bp - WSIZE, MergedBlock(bs, k).size),
                          Write(bs[k].bp + MergedBlock(bs, k).size - DSIZE, MergedBlock(bs, k).size)]
                       + [AddFree(bs[k].bp)]),
             bs[k].bp)
  {
    MacrosAt(r.heap.mem, r.heap.heapList, r.heap.brk, bs, k);
    MacrosAt(r.heap.mem, r.heap.heapList, r.heap.brk, bs, k + 1);
    MergedBlockShape(r.heap.heapList, r.heap.brk, bs, k);
    OldNextIs(r, bs[k].bp, bs[k].size, bs[k + 1].bp, MergedBlock(bs, k).size);
  }

  /** Case 3 in normal form: footer first, then the previous block's header. */
  lemma OldPrevForm(r: Run, bs: seq<Block>, k: int)
    requires Laid(r.heap, bs) && 0 <= k < |bs| && !bs[k].alloc
    requires MergeLo(bs, k) == k - 1 && MergeHi(bs, k) == k + 1
    ensures OldCoalescePrev(r, bs[k].bp, bs[k].size)
         == (Run(SetTags(r.heap, bs[k - 1].bp, MergedBlock(bs, k).size, 0),
                 r.log + [RemoveFree(bs[k - 1].bp)]
                       + [Write(End(bs[k]) - DSIZE, MergedBlock(bs, k).size),
                          Write(bs[k - 1].bp - WSIZE, MergedBlock(bs, k).size)]
                       + [AddFree(bs[k - 1].bp)]),
             bs[k - 1].bp)
  {
    OldPrevReads(r.heap, bs, k);
    OldPrevIs(r, bs[k].bp, bs[k].size, bs[k - 1].bp, MergedBlock(bs, k).size, End(bs[k]) - DSIZE);
  }

  /** What case 3 reads, before and between its two stores. */
  lemma OldPrevReads(s: Heap, bs: seq<Block>, k: int)
    requires Laid(s, bs) && 0 <= k < |bs| && !bs[k].alloc
    requires MergeLo(bs, k) == k - 1 && MergeHi(bs, k) == k + 1
    ensures WellSized(MergedBlock(bs, k))
    ensures End(bs[k]) - DSIZE == bs[k - 1].bp + MergedBlock(bs, k).size - DSIZE
    ensures PrevBlkp(s.mem, bs[k].bp) == bs[k - 1].bp
    ensures bs[k].size + GetSize(s.mem, Hdrp(bs[k - 1].bp)) == MergedBlock(bs, k).size
    ensures Ftrp(s.mem, bs[k].bp) == End(bs[k]) - DSIZE
    ensures PrevBlkp(Put(s, End(bs[k]) - DSIZE, Pack(MergedBlock(bs, k).size, 0)).mem, bs[k].bp) == bs[k - 1].bp
    ensures PrevBlkp(PutPair(s, End(bs[k]) - DSIZE, Hdrp(bs[k - 1].bp), Pack(MergedBlock(bs, k).size, 0)).mem,
                     bs[k].bp) == bs[k - 1].bp
  {
    var v := Pack(MergedBlock(bs, k).size, 0);
    MacrosAt(s.mem, s.heapList, s.brk, bs, k);
    MacrosAt(s.mem, s.heapList, s.brk, bs, k - 1);
    MergedBlockShape(s.heapList, s.brk, bs, k);
    PrevUnchanged(s, End(bs[k]) - DSIZE, v, bs[k].bp);
    PrevUnchanged(Put(s, End(bs[k]) - DSIZE, v), Hdrp(bs[k - 1].bp), v, bs[k].bp);
  }

  /** Case 4 in normal form: the previous block's header, then the next block's footer. */
  lemma OldBothForm(r: Run, bs: seq<Block>, k: int)
    requires Laid(r.heap, bs) && 0 <= k < |bs| && !bs[k].alloc
    requires MergeLo(bs, k) == k - 1 && MergeHi(bs, k) == k + 2
    ensures OldCoalesceBoth(r, bs[k].bp, bs[k].size)
         == (Run(SetTags(r.heap, bs[k - 1].bp, MergedBlock(bs, k).size, 0),
                 r.log + [RemoveFree(bs[k - 1].bp), RemoveFree(bs[k + 1].bp)]
                       + [Write(bs[k - 1].bp - WSIZE, MergedBlock(bs, k).size),
                          Write(End(bs[k + 1]) - DSIZE, MergedBlock(bs, k).size)]
                       + [AddFree(bs[k - 1].bp)]),
             bs[k - 1].bp)
  {
    OldBothReads(r.heap, bs, k);
    OldBothIs(r, bs[k].bp, bs[k].size, bs[k - 1].bp, bs[k + 1].bp, MergedBlock(bs, k).size, End(bs[k + 1]) - DSIZE);
  }

  /** What case 4 reads, before and between its two stores. */
  lemma OldBothReads(s: Heap, bs: seq<Block>, k: int)
    requires Laid(s, bs) && 0 <= k < |bs| && !bs[k].alloc
    requires MergeLo(bs, k) == k - 1 && MergeHi(bs, k) == k + 2
    ensures WellSized(MergedBlock(bs, k))
    ensures End(bs[k + 1]) - DSIZE == bs[k - 1].bp + MergedBlock(bs, k).size - DSIZE
    ensures PrevBlkp(s.mem, bs[k].bp) == bs[k - 1].bp && NextBlkp(s.mem, bs[k].bp) == bs[k + 1].bp
    ensures bs[k].size + GetSize(s.mem, Hdrp(bs[k - 1].bp)) + GetSize(s.mem, Ftrp(s.mem, bs[k + 1].bp))
         == MergedBlock(bs, k).size
    ensures var s3 := Put(s, Hdrp(bs[k - 1].bp), Pack(MergedBlock(bs, k).size, 0));
            Ftrp(s3.mem, NextBlkp(s3.mem, bs[k].bp)) == End(bs[k + 1]) - DSIZE
    ensures PrevBlkp(PutPair(s, Hdrp(bs[k - 1].bp), End(bs[k + 1]) - DSIZE, Pack(MergedBlock(bs, k).size, 0)).mem,
                     bs[k].bp) == bs[k - 1].bp
  {
    MacrosAt(s.mem, s.heapList, s.brk, bs, k);
    MacrosAt(s.mem, s.heapList, s.brk, bs, k - 1);
    MacrosAt(s.mem, s.heapList, s.brk, bs, k + 1);
    MergedBlockShape(s.heapList, s.brk, bs, k);
    BothStores(s, bs[k - 1].bp, bs[k].bp, bs[k + 1].bp, MergedBlock(bs, k).size);
  }

  // ---------------------------------------------------------------------
  // What coalesce does to the heap and to the list

  /** The merged block's tags written over its run lay the heap out as Merged(bs, k). */
  lemma OldMergeTags(s: Heap, bs: seq<Block>, k: int)
    requires Laid(s, bs) && 0 <= k < |bs| && !bs[k].alloc
    ensures Laid(SetTags(s, MergedBlock(bs, k).bp, MergedBlock(bs, k).size, 0), Merged(bs, k))
    ensures SetTags(s, MergedBlock(bs, k).bp, MergedBlock(bs, k).size, 0)
         == s.(mem := SetTags(s, MergedBlock(bs, k).bp, MergedBlock(bs, k).size, 0).mem)
  {
    var lo, hi := MergeLo(bs, k), MergeHi(bs, k);
    var b := MergedBlock(bs, k);
    var s' := s.(head := NULL, count := 0);
    MergedBlockShape(s.heapList, s.brk, bs, k);
    SetTagsRewrite(s', bs, [], lo, hi, b);
    assert SetTags(s', b.bp, b.size, 0).mem == SetTags(s, b.bp, b.size, 0).mem;
  }

  /** The removals a merging coalesce makes after removeFree(bp): the previous block, then the next one, each if it is absorbed. */
  function NeighbourRemovals(bs: seq<Block>, k: int): seq<Event>
    requires 0 <= k < |bs|
  {
    (if MergeLo(bs, k) == k - 1 then [RemoveFree(bs[k - 1].bp)] else [])
    + (if MergeHi(bs, k) == k + 2 then [RemoveFree(bs[k + 1].bp)] else [])
  }

  /**
   * The calls of a merging coalesce, read as list operations: removeFree
   * of every free block of the run comes first, addFree of the merged
   * block is the one insertion and the last step, and the listed set goes
   * from the free blocks of bs to those of Merged(bs, k).
   */
  lemma MergeCalls(h: int, brk: int, bs: seq<Block>, k: int)
    requires Tiled(h, brk, bs) && 0 <= k < |bs| && !bs[k].alloc
    ensures RemovesFirst(MergeEvents(bs, k)) && OneAddLast(MergeEvents(bs, k), MergedBlock(bs, k).bp)
    ensures Removed(MergeEvents(bs, k)) == FreeBps(bs[MergeLo(bs, k)..MergeHi(bs, k)])
    ensures ListedAfter(FreeBps(bs), MergeEvents(bs, k)) == FreeBps(Merged(bs, k))
  {
    var lo, hi := MergeLo(bs, k), MergeHi(bs, k);
    var b := MergedBlock(bs, k);
    var rs := [RemoveFree(bs[k].bp)] + NeighbourRemovals(bs, k);
    assert AllRemoves(rs);
    var ws := CoalesceWrites(bs, k);
    assert AllWrites(ws);
    CallShape(FreeBps(bs), rs, ws, b.bp);
    assert Removed(rs) == FreeBps(bs[lo..hi]) by {
      forall y
        ensures y in Removed(rs) <==> y in FreeBps(bs[lo..hi])
      {
        RunFreeBps(bs, k, y);
        if y in Removed(rs) {
          var i :| 0 <= i < |rs| && rs[i].RemoveFree? && rs[i].bp == y;
        }
        if lo == k - 1 && y == bs[k - 1].bp {
          assert rs[1] == RemoveFree(y);
        }
        if hi == k + 2 && y == bs[k + 1].bp {
          assert rs[|rs| - 1] == RemoveFree(y);
        }
        assert rs[0] == RemoveFree(bs[k].bp);
      }
    }
    forall y
      ensures y in FreeBps(Merged(bs, k)) <==> y in (FreeBps(bs) - FreeBps(bs[lo..hi])) + {b.bp}
    {
      FreeBpsSplice(h, brk, bs, lo, hi, [b], y);
      FreeBpsOne(b, y);
    }
  }

  /** A log extended by ev: what was done since is ev. */
  lemma LogExtends(log: seq<Event>, e: Event, rs: seq<Event>, ws: seq<Event>, a: Event)
    ensures log + [e] + rs + ws + [a] == log + ([e] + rs + ws + [a])
    ensures (log + [e] + rs + ws + [a])[|log|..] == [e] + rs + ws + [a]
  {
  }

  /** The two tag stores of a merging coalesce, in the order each case makes them. */
  function CoalesceWrites(bs: seq<Block>, k: int): seq<Event>
    requires 0 <= k < |bs|
  {
    var size := MergedBlock(bs, k).size;
    if MergeLo(bs, k) == k then
      [Write(bs[k].bp - WSIZE, size), Write(bs[k].bp + size - DSIZE, size)]
    else if MergeHi(bs, k) == k + 1 then
      [Write(End(bs[k]) - DSIZE, size), Write(bs[k - 1].bp - WSIZE, size)]
    else
      [Write(bs[k - 1].bp - WSIZE, size), Write(End(bs[k + 1]) - DSIZE, size)]
  }

  /** Case 2 as one of the merging cases. */
  lemma OldNextNormal(r: Run, bs: seq<Block>, k: int)
    requires Laid(r.heap, bs) && 0 <= k < |bs| && !bs[k].alloc
    requires MergeLo(bs, k) == k && MergeHi(bs, k) == k + 2
    ensures OldCoalesce(r, bs[k].bp)
         == (Run(SetTags(r.heap, MergedBlock(bs, k).bp, MergedBlock(bs, k).size, 0),
                 r.log + [RemoveFree(bs[k].bp)] + NeighbourRemovals(bs, k) + CoalesceWrites(bs, k)
                       + [AddFree(MergedBlock(bs, k).bp)]),
             MergedBlock(bs, k).bp)
  {
    var r1 := RemoveCall(r, bs[k].bp);
    OldTakes(r, bs, k);
    OldNextForm(r1, bs, k);
    assert NeighbourRemovals(bs, k) == [RemoveFree(bs[k + 1].bp)];
  }

  /** Case 3 as one of the merging cases. */
  lemma OldPrevNormal(r: Run, bs: seq<Block>, k: int)
    requires Laid(r.heap, bs) && 0 <= k < |bs| && !bs[k].alloc
    requires MergeLo(bs, k) == k - 1 && MergeHi(bs, k) == k + 1
    ensures OldCoalesce(r, bs[k].bp)
         == (Run(SetTags(r.heap, MergedBlock(bs, k).bp, MergedBlock(bs, k).size, 0),
                 r.log + [RemoveFree(bs[k].bp)] + NeighbourRemovals(bs, k) + CoalesceWrites(bs, k)
                       + [AddFree(MergedBlock(bs, k).bp)]),
             MergedBlock(bs, k).bp)
  {
    var r1 := RemoveCall(r, bs[k].bp);
    OldTakes(r, bs, k);
    OldPrevForm(r1, bs, k);
    assert NeighbourRemovals(bs, k) == [RemoveFree(bs[k - 1].bp)];
  }

  /** Case 4 as one of the merging cases. */
  lemma OldBothNormal(r: Run, bs: seq<Block>, k: int)
    requires Laid(r.heap, bs) && 0 <= k < |bs| && !bs[k].alloc
    requires MergeLo(bs, k) == k - 1 && MergeHi(bs, k) == k + 2
    ensures OldCoalesce(r, bs[k].bp)
         == (Run(SetTags(r.heap, MergedBlock(bs, k).bp, MergedBlock(bs, k).size, 0),
                 r.log + [RemoveFree(bs[k].bp)] + NeighbourRemovals(bs, k) + CoalesceWrites(bs, k)
                       + [AddFree(MergedBlock(bs, k).bp)]),
             MergedBlock(bs, k).bp)
  {
    var r1 := RemoveCall(r, bs[k].bp);
    OldTakes(r, bs, k);
    OldBothForm(r1, bs, k);
    assert NeighbourRemovals(bs, k) == [RemoveFree(bs[k - 1].bp), RemoveFree(bs[k + 1].bp)];
  }

  /** The three merging cases in one normal form. */
  lemma OldCoalesceNormal(r: Run, bs: seq<Block>, k: int)
    requires Laid(r.heap, bs) && 0 <= k < |bs| && !bs[k].alloc
    requires MergeLo(bs, k) != k || MergeHi(bs, k) != k + 1
    ensures OldCoalesce(r, bs[k].bp)
         == (Run(SetTags(r.heap, MergedBlock(bs, k).bp, MergedBlock(bs, k).size, 0),
                 r.log + [RemoveFree(bs[k].bp)] + NeighbourRemovals(bs, k) + CoalesceWrites(bs, k)
                       + [AddFree(MergedBlock(bs, k).bp)]),
             MergedBlock(bs, k).bp)
  {
    var lo, hi := MergeLo(bs, k), MergeHi(bs, k);
    if lo == k {
      OldNextNormal(r, bs, k);
    } else if hi == k + 1 {
      OldPrevNormal(r, bs, k);
    } else {
      OldBothNormal(r, bs, k);
    }
  }

  /** The events of a merging coalesce. */
  function MergeEvents(bs: seq<Block>, k: int): seq<Event>
    requires 0 <= k < |bs|
  {
    [RemoveFree(bs[k].bp)] + NeighbourRemovals(bs, k) + CoalesceWrites(bs, k) + [AddFree(MergedBlock(bs, k).bp)]
  }

  /** A merging coalesce extends the log by its events and rewrites only the merged block's tags. */
  lemma OldMergingRun(r: Run, bs: seq<Block>, k: int)
    requires Laid(r.heap, bs) && 0 <= k < |bs| && !bs[k].alloc
    requires MergeLo(bs, k) != k || MergeHi(bs, k) != k + 1
    ensures OldCoalesce(r, bs[k].bp).1 == MergedBlock(bs, k).bp
    ensures OldCoalesce(r, bs[k].bp).0.heap == SetTags(r.heap, MergedBlock(bs, k).bp, MergedBlock(bs, k).size, 0)
    ensures OldCoalesce(r, bs[k].bp).0.log == r.log + MergeEvents(bs, k)
    ensures |r.log| < |OldCoalesce(r, bs[k].bp).0.log|
    ensures OldCoalesce(r, bs[k].bp).0.log[..|r.log|] == r.log
    ensures Since(r, OldCoalesce(r, bs[k].bp).0) == MergeEvents(bs, k)
  {
    var b := MergedBlock(bs, k);
    OldCoalesceNormal(r, bs, k);
    LogExtends(r.log, RemoveFree(bs[k].bp), NeighbourRemovals(bs, k), CoalesceWrites(bs, k), AddFree(b.bp));
    assert (r.log + MergeEvents(bs, k))[..|r.log|] == r.log;
  }

  /** The merging cases: the heap laid out as Merged(bs, k) and the calls read as list operations. */
  lemma OldMerging(r: Run, bs: seq<Block>, k: int)
    requires Laid(r.heap, bs) && 0 <= k < |bs| && !bs[k].alloc
    requires MergeLo(bs, k) != k || MergeHi(bs, k) != k + 1
    ensures OldCoalesce(r, bs[k].bp).1 == MergedBlock(bs, k).bp
    ensures Laid(OldCoalesce(r, bs[k].bp).0.heap, Merged(bs, k))
    ensures OldCoalesce(r, bs[k].bp).0.heap == r.heap.(mem := OldCoalesce(r, bs[k].bp).0.heap.mem)
    ensures |r.log| < |OldCoalesce(r, bs[k].bp).0.log|
    ensures OldCoalesce(r, bs[k].bp).0.log[..|r.log|] == r.log
    ensures ListedAfter(FreeBps(bs), Since(r, OldCoalesce(r, bs[k].bp).0)) == FreeBps(Merged(bs, k))
    ensures var ev := Since(r, OldCoalesce(r, bs[k].bp).0);
            && RemovesFirst(ev) && OneAddLast(ev, MergedBlock(bs, k).bp)
            && Removed(ev) == FreeBps(bs[MergeLo(bs, k)..MergeHi(bs, k)])
  {
    OldMergingRun(r, bs, k);
    OldMergeTags(r.heap, bs, k);
    MergeCalls(r.heap.heapList, r.heap.brk, bs, k);
  }

  /** With both neighbours allocated coalesce does nothing, and nothing is done since. */
  lemma OldAloneRun(r: Run, bs: seq<Block>, k: int)
    requires Laid(r.heap, bs) && 0 <= k < |bs| && !bs[k].alloc
    requires MergeLo(bs, k) == k && MergeHi(bs, k) == k + 1
    ensures OldCoalesce(r, bs[k].bp) == (r, MergedBlock(bs, k).bp)
    ensures Merged(bs, k) == bs
    ensures Since(r, r) == [] && r.log[..|r.log|] == r.log
  {
    OldTakes(r, bs, k);
    MergedAlone(bs, k);
  }

  /**
   * coalesce of mm_old.c on a laid-out heap whose free blocks are all
   * listed: the block returned is the merged block, the heap is laid out
   * as Merged(bs, k), and the run is unchanged exactly when no neighbour
   * is free. Otherwise removeFree of bp and of each absorbed neighbour
   * comes before any store, addFree of the merged block is the last
   * call, and afterwards exactly the free blocks of Merged(bs, k) are
   * listed.
   */
  lemma OldCoalesceMerges(r: Run, bs: seq<Block>, k: int)
    requires Laid(r.heap, bs) && 0 <= k < |bs| && !bs[k].alloc
    ensures OldCoalesce(r, bs[k].bp).1 == MergedBlock(bs, k).bp
    ensures Laid(OldCoalesce(r, bs[k].bp).0.heap, Merged(bs, k))
    ensures OldCoalesce(r, bs[k].bp).0.heap == r.heap.(mem := OldCoalesce(r, bs[k].bp).0.heap.mem)
    ensures |r.log| <= |OldCoalesce(r, bs[k].bp).0.log|
    ensures OldCoalesce(r, bs[k].bp).0.log[..|r.log|] == r.log
    ensures OldCoalesce(r, bs[k].bp).0 == r <==> MergeLo(bs, k) == k && MergeHi(bs, k) == k + 1
    ensures ListedAfter(FreeBps(bs), Since(r, OldCoalesce(r, bs[k].bp).0)) == FreeBps(Merged(bs, k))
    ensures OldCoalesce(r, bs[k].bp).0 != r ==>
              var ev := Since(r, OldCoalesce(r, bs[k].bp).0);
              && RemovesFirst(ev) && OneAddLast(ev, MergedBlock(bs, k).bp)
              && Removed(ev) == FreeBps(bs[MergeLo(bs, k)..MergeHi(bs, k)])
  {
    if MergeLo(bs, k) == k && MergeHi(bs, k) == k + 1 {
      OldAloneRun(r, bs, k);
    } else {
      OldMerging(r, bs, k);
      assert |OldCoalesce(r, bs[k].bp).0.log| != |r.log|;
    }
  }

  // ---------------------------------------------------------------------
  // Runs and their logs

  /** r' continues r: r's log is a prefix of r''s. */
  predicate Continues(r: Run, r': Run)
  {
    |r.log| <= |r'.log| && r'.log[..|r.log|] == r.log
  }

  /** Reading a log one more step. */
  lemma ListedAfterSnoc(L: set<int>, ev: seq<Event>, e: Event)
    ensures ListedAfter(L, ev + [e]) == Step(ListedAfter(L, ev), e)
  {
    assert (ev + [e])[..|ev|] == ev;
  }

  /** What was done from r to r'' is what was done from r to r' and then from r' to r''. */
  lemma SinceChain(r: Run, r': Run, r'': Run)
    requires Continues(r, r') && Continues(r', r'')
    ensures Continues(r, r'')
    ensures Since(r, r'') == Since(r, r') + Since(r', r'')
  {
    assert r''.log == r'.log + Since(r', r'');
    assert r'.log == r.log + Since(r, r');
    assert r''.log == r.log + (Since(r, r') + Since(r', r''));
  }

  /** A log extended by ev: r continues into the extension, and ev is what was done since. */
  lemma ExtendedBy(r: Run, r': Run, ev: seq<Event>)
    requires r'.log == r.log + ev
    ensures Continues(r, r') && Since(r, r') == ev
  {
    assert (r.log + ev)[..|r.log|] == r.log;
  }

  // ---------------------------------------------------------------------
  // place (mm_old.c)

  /**
   * place(bp, asize) of mm_old.c: when the remainder is at least a minimum
   * block, bp's tags are written as allocated with asize, removeFree(bp),
   * the remainder's tags written as free and addFree of the remainder;
   * otherwise bp's tags are written as allocated with its whole size and
   * removeFree(bp). removeFree always comes after bp's header is rewritten.
   */
  function OldPlace(r: Run, bp: int, asize: int): Run
  {
    var csize := GetSize(r.heap.mem, Hdrp(bp));
    if SizeSub(csize, asize) >= MIN_BLOCK then
      var r1 := RemoveCall(StoreTags(r, bp, asize, 1), bp);
      var nb := NextBlkp(r1.heap.mem, bp);
      AddCall(StoreTags(r1, nb, SizeSub(csize, asize), 0), nb)
    else
      RemoveCall(StoreTags(r, bp, csize, 1), bp)
  }

  /** The events of place on block b. */
  function PlaceEvents(b: Block, asize: int): seq<Event>
  {
    if Splits(b, asize) then
      var rest := b.size - asize;
      [Write(b.bp - WSIZE, Pack(asize, 1)), Write(b.bp + asize - DSIZE, Pack(asize, 1)), RemoveFree(b.bp),
       Write(b.bp + asize - WSIZE, Pack(rest, 0)), Write(b.bp + asize + rest - DSIZE, Pack(rest, 0)), AddFree(b.bp + asize)]
    else
      [Write(b.bp - WSIZE, Pack(b.size, 1)), Write(b.bp + b.size - DSIZE, Pack(b.size, 1)), RemoveFree(b.bp)]
  }

  /** place when the block splits, once its size csize is known. */
  lemma OldPlaceSplitWith(r: Run, bp: int, csize: int, asize: int)
    requires GetSize(r.heap.mem, Hdrp(bp)) == csize && csize < SIZE_T_LIMIT
    requires asize % 8 == 0 && MIN_BLOCK <= asize && MIN_BLOCK <= csize - asize && csize % 8 == 0
    ensures OldPlace(r, bp, asize)
         == Run(SetTags(SetTags(r.heap, bp, asize, 1), bp + asize, csize - asize, 0),
                r.log + PlaceEvents(Block(bp, csize, false), asize))
  {
    var rest := csize - asize;
    SubAligned(csize, asize);
    var r1 := RemoveCall(StoreTags(r, bp, asize, 1), bp);
    var a, b, c := Write(bp - WSIZE, Pack(asize, 1)), Write(bp + asize - DSIZE, Pack(asize, 1)), RemoveFree(bp);
    var d, e, f := Write(bp + asize - WSIZE, Pack(rest, 0)), Write(bp + asize + rest - DSIZE, Pack(rest, 0)), AddFree(bp + asize);
    PlaceAllocates(r, bp, asize);
    StoreTagsIs(r1, bp + asize, rest, 0);
    assert r.log + [a, b, c] + [d, e] + [f] == r.log + [a, b, c, d, e, f];
  }

  /** The first half of a split: bp's tags written as allocated with asize, then removeFree(bp). */
  lemma PlaceAllocates(r: Run, bp: int, asize: int)
    requires asize % 8 == 0 && MIN_BLOCK <= asize
    ensures RemoveCall(StoreTags(r, bp, asize, 1), bp)
         == Run(SetTags(r.heap, bp, asize, 1),
                r.log + [Write(bp - WSIZE, Pack(asize, 1)), Write(bp + asize - DSIZE, Pack(asize, 1)), RemoveFree(bp)])
    ensures NextBlkp(SetTags(r.heap, bp, asize, 1).mem, bp) == bp + asize
  {
    StoreTagsIs(r, bp, asize, 1);
    SetTagsNext(r.heap, bp, asize, 1);
    var a, b, c := Write(bp - WSIZE, Pack(asize, 1)), Write(bp + asize - DSIZE, Pack(asize, 1)), RemoveFree(bp);
    assert r.log + [a, b] + [c] == r.log + [a, b, c];
  }

  /** place in normal form when the block splits. */
  lemma OldPlaceSplitIs(r: Run, bs: seq<Block>, j: int, asize: int)
    requires Laid(r.heap, bs) && 0 <= j < |bs| && !bs[j].alloc
    requires asize % 8 == 0 && MIN_BLOCK <= asize <= bs[j].size && Splits(bs[j], asize)
    requires bs[j].size < SIZE_T_LIMIT
    ensures OldPlace(r, bs[j].bp, asize)
         == Run(SetTags(SetTags(r.heap, bs[j].bp, asize, 1), bs[j].bp + asize, bs[j].size - asize, 0),
                r.log + PlaceEvents(bs[j], asize))
  {
    TagAt(r.heap.mem, bs[j].bp - WSIZE, bs[j].size, 0);
    assert bs[j] == Block(bs[j].bp, bs[j].size, false);
    OldPlaceSplitWith(r, bs[j].bp, bs[j].size, asize);
  }

  /** place in normal form when the whole block is used. */
  lemma OldPlaceWholeIs(r: Run, bs: seq<Block>, j: int, asize: int)
    requires Laid(r.heap, bs) && 0 <= j < |bs| && !bs[j].alloc
    requires asize % 8 == 0 && MIN_BLOCK <= asize <= bs[j].size && !Splits(bs[j], asize)
    requires bs[j].size < SIZE_T_LIMIT
    ensures OldPlace(r, bs[j].bp, asize) == Run(SetTags(r.heap, bs[j].bp, bs[j].size, 1), r.log + PlaceEvents(bs[j], asize))
  {
    var bp := bs[j].bp;
    MacrosAt(r.heap.mem, r.heap.heapList, r.heap.brk, bs, j);
    StoreTagsIs(r, bp, bs[j].size, 1);
    var a, b, c := Write(bp - WSIZE, Pack(bs[j].size, 1)), Write(bp + bs[j].size - DSIZE, Pack(bs[j].size, 1)), RemoveFree(bp);
    assert r.log + [a, b] + [c] == r.log + [a, b, c];
  }

  /** The words of a split written into a laid-out heap lay it out as Placed(bs, j, asize). */
  lemma SplitLaid(s: Heap, s3: Heap, bs: seq<Block>, j: int, asize: int)
    requires Laid(s, bs) && 0 <= j < |bs| && !bs[j].alloc
    requires asize % 8 == 0 && MIN_BLOCK <= asize && Splits(bs[j], asize)
    requires s3 == s.(mem := s3.mem)
    requires SplitTags(s3.mem, bs[j].bp, asize, bs[j].size - asize)
    requires forall a :: a < bs[j].bp - WSIZE || a >= bs[j].bp + asize + (bs[j].size - asize) - WSIZE
                         ==> Get(s3.mem, a) == Get(s.mem, a)
    ensures Laid(s3, Placed(bs, j, asize))
  {
    SplitRewrite(s.(head := NULL, count := 0), s3.(head := NULL, count := 0), bs, [], j, asize);
  }

  /** The tags place writes when the block splits lay the heap out as Placed(bs, j, asize). */
  lemma OldPlaceSplitTags(s: Heap, bs: seq<Block>, j: int, asize: int)
    requires Laid(s, bs) && 0 <= j < |bs| && !bs[j].alloc
    requires asize % 8 == 0 && MIN_BLOCK <= asize <= bs[j].size && Splits(bs[j], asize)
    ensures Laid(SetTags(SetTags(s, bs[j].bp, asize, 1), bs[j].bp + asize, bs[j].size - asize, 0), Placed(bs, j, asize))
    ensures SetTags(SetTags(s, bs[j].bp, asize, 1), bs[j].bp + asize, bs[j].size - asize, 0)
         == s.(mem := SetTags(SetTags(s, bs[j].bp, asize, 1), bs[j].bp + asize, bs[j].size - asize, 0).mem)
  {
    SplitWordsAt(s, bs, j, asize);
    SplitLaid(s, SetTags(SetTags(s, bs[j].bp, asize, 1), bs[j].bp + asize, bs[j].size - asize, 0), bs, j, asize);
  }

  /** The tags place writes when the whole block is used lay the heap out as Placed(bs, j, asize). */
  lemma OldPlaceWholeTags(s: Heap, bs: seq<Block>, j: int, asize: int)
    requires Laid(s, bs) && 0 <= j < |bs| && !bs[j].alloc
    requires asize <= bs[j].size && !Splits(bs[j], asize)
    ensures var s3 := SetTags(s, bs[j].bp, bs[j].size, 1);
            Laid(s3, Placed(bs, j, asize)) && s3 == s.(mem := s3.mem)
  {
    var s' := s.(head := NULL, count := 0);
    WholeRewrite(s', bs, [], j, asize);
    assert SetTags(s', bs[j].bp, bs[j].size, 1).mem == SetTags(s, bs[j].bp, bs[j].size, 1).mem;
  }

  /** Read as list operations, place takes bs[j] off the list and lists a split-off remainder. */
  lemma PlaceCalls(h: int, brk: int, bs: seq<Block>, j: int, asize: int)
    requires Tiled(h, brk, bs) && 0 <= j < |bs| && !bs[j].alloc && asize <= bs[j].size
    ensures ListedAfter(FreeBps(bs), PlaceEvents(bs[j], asize)) == FreeBps(Placed(bs, j, asize))
  {
    var ev := PlaceEvents(bs[j], asize);
    var L := FreeBps(bs);
    var bp := bs[j].bp;
    ListedAfterSnoc(L, [], ev[0]);
    ListedAfterSnoc(L, ev[..1], ev[1]);
    ListedAfterSnoc(L, ev[..2], ev[2]);
    assert ev[..1] == [] + [ev[0]] && ev[..2] == ev[..1] + [ev[1]] && ev[..3] == ev[..2] + [ev[2]];
    if Splits(bs[j], asize) {
      ListedAfterSnoc(L, ev[..3], ev[3]);
      ListedAfterSnoc(L, ev[..4], ev[4]);
      ListedAfterSnoc(L, ev[..5], ev[5]);
      assert ev[..4] == ev[..3] + [ev[3]] && ev[..5] == ev[..4] + [ev[4]] && ev == ev[..5] + [ev[5]];
      assert ListedAfter(L, ev) == (L - {bp}) + {bp + asize};
    } else {
      assert ev == ev[..2] + [ev[2]];
      assert ListedAfter(L, ev) == L - {bp};
    }
    forall y
      ensures y in FreeBps(Placed(bs, j, asize)) <==> y in ListedAfter(L, ev)
    {
      PlacedFreeBps(h, brk, bs, j, asize, y);
    }
  }

  /**
   * place of mm_old.c on a laid-out heap whose free blocks are all listed:
   * the heap is laid out as Placed(bs, j, asize), bp's tags are rewritten
   * before removeFree(bp), the remainder is listed last when the block
   * splits, and afterwards exactly the free blocks of the placed tiling are
   * listed.
   */
  lemma OldPlaceValid(r: Run, bs: seq<Block>, j: int, asize: int)
    requires Laid(r.heap, bs) && 0 <= j < |bs| && !bs[j].alloc
    requires asize % 8 == 0 && MIN_BLOCK <= asize <= bs[j].size
    requires bs[j].size < SIZE_T_LIMIT
    ensures Laid(OldPlace(r, bs[j].bp, asize).heap, Placed(bs, j, asize))
    ensures OldPlace(r, bs[j].bp, asize).heap == r.heap.(mem := OldPlace(r, bs[j].bp, asize).heap.mem)
    ensures Continues(r, OldPlace(r, bs[j].bp, asize))
    ensures Since(r, OldPlace(r, bs[j].bp, asize)) == PlaceEvents(bs[j], asize)
    ensures ListedAfter(FreeBps(bs), Since(r, OldPlace(r, bs[j].bp, asize))) == FreeBps(Placed(bs, j, asize))
  {
    if Splits(bs[j], asize) {
      OldPlaceSplitIs(r, bs, j, asize);
      OldPlaceSplitTags(r.heap, bs, j, asize);
    } else {
      OldPlaceWholeIs(r, bs, j, asize);
      OldPlaceWholeTags(r.heap, bs, j, asize);
    }
    ExtendedBy(r, OldPlace(r, bs[j].bp, asize), PlaceEvents(bs[j], asize));
    PlaceCalls(r.heap.heapList, r.heap.brk, bs, j, asize);
  }

  // ---------------------------------------------------------------------
  // extend_heap (mm_old.c)

  /**
   * extend_heap(words) of mm_old.c: the rounded byte count from the
   * provider, the new block's tags written as free, the new epilogue, and
   * addFree of the new block. It does not coalesce.
   */
  function OldExtendHeap(r: Run, words: nat): (int, Run)
  {
    var size := ExtendBytes(words);
    var g := Sbrk(r.heap, size);
    if g.0 == -1 then (NULL, Run(g.1, r.log))
    else
      var bp := g.0;
      var r1 := StoreTags(Run(g.1, r.log), bp, size, 0);
      var r2 := Store(r1, Hdrp(NextBlkp(r1.heap.mem, bp)), Pack(0, 1));
      (bp, AddCall(r2, bp))
  }

  /** The events of extend_heap when the provider grants size bytes at the break brk. */
  function ExtendEvents(brk: int, size: int): seq<Event>
  {
    [Write(brk - WSIZE, Pack(size, 0)), Write(brk + size - DSIZE, Pack(size, 0)), Write(brk + size - WSIZE, Pack(0, 1)), AddFree(brk)]
  }

  /** extend_heap in normal form when the provider grants the bytes: the state extend_heap of mm.c hands to coalesce. */
  lemma OldExtendIs(r: Run, words: nat, size: int)
    requires size == ExtendBytes(words) && size >= DSIZE
    requires r.heap.brk >= 0 && r.heap.brk + size <= r.heap.limit
    ensures OldExtendHeap(r, words) == (r.heap.brk, Run(Grown(r.heap, size), r.log + ExtendEvents(r.heap.brk, size)))
  {
    var s, brk := r.heap, r.heap.brk;
    var g := s.(brk := brk + size);
    var r1 := StoreTags(Run(g, r.log), brk, size, 0);
    StoreTagsIs(Run(g, r.log), brk, size, 0);
    SetTagsNext(g, brk, size, 0);
    PackRoundTrip(0, 1);
    var a, b, c, d := Write(brk - WSIZE, Pack(size, 0)), Write(brk + size - DSIZE, Pack(size, 0)), Write(brk + size - WSIZE, Pack(0, 1)), AddFree(brk);
    assert r.log + [a, b] + [c] + [d] == r.log + [a, b, c, d];
  }

  /** The grown state of a laid-out heap is laid out with the new free block appended. */
  lemma GrownLaid(s: Heap, bs: seq<Block>, size: int)
    requires Laid(s, bs)
    requires size % 8 == 0 && size >= MIN_BLOCK
    ensures Laid(Grown(s, size), Appended(bs, s.brk, size))
    ensures Grown(s, size) == s.(mem := Grown(s, size).mem, brk := s.brk + size)
  {
    var b := Block(s.brk, size, false);
    GrownWords(s, size);
    AppendTiled(s.heapList, s.brk, bs, b);
    AppendTags(s.mem, Grown(s, size).mem, s.heapList, s.brk, bs, b);
  }

  /** Read as list operations, extend_heap lists the new block. */
  lemma ExtendCalls(bs: seq<Block>, brk: int, size: int)
    ensures ListedAfter(FreeBps(bs), ExtendEvents(brk, size)) == FreeBps(Appended(bs, brk, size))
    ensures OneAddLast(ExtendEvents(brk, size), brk) && Removed(ExtendEvents(brk, size)) == {}
  {
    var ev := ExtendEvents(brk, size);
    var L := FreeBps(bs);
    ListedAfterWrites(L, ev[..3]);
    ListedAfterSnoc(L, ev[..3], ev[3]);
    assert ev == ev[..3] + [ev[3]];
    FreeBpsConcat(bs, [Block(brk, size, false)]);
    forall y
      ensures y in FreeBps([Block(brk, size, false)]) <==> y == brk
    {
      FreeBpsOne(Block(brk, size, false), y);
    }
  }

  /**
   * extend_heap of mm_old.c fails exactly when the provider cannot grant
   * the rounded byte count, and then changes nothing. Otherwise it returns
   * the old break, the heap is laid out with one new free block appended
   * there, addFree of that block is the one call and the last step, and
   * afterwards the free blocks of the appended tiling are listed. The new
   * block is not merged: after a free last block the heap has two free
   * blocks side by side.
   */
  lemma OldExtendValid(r: Run, bs: seq<Block>, words: nat)
    requires Laid(r.heap, bs)
    requires MIN_BLOCK <= words * WSIZE
    ensures OldExtendHeap(r, words).0 == NULL <==> r.heap.brk + ExtendBytes(words) > r.heap.limit
    ensures OldExtendHeap(r, words).0 == NULL ==> OldExtendHeap(r, words).1 == r
    ensures OldExtendHeap(r, words).0 != NULL ==>
              var r' := OldExtendHeap(r, words).1;
              && OldExtendHeap(r, words).0 == r.heap.brk
              && Laid(r'.heap, Appended(bs, r.heap.brk, ExtendBytes(words)))
              && r'.heap == r.heap.(mem := r'.heap.mem, brk := r.heap.brk + ExtendBytes(words))
              && Continues(r, r')
              && OneAddLast(Since(r, r'), r.heap.brk) && Removed(Since(r, r')) == {}
              && ListedAfter(FreeBps(bs), Since(r, r')) == FreeBps(Appended(bs, r.heap.brk, ExtendBytes(words)))
              && (|bs| > 0 && !bs[|bs| - 1].alloc ==> !NoAdjacentFree(Appended(bs, r.heap.brk, ExtendBytes(words))))
  {
    var size := ExtendBytes(words);
    BrkAbove(r.heap.heapList, r.heap.brk, bs);
    if r.heap.brk + size <= r.heap.limit {
      OldExtendGrants(r, bs, words, size);
    }
  }

  /** The heap ends above its prologue. */
  lemma BrkAbove(h: int, brk: int, bs: seq<Block>)
    requires Tiled(h, brk, bs)
    ensures h + DSIZE <= brk
  {
    if |bs| > 0 {
      Placement(h, brk, bs, |bs| - 1);
    }
  }

  /** extend_heap of mm_old.c when the provider grants the bytes. */
  lemma OldExtendGrants(r: Run, bs: seq<Block>, words: nat, size: int)
    requires Laid(r.heap, bs)
    requires size == ExtendBytes(words) && MIN_BLOCK <= size && r.heap.brk + size <= r.heap.limit
    ensures var r' := OldExtendHeap(r, words).1;
            && OldExtendHeap(r, words).0 == r.heap.brk
            && Laid(r'.heap, Appended(bs, r.heap.brk, size))
            && r'.heap == r.heap.(mem := r'.heap.mem, brk := r.heap.brk + size)
            && Continues(r, r')
            && OneAddLast(Since(r, r'), r.heap.brk) && Removed(Since(r, r')) == {}
            && ListedAfter(FreeBps(bs), Since(r, r')) == FreeBps(Appended(bs, r.heap.brk, size))
            && (|bs| > 0 && !bs[|bs| - 1].alloc ==> !NoAdjacentFree(Appended(bs, r.heap.brk, size)))
  {
    var r' := OldExtendHeap(r, words).1;
    BrkAbove(r.heap.heapList, r.heap.brk, bs);
    OldExtendIs(r, words, size);
    GrownLaid(r.heap, bs, size);
    ExtendedBy(r, r', ExtendEvents(r.heap.brk, size));
    ExtendCalls(bs, r.heap.brk, size);
    if |bs| > 0 && !bs[|bs| - 1].alloc {
      var a := Appended(bs, r.heap.brk, size);
      assert a[|bs| - 1] == bs[|bs| - 1] && !a[|bs|].alloc;
    }
  }


  // ---------------------------------------------------------------------
  // mm_free (mm_old.c)

  /** mm_free(bp) of mm_old.c: bp's tags written as free, addFree(bp), then coalesce. */
  function OldFree(r: Run, bp: int): Run
  {
    var size := GetSize(r.heap.mem, Hdrp(bp));
    var r1 := AddCall(StoreTags(r, bp, size, 0), bp);
    OldCoalesce(r1, bp).0
  }

  /** The events of mm_free before coalesce. */
  function ReleaseEvents(b: Block): seq<Event>
  {
    [Write(b.bp - WSIZE, Pack(b.size, 0)), Write(b.bp + b.size - DSIZE, Pack(b.size, 0)), AddFree(b.bp)]
  }

  /** The run mm_free hands to coalesce. */
  function OldReleased(r: Run, bp: int): Run
  {
    AddCall(StoreTags(r, bp, GetSize(r.heap.mem, Hdrp(bp)), 0), bp)
  }

  /** The tags of block k rewritten as free lay the heap out as Released(bs, k). */
  lemma ReleasedLaid(s: Heap, bs: seq<Block>, k: int)
    requires Laid(s, bs) && 0 <= k < |bs|
    ensures Laid(SetTags(s, bs[k].bp, bs[k].size, 0), Released(bs, k))
    ensures SetTags(s, bs[k].bp, bs[k].size, 0) == s.(mem := SetTags(s, bs[k].bp, bs[k].size, 0).mem)
  {
    var b := Block(bs[k].bp, bs[k].size, false);
    var s' := s.(head := NULL, count := 0);
    assert WellSized(bs[k]);
    SetTagsRewrite(s', bs, [], k, k + 1, b);
    assert SetTags(s', b.bp, b.size, 0).mem == SetTags(s, b.bp, b.size, 0).mem;
  }

  /** Read as list operations, the start of mm_free lists the released block. */
  lemma ReleaseCalls(h: int, brk: int, bs: seq<Block>, k: int)
    requires Tiled(h, brk, bs) && 0 <= k < |bs| && bs[k].alloc
    ensures ListedAfter(FreeBps(bs), ReleaseEvents(bs[k])) == FreeBps(Released(bs, k))
  {
    var ev := ReleaseEvents(bs[k]);
    var L := FreeBps(bs);
    var b := Block(bs[k].bp, bs[k].size, false);
    ListedAfterWrites(L, ev[..2]);
    ListedAfterSnoc(L, ev[..2], ev[2]);
    assert ev == ev[..2] + [ev[2]];
    assert bs[k..k + 1] == [bs[k]];
    forall y
      ensures y in FreeBps(Released(bs, k)) <==> y in L + {b.bp}
    {
      FreeBpsSplice(h, brk, bs, k, k + 1, [b], y);
      FreeBpsOne(b, y);
      FreeBpsOne(bs[k], y);
    }
  }

  /** What mm_free has done when it calls coalesce. */
  lemma OldReleasedValid(r: Run, bs: seq<Block>, k: int)
    requires Laid(r.heap, bs) && 0 <= k < |bs| && bs[k].alloc
    ensures Laid(OldReleased(r, bs[k].bp).heap, Released(bs, k))
    ensures OldReleased(r, bs[k].bp).heap == r.heap.(mem := OldReleased(r, bs[k].bp).heap.mem)
    ensures Continues(r, OldReleased(r, bs[k].bp))
    ensures Since(r, OldReleased(r, bs[k].bp)) == ReleaseEvents(bs[k])
    ensures ListedAfter(FreeBps(bs), ReleaseEvents(bs[k])) == FreeBps(Released(bs, k))
    ensures Released(bs, k)[k] == Block(bs[k].bp, bs[k].size, false)
  {
    var bp, size := bs[k].bp, bs[k].size;
    assert WellSized(bs[k]);
    TagAt(r.heap.mem, bp - WSIZE, size, 1);
    StoreTagsIs(r, bp, size, 0);
    var a, b, c := Write(bp - WSIZE, Pack(size, 0)), Write(bp + size - DSIZE, Pack(size, 0)), AddFree(bp);
    assert r.log + [a, b] + [c] == r.log + [a, b, c];
    ExtendedBy(r, OldReleased(r, bp), ReleaseEvents(bs[k]));
    ReleasedLaid(r.heap, bs, k);
    ReleaseCalls(r.heap.heapList, r.heap.brk, bs, k);
    SpliceAt(bs, k, k + 1, [Block(bp, size, false)], k);
  }

  /**
   * mm_free of mm_old.c on a laid-out heap whose free blocks are all
   * listed: the heap is laid out as Freed(bs, k), the block's tags are
   * written and the block listed before coalesce starts, and afterwards
   * exactly the free blocks of Freed(bs, k) are listed.
   */
  lemma OldFreeValid(r: Run, bs: seq<Block>, k: int)
    requires Laid(r.heap, bs) && 0 <= k < |bs| && bs[k].alloc
    ensures Laid(OldFree(r, bs[k].bp).heap, Freed(bs, k))
    ensures OldFree(r, bs[k].bp).heap == r.heap.(mem := OldFree(r, bs[k].bp).heap.mem)
    ensures Continues(r, OldFree(r, bs[k].bp))
    ensures |Since(r, OldFree(r, bs[k].bp))| >= 3
    ensures Since(r, OldFree(r, bs[k].bp))[..3] == ReleaseEvents(bs[k])
    ensures ListedAfter(FreeBps(bs), Since(r, OldFree(r, bs[k].bp))) == FreeBps(Freed(bs, k))
  {
    var bp := bs[k].bp;
    var r1 := OldReleased(r, bp);
    var r2 := OldFree(r, bp);
    assert r2 == OldCoalesce(r1, bp).0;
    OldReleasedValid(r, bs, k);
    OldCoalesceMerges(r1, Released(bs, k), k);
    SinceChain(r, r1, r2);
    ListedAfterConcat(FreeBps(bs), Since(r, r1), Since(r1, r2));
  }

  // ---------------------------------------------------------------------
  // asize in mm_malloc (mm_old.c)

  /** mm_malloc of mm_old.c up to the search: no block for a request of 0, else asize as computed. */
  function OldRequestSize(size: int): Option<int>
    requires 0 <= size < SIZE_T_LIMIT
  {
    if size <= 0 then None else Some(AdjustSizeAsWritten(size))
  }

  /**
   * The old allocator adjusts a request exactly as mm.c does: nothing for
   * a request of 0; otherwise, unless size + 15 wraps, a multiple of 8 of
   * at least 16 bytes in [size + 8, size + 16), the value of the corrected
   * AdjustSize. When the sum wraps the block is too small for any block.
   */
  lemma OldRequestSizeBounds(size: int)
    requires 0 <= size < SIZE_T_LIMIT
    ensures OldRequestSize(size).None? <==> size == 0
    ensures 0 < size && size + OVERHEAD + (DSIZE - 1) < SIZE_T_LIMIT ==>
              && OldRequestSize(size) == AdjustSize(size)
              && OldRequestSize(size).value % 8 == 0 && MIN_BLOCK <= OldRequestSize(size).value
              && size + OVERHEAD <= OldRequestSize(size).value < size + OVERHEAD + DSIZE
    ensures 0 < size && size + OVERHEAD + (DSIZE - 1) >= SIZE_T_LIMIT ==> OldRequestSize(size).value < MIN_BLOCK
  {
    if 0 < size {
      AdjustSizeAsWrittenWraps(size);
      if size + OVERHEAD + (DSIZE - 1) < SIZE_T_LIMIT {
        AdjustSizeAgrees(size);
      }
    }
  }
}

=== FILE: place.dfy ===
/**
 * place: carve an allocated block of asize bytes out of the front of a
 * listed free block, splitting off the remainder as a new free block when
 * it is large enough to stand on its own.
 */
module Placing {
  import opened Words
  import opened HeapState
  import opened Layout
  import opened FreeList
  import opened Invariant

  /**
   * place(bp, asize): unlink bp, then either write an allocated block of
   * asize followed by a free block of the remainder (pushed on the list),
   * or mark the whole block allocated. The remainder test is done on
   * size_t values, so csize - asize wraps when asize exceeds csize.
   */
  function Place(s: Heap, bp: int, asize: int): Heap
  {
    var csize := GetSize(s.mem, Hdrp(bp));
    var s1 := AllocateBlock(s, bp);
    if SizeSub(csize, asize) >= MIN_BLOCK then
      var s2 := SetTags(s1, bp, asize, 1);
      var nb := NextBlkp(s2.mem, bp);
      var s3 := SetTags(s2, nb, SizeSub(csize, asize), 0);
      FreeBlock(s3, nb)
    else
      SetTags(s1, bp, csize, 1)
  }

  // ---------------------------------------------------------------------
  // The abstract step

  /** Whether placing asize bytes in b leaves a remainder worth a block of its own. */
  predicate Splits(b: Block, asize: int)
  {
    b.size - asize >= MIN_BLOCK
  }

  /**
   * The blocks a free block becomes: an allocated block at the same address
   * that holds at least asize bytes and wastes less than a minimum block,
   * then, when the block splits, a free block up to the old end.
   */
  function Carve(b: Block, asize: int): (r: seq<Block>)
    requires asize <= b.size
    ensures 1 <= |r| <= 2
    ensures r[0].bp == b.bp && r[0].alloc
    ensures asize <= r[0].size && r[0].size - asize < MIN_BLOCK
    ensures End(r[|r| - 1]) == End(b)
    ensures |r| == 2 <==> Splits(b, asize)
    ensures |r| == 2 ==> r[1].bp == End(r[0]) && !r[1].alloc
    ensures |r| == 2 ==> r[0].size == asize && r[1].size == b.size - asize
    ensures |r| == 1 ==> r[0].size == b.size
  {
    if Splits(b, asize) then [Block(b.bp, asize, true), Block(b.bp + asize, b.size - asize, false)]
    else [Block(b.bp, b.size, true)]
  }

  /** The block sequence after placing asize bytes in the free block j. */
  function Placed(bs: seq<Block>, j: int, asize: int): seq<Block>
    requires 0 <= j < |bs| && asize <= bs[j].size
  {
    Splice(bs, j, j + 1, Carve(bs[j], asize))
  }

  /** The free list after placing: bs[j] leaves it, and a split-off remainder goes on at the head. */
  function PlacedList(bs: seq<Block>, j: int, asize: int, fl: seq<int>): seq<int>
    requires 0 <= j < |bs|
  {
    if Splits(bs[j], asize) then [bs[j].bp + asize] + Unlist(fl, bs[j].bp)
    else Unlist(fl, bs[j].bp)
  }

  // ---------------------------------------------------------------------
  // The concrete results in normal form

  /** The next-block macro sees the size SetTags has just written. */
  lemma SetTagsNext(s: Heap, bp: int, size: int, alloc: int)
    requires size % 8 == 0 && size >= DSIZE
    requires alloc == 0 || alloc == 1
    ensures NextBlkp(SetTags(s, bp, size, alloc).mem, bp) == bp + size
  {
    SetTagsWrites(s, bp, size, alloc);
    TagAt(SetTags(s, bp, size, alloc).mem, bp - WSIZE, size, alloc);
  }

  /** With a remainder of at least a minimum block, place writes two blocks and pushes the second. */
  lemma PlaceSplitIs(s: Heap, bp: int, csize: int, asize: int, rest: int)
    requires GetSize(s.mem, Hdrp(bp)) == csize
    requires SizeSub(csize, asize) == rest && rest >= MIN_BLOCK
    requires NextBlkp(SetTags(AllocateBlock(s, bp), bp, asize, 1).mem, bp) == bp + asize
    ensures Place(s, bp, asize)
         == FreeBlock(SetTags(SetTags(AllocateBlock(s, bp), bp, asize, 1), bp + asize, rest, 0), bp + asize)
  {
  }

  /** With a smaller remainder, place marks the whole block allocated. */
  lemma PlaceWholeIs(s: Heap, bp: int, csize: int, asize: int)
    requires GetSize(s.mem, Hdrp(bp)) == csize
    requires SizeSub(csize, asize) < MIN_BLOCK
    ensures Place(s, bp, asize) == SetTags(AllocateBlock(s, bp), bp, csize, 1)
  {
  }

  // ---------------------------------------------------------------------
  // place with asize 0, the size mm_malloc computes when its sum wraps

  /**
   * Tags of size 0: FTRP(bp) is bp-8, the word below the header, and
   * NEXT_BLKP(bp) is bp itself.
   */
  lemma ZeroTags(t: Heap, bp: int)
    ensures Get(SetTags(t, bp, 0, 1).mem, bp - WSIZE) == Pack(0, 1)
    ensures Get(SetTags(t, bp, 0, 1).mem, bp - DSIZE) == Pack(0, 1)
    ensures NextBlkp(SetTags(t, bp, 0, 1).mem, bp) == bp
    ensures forall q :: q != bp - WSIZE && q != bp - DSIZE
                        ==> Get(SetTags(t, bp, 0, 1).mem, q) == Get(t.mem, q)
  {
    PackRoundTrip(0, 1);
    var s1 := Put(t, Hdrp(bp), Pack(0, 1));
    TagAt(s1.mem, bp - WSIZE, 0, 1);
    TagAt(SetTags(t, bp, 0, 1).mem, bp - WSIZE, 0, 1);
  }

  /**
   * The block at bp is free with its whole size c and heads the list, and
   * the word below its header reads PACK(0, 1).
   */
  predicate RelistedWhole(r: Heap, bp: int, c: int)
  {
    Get(r.mem, Hdrp(bp)) == Pack(c, 0) && r.head == bp && Get(r.mem, bp - DSIZE) == Pack(0, 1)
  }

  /**
   * place(bp, 0) on a free block of a valid heap: the "remainder" starts at
   * bp itself, so bp keeps a free header of its whole size and goes back on
   * the list as its head, while the word below its header (the previous
   * block's footer, or the prologue footer) now reads PACK(0, 1).
   */
  lemma PlaceZeroRelists(s: Heap, bs: seq<Block>, fl: seq<int>, j: int)
    requires Valid(s, bs, fl)
    requires 0 <= j < |bs| && !bs[j].alloc && bs[j].size < SIZE_T_LIMIT
    ensures RelistedWhole(Place(s, bs[j].bp, 0), bs[j].bp, bs[j].size)
  {
    ZeroPrepared(s, bs, fl, j);
    PlaceZeroAt(s, bs[j].bp, bs[j].size);
  }

  /** The list head is not one of the words place(bp, 0) stores to or reads back. */
  predicate ZeroHeadApart(s1: Heap, bp: int)
  {
    && s1.head != bp && s1.head != bp + WSIZE
    && (s1.head != s1.heapList && s1.head != NULL ==> s1.head != bp - WSIZE && s1.head != bp - DSIZE)
  }

  /** What a valid heap guarantees about free block j before place(bp, 0) runs. */
  lemma ZeroPrepared(s: Heap, bs: seq<Block>, fl: seq<int>, j: int)
    requires Valid(s, bs, fl)
    requires 0 <= j < |bs| && !bs[j].alloc
    ensures GetSize(s.mem, Hdrp(bs[j].bp)) == bs[j].size
    ensures bs[j].size % 8 == 0 && bs[j].size >= MIN_BLOCK
    ensures ZeroHeadApart(AllocateBlock(s, bs[j].bp), bs[j].bp)
  {
    var bp := bs[j].bp;
    MacrosAt(s.mem, s.heapList, s.brk, bs, j);
    Placement(s.heapList, s.brk, bs, j);
    assert bp in FreeBps(bs);
    UnlinkStep(s, bs, fl, bp);
    HeadApart(AllocateBlock(s, bp), bs, fl, j);
  }

  /** place(bp, 0) in terms of memory alone. */
  lemma PlaceZeroAt(s: Heap, bp: int, c: int)
    requires GetSize(s.mem, Hdrp(bp)) == c
    requires c % 8 == 0 && MIN_BLOCK <= c < SIZE_T_LIMIT
    requires ZeroHeadApart(AllocateBlock(s, bp), bp)
    ensures RelistedWhole(Place(s, bp, 0), bp, c)
  {
    ZeroTags(AllocateBlock(s, bp), bp);
    PlaceSplitIs(s, bp, c, 0, c);
    ZeroPlaceTail(AllocateBlock(s, bp), bp, c);
  }

  /** The stores of place(bp, 0) after the unlink, given a list head away from bp's words. */
  lemma ZeroPlaceTail(s1: Heap, bp: int, c: int)
    requires c % 8 == 0 && c >= MIN_BLOCK
    requires ZeroHeadApart(s1, bp)
    ensures RelistedWhole(FreeBlock(SetTags(SetTags(s1, bp, 0, 1), bp, c, 0), bp), bp, c)
  {
    ZeroTags(s1, bp);
    var s2 := SetTags(s1, bp, 0, 1);
    SetTagsWrites(s2, bp, c, 0);
    var s3 := SetTags(s2, bp, c, 0);
    FreeBlockWords(s3, bp);
    PackRoundTrip(c, 0);
  }

  /**
   * After unlinking free block j, the list head is NULL, p_heap_list, or
   * another free block: never block j's link words or the word below its
   * header.
   */
  lemma HeadApart(s1: Heap, bs: seq<Block>, fl: seq<int>, j: int)
    requires Tiled(s1.heapList, s1.brk, bs) && Listed(bs, fl)
    requires 0 <= j < |bs| && !bs[j].alloc
    requires ListAgree(s1, Unlist(fl, bs[j].bp))
    ensures s1.head != bs[j].bp && s1.head != bs[j].bp + WSIZE
    ensures s1.head != s1.heapList && s1.head != NULL ==>
              s1.head != bs[j].bp - WSIZE && s1.head != bs[j].bp - DSIZE
  {
    var bp := bs[j].bp;
    var fl' := Unlist(fl, bp);
    Placement(s1.heapList, s1.brk, bs, j);
    if |fl'| > 0 {
      UnlistMembers(fl, bp, fl'[0]);
      assert fl'[0] in FreeBps(bs);
      var i :| 0 <= i < |bs| && !bs[i].alloc && bs[i].bp == fl'[0];
      Disjoint(bs, i, j);
    }
  }

  // ---------------------------------------------------------------------
  // Preservation of the invariant

  /** Taking a free block out of a heap without adjacent free blocks keeps it so. */
  lemma CarveNoAdjacentFree(bs: seq<Block>, j: int, asize: int)
    requires NoAdjacentFree(bs)
    requires 0 <= j < |bs| && !bs[j].alloc && asize <= bs[j].size
    ensures NoAdjacentFree(Placed(bs, j, asize))
  {
    var mid := Carve(bs[j], asize);
    var r := Placed(bs, j, asize);
    forall i | 0 <= i < |r| - 1
      ensures r[i].alloc || r[i + 1].alloc
    {
      SpliceAt(bs, j, j + 1, mid, i);
      SpliceAt(bs, j, j + 1, mid, i + 1);
      if i == j + |mid| - 1 && |mid| == 2 {
        assert r[i + 1] == bs[j + 1];
      }
    }
  }

  /** The free blocks after placing, against the list after unlinking bs[j]. */
  lemma PlacedFreeBps(h: int, brk: int, bs: seq<Block>, j: int, asize: int, y: int)
    requires Tiled(h, brk, bs)
    requires 0 <= j < |bs| && !bs[j].alloc && asize <= bs[j].size
    ensures y in FreeBps(Placed(bs, j, asize))
        <==> (y in FreeBps(bs) && y != bs[j].bp) || (Splits(bs[j], asize) && y == bs[j].bp + asize)
  {
    var mid := Carve(bs[j], asize);
    FreeBpsSplice(h, brk, bs, j, j + 1, mid, y);
    assert bs[j..j + 1] == [bs[j]];
    FreeBpsOne(bs[j], y);
    if |mid| == 2 {
      assert mid == [mid[0]] + [mid[1]];
      FreeBpsConcat([mid[0]], [mid[1]]);
      FreeBpsOne(mid[0], y);
      FreeBpsOne(mid[1], y);
    } else {
      assert mid == [mid[0]];
      FreeBpsOne(mid[0], y);
    }
  }

  /** The tags of an allocated block of asize at bp and of a free block of rest right after it. */
  ghost predicate SplitTags(m: Mem, bp: int, asize: int, rest: int)
  {
    && Get(m, bp - WSIZE) == Pack(asize, 1)
    && Get(m, bp + asize - DSIZE) == Pack(asize, 1)
    && Get(m, bp + asize - WSIZE) == Pack(rest, 0)
    && Get(m, bp + asize + rest - DSIZE) == Pack(rest, 0)
  }

  /** SplitTags are the Tag words of the two blocks the split makes. */
  lemma SplitTagsAgree(m: Mem, bp: int, asize: int, rest: int)
    requires SplitTags(m, bp, asize, rest)
    requires asize % 8 == 0 && rest % 8 == 0
    ensures var mid := [Block(bp, asize, true), Block(bp + asize, rest, false)];
      && (forall k :: 0 <= k < |mid| ==> Get(m, mid[k].bp - WSIZE) == Tag(mid[k]))
      && (forall k :: 0 <= k < |mid| ==> Get(m, End(mid[k]) - DSIZE) == Tag(mid[k]))
  {
    PackRoundTrip(asize, 1);
    PackRoundTrip(rest, 0);
  }

  /** The words the split writes: two tags for each of the two blocks, and nothing else. */
  lemma SplitWords(s: Heap, bp: int, asize: int, rest: int)
    requires asize % 8 == 0 && asize >= MIN_BLOCK
    requires rest % 8 == 0 && rest >= MIN_BLOCK
    ensures var s3 := SetTags(SetTags(s, bp, asize, 1), bp + asize, rest, 0);
      && s3 == s.(mem := s3.mem)
      && SplitTags(s3.mem, bp, asize, rest)
      && (forall a :: a < bp - WSIZE || a >= bp + asize + rest - WSIZE ==> Get(s3.mem, a) == Get(s.mem, a))
  {
    var s2 := SetTags(s, bp, asize, 1);
    SetTagsWrites(s, bp, asize, 1);
    SetTagsWrites(s2, bp + asize, rest, 0);
  }

  /**
   * Writing an allocated block of asize and a free remainder over the free
   * block bs[j] rewrites the tiling as Placed, and a list of other free
   * blocks still holds and does not list the remainder.
   */
  lemma SplitRewrite(s: Heap, s3: Heap, bs: seq<Block>, fl: seq<int>, j: int, asize: int)
    requires Tiled(s.heapList, s.brk, bs) && TagsAgree(s.mem, s.heapList, s.brk, bs)
    requires ListAgree(s, fl)
    requires 0 <= j < |bs| && !bs[j].alloc
    requires asize % 8 == 0 && MIN_BLOCK <= asize && Splits(bs[j], asize)
    requires forall y :: y in fl ==> y in FreeBps(bs) && y != bs[j].bp
    requires s3 == s.(mem := s3.mem)
    requires SplitTags(s3.mem, bs[j].bp, asize, bs[j].size - asize)
    requires forall a :: a < bs[j].bp - WSIZE || a >= bs[j].bp + asize + (bs[j].size - asize) - WSIZE
                         ==> Get(s3.mem, a) == Get(s.mem, a)
    ensures Tiled(s.heapList, s.brk, Placed(bs, j, asize))
    ensures TagsAgree(s3.mem, s.heapList, s.brk, Placed(bs, j, asize))
    ensures ListAgree(s3, fl)
    ensures forall y :: y in fl ==> y != bs[j].bp + asize
  {
    var bp, rest := bs[j].bp, bs[j].size - asize;
    var mid := Carve(bs[j], asize);
    AddAligned(bs[j].size, -asize) by {
      assert -asize == 8 * (-(asize / 8));
    }
    assert mid == [Block(bp, asize, true), Block(bp + asize, rest, false)];
    SplitTagsAgree(s3.mem, bp, asize, rest);
    assert bs[j..j + 1] == [bs[j]];
    forall y | y in fl
      ensures y in FreeBps(bs) && y !in FreeBps(bs[j..j + 1])
    {
      FreeBpsOne(bs[j], y);
    }
    RewriteStep(s, s3, bs, fl, j, j + 1, mid);
    forall y | y in fl
      ensures y != bp + asize
    {
      assert mid == [mid[0]] + [mid[1]];
      FreeBpsConcat([mid[0]], [mid[1]]);
      FreeBpsOne(mid[1], y);
    }
  }

  /** Marking the free block bs[j] allocated over its whole size rewrites the tiling as Placed. */
  lemma WholeRewrite(s: Heap, bs: seq<Block>, fl: seq<int>, j: int, asize: int)
    requires Tiled(s.heapList, s.brk, bs) && TagsAgree(s.mem, s.heapList, s.brk, bs)
    requires ListAgree(s, fl)
    requires 0 <= j < |bs| && !bs[j].alloc
    requires asize <= bs[j].size && !Splits(bs[j], asize)
    requires forall y :: y in fl ==> y in FreeBps(bs) && y != bs[j].bp
    ensures Tiled(s.heapList, s.brk, Placed(bs, j, asize))
    ensures TagsAgree(SetTags(s, bs[j].bp, bs[j].size, 1).mem, s.heapList, s.brk, Placed(bs, j, asize))
    ensures ListAgree(SetTags(s, bs[j].bp, bs[j].size, 1), fl)
  {
    var b := Block(bs[j].bp, bs[j].size, true);
    assert Carve(bs[j], asize) == [b];
    SetTagsWrites(s, b.bp, b.size, 1);
    assert bs[j..j + 1] == [bs[j]];
    forall y | y in fl
      ensures y in FreeBps(bs) && y !in FreeBps(bs[j..j + 1])
    {
      FreeBpsOne(bs[j], y);
    }
    RewriteOne(s, SetTags(s, b.bp, b.size, 1), bs, fl, j, j + 1, b);
  }

  /**
   * The split, once bs[j] has been unlinked: the two blocks are written and
   * the remainder is pushed, which completes the invariant.
   */
  lemma SplitValid(s1: Heap, s3: Heap, bs: seq<Block>, fl1: seq<int>, j: int, asize: int)
    requires Tiled(s1.heapList, s1.brk, bs) && TagsAgree(s1.mem, s1.heapList, s1.brk, bs)
    requires s1.brk <= s1.limit && NoAdjacentFree(bs)
    requires ListAgree(s1, fl1)
    requires 0 <= j < |bs| && !bs[j].alloc
    requires asize % 8 == 0 && MIN_BLOCK <= asize && Splits(bs[j], asize)
    requires forall y :: y in fl1 <==> y in FreeBps(bs) && y != bs[j].bp
    requires s3 == s1.(mem := s3.mem)
    requires SplitTags(s3.mem, bs[j].bp, asize, bs[j].size - asize)
    requires forall a :: a < bs[j].bp - WSIZE || a >= bs[j].bp + asize + (bs[j].size - asize) - WSIZE
                         ==> Get(s3.mem, a) == Get(s1.mem, a)
    ensures Valid(FreeBlock(s3, bs[j].bp + asize), Placed(bs, j, asize), [bs[j].bp + asize] + fl1)
  {
    var bp := bs[j].bp;
    SplitRewrite(s1, s3, bs, fl1, j, asize);
    CarveNoAdjacentFree(bs, j, asize);
    forall y
      ensures y in fl1 <==> y in FreeBps(Placed(bs, j, asize)) && y != bp + asize
    {
      PlacedFreeBps(s1.heapList, s1.brk, bs, j, asize, y);
    }
    SpliceAt(bs, j, j + 1, Carve(bs[j], asize), j + 1);
    assert Placed(bs, j, asize)[j + 1].bp == bp + asize;
    PushAt(s3, Placed(bs, j, asize), fl1, j + 1, bp + asize);
  }

  /** The split's two SetTags and the push, from the state where bs[j] has been unlinked. */
  lemma SplitFrom(s1: Heap, bs: seq<Block>, fl1: seq<int>, j: int, asize: int)
    requires Tiled(s1.heapList, s1.brk, bs) && TagsAgree(s1.mem, s1.heapList, s1.brk, bs)
    requires s1.brk <= s1.limit && NoAdjacentFree(bs)
    requires ListAgree(s1, fl1)
    requires 0 <= j < |bs| && !bs[j].alloc
    requires asize % 8 == 0 && MIN_BLOCK <= asize && Splits(bs[j], asize)
    requires forall y :: y in fl1 <==> y in FreeBps(bs) && y != bs[j].bp
    ensures Valid(FreeBlock(SetTags(SetTags(s1, bs[j].bp, asize, 1), bs[j].bp + asize, bs[j].size - asize, 0),
                            bs[j].bp + asize),
                  Placed(bs, j, asize), [bs[j].bp + asize] + fl1)
  {
    SplitWordsAt(s1, bs, j, asize);
    SplitValid(s1, SetTags(SetTags(s1, bs[j].bp, asize, 1), bs[j].bp + asize, bs[j].size - asize, 0), bs, fl1, j, asize);
  }

  /** SplitWords for block j, in the terms SplitValid expects. */
  lemma SplitWordsAt(s1: Heap, bs: seq<Block>, j: int, asize: int)
    requires Tiled(s1.heapList, s1.brk, bs)
    requires 0 <= j < |bs|
    requires asize % 8 == 0 && MIN_BLOCK <= asize && Splits(bs[j], asize)
    ensures var s3 := SetTags(SetTags(s1, bs[j].bp, asize, 1), bs[j].bp + asize, bs[j].size - asize, 0);
      && s3 == s1.(mem := s3.mem)
      && SplitTags(s3.mem, bs[j].bp, asize, bs[j].size - asize)
      && (forall a :: a < bs[j].bp - WSIZE || a >= bs[j].bp + asize + (bs[j].size - asize) - WSIZE
                      ==> Get(s3.mem, a) == Get(s1.mem, a))
  {
    assert WellSized(bs[j]);
    SubAligned(bs[j].size, asize);
    SplitWords(s1, bs[j].bp, asize, bs[j].size - asize);
  }

  /** The split case of place restores the invariant. */
  lemma PlaceSplitValid(s: Heap, bs: seq<Block>, fl: seq<int>, j: int, asize: int)
    requires Valid(s, bs, fl)
    requires 0 <= j < |bs| && !bs[j].alloc
    requires asize % 8 == 0 && MIN_BLOCK <= asize <= bs[j].size
    requires Splits(bs[j], asize)
    ensures Valid(FreeBlock(SetTags(SetTags(AllocateBlock(s, bs[j].bp), bs[j].bp, asize, 1),
                                    bs[j].bp + asize, bs[j].size - asize, 0), bs[j].bp + asize),
                  Placed(bs, j, asize), PlacedList(bs, j, asize, fl))
  {
    var bp := bs[j].bp;
    assert bp in FreeBps(bs);
    UnlinkStep(s, bs, fl, bp);
    SplitFrom(AllocateBlock(s, bp), bs, Unlist(fl, bp), j, asize);
  }

  /** The whole-block case of place restores the invariant. */
  lemma PlaceWholeValid(s: Heap, bs: seq<Block>, fl: seq<int>, j: int, asize: int)
    requires Valid(s, bs, fl)
    requires 0 <= j < |bs| && !bs[j].alloc
    requires asize <= bs[j].size
    requires !Splits(bs[j], asize)
    ensures Valid(SetTags(AllocateBlock(s, bs[j].bp), bs[j].bp, bs[j].size, 1),
                  Placed(bs, j, asize), PlacedList(bs, j, asize, fl))
  {
    var bp := bs[j].bp;
    var s1 := AllocateBlock(s, bp);
    var fl1 := Unlist(fl, bp);
    assert bp in FreeBps(bs);
    var i :| 0 <= i < |fl| && fl[i] == bp;
    AllocateBlockWords(s, fl, i);
    UnlinkStep(s, bs, fl, bp);
    WholeRewrite(s1, bs, fl1, j, asize);
    SetTagsWrites(s1, bp, bs[j].size, 1);
    CarveNoAdjacentFree(bs, j, asize);
    forall y
      ensures y in fl1 <==> y in FreeBps(Placed(bs, j, asize))
    {
      PlacedFreeBps(s.heapList, s.brk, bs, j, asize, y);
    }
  }

  /** place on a block it splits. */
  lemma PlaceSplits(s: Heap, bs: seq<Block>, fl: seq<int>, j: int, asize: int)
    requires Valid(s, bs, fl)
    requires 0 <= j < |bs| && !bs[j].alloc
    requires asize % 8 == 0 && MIN_BLOCK <= asize && Splits(bs[j], asize)
    requires bs[j].size < SIZE_T_LIMIT
    ensures Valid(Place(s, bs[j].bp, asize), Placed(bs, j, asize), PlacedList(bs, j, asize, fl))
  {
    TagAt(s.mem, bs[j].bp - WSIZE, bs[j].size, 0);
    assert WellSized(bs[j]);
    SubAligned(bs[j].size, asize);
    SetTagsNext(AllocateBlock(s, bs[j].bp), bs[j].bp, asize, 1);
    PlaceSplitIs(s, bs[j].bp, bs[j].size, asize, bs[j].size - asize);
    ValidEq(Place(s, bs[j].bp, asize),
            FreeBlock(SetTags(SetTags(AllocateBlock(s, bs[j].bp), bs[j].bp, asize, 1),
                              bs[j].bp + asize, bs[j].size - asize, 0), bs[j].bp + asize),
            Placed(bs, j, asize), PlacedList(bs, j, asize, fl));
    PlaceSplitValid(s, bs, fl, j, asize);
  }

  /** place on a block it hands out whole. */
  lemma PlaceWhole(s: Heap, bs: seq<Block>, fl: seq<int>, j: int, asize: int)
    requires Valid(s, bs, fl)
    requires 0 <= j < |bs| && !bs[j].alloc
    requires 0 <= asize <= bs[j].size && !Splits(bs[j], asize)
    requires bs[j].size < SIZE_T_LIMIT
    ensures Valid(Place(s, bs[j].bp, asize), Placed(bs, j, asize), PlacedList(bs, j, asize, fl))
  {
    TagAt(s.mem, bs[j].bp - WSIZE, bs[j].size, 0);
    PlaceWholeIs(s, bs[j].bp, bs[j].size, asize);
    PlaceWholeValid(s, bs, fl, j, asize);
  }

  /**
   * place on a listed free block of the heap with asize at most its size
   * restores the invariant: the block is replaced by Carve's blocks (an
   * allocated block at bp, then the free remainder when it splits), it
   * leaves the list, the remainder goes on at the head, and no other block
   * changes.
   */
  lemma PlaceValid(s: Heap, bs: seq<Block>, fl: seq<int>, j: int, asize: int)
    requires Valid(s, bs, fl)
    requires 0 <= j < |bs| && !bs[j].alloc
    requires asize % 8 == 0 && MIN_BLOCK <= asize <= bs[j].size
    requires bs[j].size < SIZE_T_LIMIT
    ensures Valid(Place(s, bs[j].bp, asize), Placed(bs, j, asize), PlacedList(bs, j, asize, fl))
  {
    if Splits(bs[j], asize) {
      PlaceSplits(s, bs, fl, j, asize);
    } else {
      PlaceWhole(s, bs, fl, j, asize);
    }
  }

  /** place leaves the provider's limit alone. */
  lemma PlaceLimit(s: Heap, bp: int, asize: int)
    ensures Place(s, bp, asize).limit == s.limit
    ensures Place(s, bp, asize).heapList == s.heapList && Place(s, bp, asize).brk == s.brk
  {
    var csize := GetSize(s.mem, Hdrp(bp));
    var s1 := AllocateBlock(s, bp);
    AllocateBlockLimit(s, bp);
    if SizeSub(csize, asize) >= MIN_BLOCK {
      var s2 := SetTags(s1, bp, asize, 1);
      var nb := NextBlkp(s2.mem, bp);
      FreeBlockLimit(SetTags(s2, nb, SizeSub(csize, asize), 0), nb);
    }
  }
}

=== FILE: words.dfy ===
/**
 * Machine words and boundary tags.
 *
 * The allocator targets a 32-bit machine: a word, a size_t and a pointer are
 * all four bytes. Memory is modelled as a map from byte addresses to word
 * cells; a cell that was never written reads as 0. Every header and footer
 * is one such word holding a block size (a multiple of 8) with the allocated
 * flag in bit 0.
 */
module Words {

  const WSIZE: int := 4          // word size (bytes)
  const DSIZE: int := 8          // double word size (bytes)
  const CHUNKSIZE: int := 4096   // default heap extension (bytes)
  const OVERHEAD: int := 8       // header plus footer (bytes)
  /** Smallest block that can hold a header, a footer and the two list links. */
  const MIN_BLOCK: int := DSIZE + OVERHEAD
  const NULL: int := 0
  /** One more than the largest size_t value on the 32-bit target. */
  const SIZE_T_LIMIT: int := 0x1_0000_0000

  type Mem = map<int, int>

  function Max(x: int, y: int): int { if x > y then x else y }

  /**
   * PACK(size, alloc) = size | alloc. The flag is always 0 or 1, so the
   * bitwise or sets bit 0 exactly when alloc is 1.
   */
  function Pack(size: int, alloc: int): int
    requires alloc == 0 || alloc == 1
  {
    if alloc == 1 && size % 2 == 0 then size + 1 else size
  }

  /** w & ~0x7: the word with its three low bits cleared. */
  function SizeField(w: int): int { w - w % 8 }

  /** w & 0x1: bit 0 of the word. */
  function AllocField(w: int): int { w % 2 }

  /** GET(p): the word at address p. */
  function Get(m: Mem, p: int): int { if p in m then m[p] else 0 }

  function GetSize(m: Mem, p: int): int { SizeField(Get(m, p)) }

  function GetAlloc(m: Mem, p: int): int { AllocField(Get(m, p)) }

  /** HDRP: the header word sits just below the payload. */
  function Hdrp(bp: int): int { bp - WSIZE }

  /** FTRP: the footer is the last word of the block, found from the header's size. */
  function Ftrp(m: Mem, bp: int): int { bp + GetSize(m, Hdrp(bp)) - DSIZE }

  /** NEXT_BLKP: step over this block using the size in its header. */
  function NextBlkp(m: Mem, bp: int): int { bp + GetSize(m, bp - WSIZE) }

  /** PREV_BLKP: step back using the size in the previous block's footer. */
  function PrevBlkp(m: Mem, bp: int): int { bp - GetSize(m, bp - DSIZE) }

  /** PREV(bp): the predecessor link, stored in the first payload word. */
  function PrevLink(m: Mem, bp: int): int { Get(m, bp) }

  /** SUCC(bp): the successor link, stored in the second payload word. */
  function SuccLink(m: Mem, bp: int): int { Get(m, bp + WSIZE) }

  /** A multiple of 8 is even, and adding a flag below 8 sets exactly the low bits. */
  lemma AlignedLowBits(size: int, a: int)
    requires size % 8 == 0
    requires 0 <= a < 8
    ensures (size + a) % 8 == a
    ensures (size + a) % 2 == a % 2
  {
    var q := size / 8;
    assert (size + a) / 8 == q;
    assert (size + a) / 2 == 4 * q + a / 2;
  }

  /** Unpacking a packed tag gives back the size and the flag. */
  lemma PackRoundTrip(size: int, alloc: int)
    requires size % 8 == 0
    requires alloc == 0 || alloc == 1
    ensures Pack(size, alloc) == size + alloc
    ensures SizeField(Pack(size, alloc)) == size
    ensures AllocField(Pack(size, alloc)) == alloc
  {
    AlignedLowBits(size, 0);
    AlignedLowBits(size, alloc);
  }

  /** Reading the fields of a cell that holds a tag (size + alloc, i.e. the packed word). */
  lemma TagAt(m: Mem, p: int, size: int, alloc: int)
    requires size % 8 == 0
    requires alloc == 0 || alloc == 1
    requires Get(m, p) == size + alloc
    ensures GetSize(m, p) == size
    ensures GetAlloc(m, p) == alloc
  {
    AlignedLowBits(size, alloc);
  }

  /**
   * The macros applied to a block whose header holds (size, alloc) and whose
   * left neighbour's footer holds (psize, palloc): header at bp-4, footer at
   * bp+size-8, next block at bp+size, previous block at bp-psize.
   */
  lemma BlockOffsets(m: Mem, bp: int, size: int, alloc: int, psize: int, palloc: int)
    requires size % 8 == 0 && psize % 8 == 0
    requires alloc == 0 || alloc == 1
    requires palloc == 0 || palloc == 1
    requires Get(m, Hdrp(bp)) == size + alloc
    requires Get(m, bp - DSIZE) == psize + palloc
    ensures Hdrp(bp) == bp - 4
    ensures Ftrp(m, bp) == bp + size - 8
    ensures NextBlkp(m, bp) == bp + size
    ensures PrevBlkp(m, bp) == bp - psize
    ensures GetAlloc(m, Hdrp(bp)) == alloc
  {
    TagAt(m, bp - 4, size, alloc);
    TagAt(m, bp - 8, psize, palloc);
    assert GetSize(m, Hdrp(bp)) == size;
  }

  /**
   * a - b on size_t operands: the mathematical difference reduced modulo
   * 2^32, so a smaller minuend wraps around to a large value.
   */
  function SizeSub(a: int, b: int): (r: int)
    ensures 0 <= r < SIZE_T_LIMIT
    ensures 0 <= b <= a < SIZE_T_LIMIT ==> r == a - b
    ensures 0 <= a < b < SIZE_T_LIMIT ==> r == a - b + SIZE_T_LIMIT
  {
    (a - b) % SIZE_T_LIMIT
  }

  /**
   * extend_heap's byte count for a number of words: rounded up to an even
   * number of words so that the heap stays 8-byte aligned.
   */
  function ExtendBytes(words: int): (size: int)
    requires words >= 0
    ensures size % 8 == 0
    ensures words * 4 <= size < words * 4 + DSIZE
  {
    assert words % 2 == 1 ==> words + 1 == 2 * ((words + 1) / 2);
    assert words % 2 == 0 ==> words == 2 * (words / 2);
    if words % 2 == 1 then (words + 1) * 4 else words * 4
  }
  /** A byte count that is already a multiple of 8 survives the round trip through words. */
  lemma ExtendBytesExact(n: int)
    requires n >= 0 && n % 8 == 0
    ensures ExtendBytes(n / WSIZE) == n
  {
    var q := n / 8;
    assert n == 8 * q;
    assert n / WSIZE == 2 * q;
    assert (2 * q) % 2 == 0;
  }

}

=== FILE: wrappers.dfy ===
/** The optional value used for results that may be absent (a NULL return in the allocator). */
module Wrappers {

  datatype Option<+T> = None | Some(value: T)

}
